=== FILE: README.md ===
# allsorts-tools, modelled in Dafny

allsorts-tools is a set of command-line font tools built on the allsorts
font library. The library does the parsing, shaping and subsetting. What
the tools add themselves, and what this project models, is:

- the glyph positioning pass and the `shape` subcommand that prints it, and the script direction table;
- the two SVG writers: the current one used by `svg` and `view`, and the
  older one used by the text-rendering-test tool;
- the `--margin` and colour option parsers;
- the bitmap unpacking of `bitmaps`;
- the glyph selection of `subset`;
- the argument readers of `view`;
- the line format of `cmap`;
- the control logic of `dump`;
- the stand-alone older tools `dump`, `dump_woff`, `subset` and `shape`;
- the font-fallback example.

Every call into the font library becomes a function-typed parameter, or an
input holding the library's result. Examples are a cmap lookup, a `post`
table, a CFF charset, shaping with GSUB and GPOS, and horizontal advances.
Rust panics (`expect`, `unwrap`, out-of-bounds indexing, `unimplemented!`)
become explicit error values, so the model can say when they happen.
Unsigned Rust integers are ranges of `int` (`u8`, `u16`, `u32`).

One module per concern:

- `Wrappers`, `Errors` and `Text`: Option/Result, the library's error
  values, and the Rust string and number helpers the tools use.
- `Tags`: OpenType tags and their display form.
- `Script`: the direction table and the testcase names.
- `Glyph`: the positioning pass.
- `ShapeCommand`: the `shape` subcommand.
- `Layout`, `Outline`, `Writer`, `SvgDocument`, `LegacyWriter`: the SVG
  writers.
- `Style`: margin and colour.
- `Bitmaps`.
- `Subset` and `LegacySubset`.
- `View`, `SvgTool`, `Cmap`, `NameTable`, `Dump`, `DumpWoff`, `ShapeTool`.
- `Fallback`: the font-fallback example.

## Model

| member | source | states |
|---|---|---|
| Wrappers.Collect | src/view.rs:112-118 | `collect::<Result<Vec<_>,_>>()`: Ok exactly when every element maps to Ok, and then holds the mapped values in order; an Err comes from an element all of whose predecessors mapped to Ok |
| Text.TrimSlice | src/view.rs:112-118 | `str::trim` keeps a contiguous slice: everything dropped in front and behind is whitespace, and what is kept starts and ends with non-whitespace |
| Text.TrimIdempotent | src/view.rs:112-118 | trimming twice is trimming once |
| Text.Split | src/writer.rs:54-55 | `str::split` gives one more part than there are separators, no part holds the separator, and joining the parts with it gives the string back |
| Text.SplitJoin | src/writer.rs:54-55 | splitting parts joined by a separator they do not contain gives the parts back |
| Text.SplitTrimJoin | src/view.rs:112-118 | the split-and-trim of items joined by commas is the items, provided they are trimmed and comma-free |
| Text.DigitsRoundTrip | src/view.rs:135-137 | the digits Rust prints for a number read back as that number in any radix from 2 to 16 |
| Text.Hex | src/cmap.rs:47-48 | `{:0w$X}`/`{:x}`: hexadecimal digits whose value is the number |
| Text.HexWidth | src/cmap.rs:47-48 | a number below 16^w is printed with exactly w digits |
| Text.Decimal | src/writer.rs:276 | `{}` of an unsigned number: decimal digits |
| Text.ParseUnsigned | src/view.rs:135-137 | `from_str`/`from_str_radix` on an unsigned type: Some exactly for an optional `+` followed by one or more digits of the radix whose value is below the type's limit, and then the value those digits denote, most significant first |
| Text.ParseDecimal | src/view.rs:135-137 | a number below the limit, printed in decimal, parses back to itself |
| Text.ParseHex | src/view.rs:120-124 | a number below the limit, printed in hexadecimal, parses back to itself |
| Text.Utf8 | src/writer.rs:98-99 | `as_bytes` has `len()` bytes |
| Text.Utf8LenAtLeastLength | src/writer.rs:92 | the byte length is at least the character count, with equality exactly for ASCII text |
| Text.FromU32 | src/view.rs:120-124 | `char::from_u32`: Some exactly for scalar values, and then the character with that code |
| Tags.Pack | src/script.rs:6-32 | four bytes packed big-endian: byte k of the result is the k-th argument |
| Tags.PackBytes | src/script.rs:6-32 | splitting a tag into its bytes and packing them again gives the tag |
| Tags.TagChars | subset.rs:368-384 | the four bytes of a tag as four characters, most significant first |
| Tags.DisplayTag | subset.rs:368-384 | `DisplayTag`: the four characters when every byte is printable ASCII, otherwise `0x` and eight hex digits whose value is the tag |
| Tags.HexName | subset.rs:368-384 | `0x{:08x}`: ten characters, `0x` then hex digits whose value is the tag |
| Tags.DisplayTagInjective | dump_woff.rs:144-160 | two tags that display alike are the same tag |
| Tags.TagOf | shape.rs:142-165 | the tag a printable four-character string spells displays as that string's characters |
| Tags.DisplayTagOf | dump_woff.rs:144-160 | a printable four-character name displays as itself |
| Tags.Accumulate | shape.rs:146-155 | the character loop of `tag_from_string`: Ok exactly when every character is printable ASCII, having counted all of them; otherwise BadValue |
| Tags.TagFromStringAsWritten | shape.rs:142-165 | the tool's `tag_from_string` as written: an error exactly for more than four bytes or a non-printable character |
| Tags.AsWrittenDivergesWhenShort | shape.rs:159-163 | for a valid name shorter than four characters the padding loop never ends, however much fuel it is given |
| Tags.AsWrittenDivergesOnEmpty | shape.rs:159-163 | the empty name never gets a result |
| Tags.TagFromString | shape.rs:142-165 | the corrected function: Ok exactly for at most four printable characters, and the tag then spells the name padded with spaces to four; otherwise BadValue |
| Tags.AccumulatePad | shape.rs:146-163 | the character loop followed by the corrected padding gives the tag of the space-padded name |
| Script.Direction | src/script.rs:37-70 | `direction`: right-to-left exactly for the tags that display as one of the listed script names |
| Script.RtlByName | src/script.rs:6-32 | a tag is in the right-to-left table exactly when its display form is one of the listed names |
| Script.NamesAreTags | src/script.rs:6-32 | every listed name is four printable characters and spells the tag at the same position of the table |
| Script.NkoNeedsPadding | src/script.rs:13 | N'Ko is right-to-left only as the space-padded tag `nko `; the unpadded three-byte value is left-to-right |
| Script.Unicode7RightToLeft | src/script.rs:26-32 | every script the table adds for Unicode 7.0 is right-to-left |
| Glyph.Make | src/glyph.rs:27-45 | `make`: unicodes `[ch]`, origin `Char(ch)`, the given index and variation, ligature position 0, every flag false |
| Glyph.Map | src/glyph.rs:14-25 | `map`: a cmap error is passed on; otherwise a glyph exactly when the cmap maps the character, made by `make` |
| Glyph.MadeUpright | src/glyph.rs:121-130 | a freshly made glyph is upright exactly when its character is |
| Glyph.GlyphAdvance | src/glyph.rs:97-119 | `glyph_advance`: in vertical text an upright glyph uses the vertical advance, or ascender minus descender when there is none; everything else uses the horizontal advance; the only error is a missing horizontal advance, naming the glyph; kerning is added. src/shape.rs:95-117 holds the same code |
| Glyph.Run | src/glyph.rs:47-95 | the first n steps succeed exactly when each of the first n infos fits, and then give n tuples |
| Glyph.CalculateGlyphPositions | src/glyph.rs:47-95 | `calculate_glyph_positions`: Ok exactly when every info fits (has an advance, and an overprinting mark's base is earlier); then one tuple per info, each placed at the sum of the earlier advances plus its own offset: Distance adds (dx, dy), MarkAnchor sits on an earlier base's anchor plus the base's Distance offset and stays at the pen when its base is not earlier, MarkOverprint copies its base's position. src/shape.rs:45-93 holds the same code |
| Glyph.RunPlaced | src/glyph.rs:53-93 | after any number of steps every tuple so far is placed as above |
| Glyph.FirstFailureDecides | src/glyph.rs:47-95 | the call fails with the failure of the first info that does not fit |
| Glyph.PrefixPositions | src/glyph.rs:47-95 | the tuples of the first k infos do not depend on the infos after them |
| Layout.Zip | src/writer.rs:234 | `zip`: as many pairs as the shorter input, pair k holding both k-th elements |
| Layout.Reverse | src/writer.rs:237 | `rev`: the same elements, last first |
| Layout.DrawOrder | src/writer.rs:232-238 | glyphs are drawn as laid out left to right, and reversed for right-to-left scripts |
| Layout.FirstOccurrences | src/writer.rs:265-290 | the distinct glyph indices, the same set as the input, no longer than it |
| Layout.FirstIndex | src/writer.rs:265-290 | the first position of an index: it holds the index and no earlier position does |
| Layout.FirstOccurrencesOrdered | src/writer.rs:265-290 | no index twice, ordered by first appearance |
| Outline.Number | src/writer.rs:528-608 | a printed coordinate never contains the letter `L` |
| Outline.Coord | src/writer.rs:528-540 | `{x},{y}` contains no `L` when the number format prints none |
| Outline.LastLineStart | src/writer.rs:616 | `rfind(" L")`: any index found leaves room for the two characters |
| Outline.LastLineStartFinds | src/writer.rs:616 | the index found starts a ` L` and no later index does; None exactly when there is no ` L` |
| Outline.LastLineIsAppended | src/writer.rs:542-553 | after a fresh ` L` with no `L` following, that one is the last |
| Outline.ViewStep | src/writer.rs:528-624 | in view mode every sink call just appends its command's text and leaves the tracker alone |
| Outline.TruncatingStep | src/writer.rs:528-608 | in text-rendering-test mode every call but `close` appends its text; only `move_to` changes the contour start |
| Outline.ViewFeed | src/writer.rs:528-624 | in view mode a glyph's path is every command's text, in order |
| Outline.DropsLineBackToStart | src/writer.rs:610-624 | text-rendering-test mode: a line back to the contour's start followed by `close` is replaced by ` Z` |
| Outline.KeepsOtherLine | src/writer.rs:610-624 | a line anywhere else is kept before the ` Z` |
| Outline.KeepsCurve | src/writer.rs:610-624 | a curve before `close` is never cut |
| Outline.MoveToStartsContour | src/writer.rs:528-540 | `move_to` records the transformed point as the contour start and clears the pending line |
| Outline.ClosedContour | src/writer.rs:528-624 | a whole contour `M a … L a Z` loses only its closing line |
| Outline.FeedKeepsStart | src/writer.rs:542-608 | drawing commands keep the contour start across any number of calls |
| Outline.LegacyStep | src/svg/writer.rs:175-217 | the older sink only appends to the path |
| Outline.LegacyIsView | src/svg/writer.rs:175-217 | the older sink draws exactly what the current one draws in view mode, `close` included |
| Writer.Gids | src/writer.rs:267 | the glyph index of each drawn item, in order |
| Writer.GlyphName | src/writer.rs:274-277 | the symbol name is the font's glyph name when it has one |
| Writer.FallbackName | src/writer.rs:274-277 | without one it is `gid` followed by a decimal that reads back as the glyph index |
| Writer.Step | src/writer.rs:266-291 | one iteration adds exactly one use |
| Writer.StepFacts | src/writer.rs:266-291 | a step fails exactly when it meets a new glyph whose outline visit fails; a seen glyph adds no symbol; a new one adds one |
| Writer.Build | src/writer.rs:243-300 | the loop over n items gives n uses |
| Writer.BuildPen | src/writer.rs:289-290 | after n items the pen has moved by the sum of their advances |
| Writer.BuildPoints | src/writer.rs:268-287 | use k is at the pen before item k plus the item's offset, through the transform |
| Writer.BuildIndexed | src/writer.rs:265-290 | one symbol per distinct glyph index in first-occurrence order; the map sends each index seen to its symbol; every use names its glyph's symbol |
| Writer.BuildDrawn | src/writer.rs:274-284 | each symbol holds its glyph's name, a crosshair origin exactly when view mode marks origins, and the path of its glyph's outline, whose visit succeeded: in view mode the plain path text, in text-rendering-test mode the truncating sink's output for that outline from some sink state |
| Writer.BuildFirstInfos | src/writer.rs:266-291 | each symbol carries the info of its glyph's first occurrence among the items drawn |
| Writer.KeptInfos | src/writer.rs:268-273 | a glyph already drawn keeps the info of its first occurrence |
| Writer.NewInfo | src/writer.rs:274-279 | a glyph drawn for the first time takes the info of the current item |
| Writer.BuildVisited | src/writer.rs:279 | every glyph with a symbol was visited successfully |
| Writer.BuildSucceeds | src/writer.rs:243-300 | the loop fails exactly when visiting some drawn glyph fails |
| SvgDocument.Id | src/writer.rs:462-469 | a symbol id is the glyph name in view mode, and the testcase name, a dot and the glyph name in text-rendering-test mode |
| SvgDocument.IdInjective | src/writer.rs:462-469 | within one mode, distinct glyph names give distinct ids |
| SvgDocument.AttributeName | src/writer.rs:471-513 | every attribute name starts with `data-` |
| SvgDocument.AttributeNamesDistinct | src/writer.rs:471-513 | no two keys share an attribute name |
| SvgDocument.ValueAttributes | src/writer.rs:483-494 | every view-mode symbol carries the glyph index and ligature position in decimal, and the origin |
| SvgDocument.FlagAttributes | src/writer.rs:495-509 | one `true` attribute for exactly each glyph flag that is set |
| SvgDocument.Data | src/writer.rs:471-513 | no attributes in text-rendering-test mode; in view mode the value attributes, the set flags, and `data-mark` exactly for MarkAnchor and MarkOverprint placements |
| SvgDocument.DataValues | src/writer.rs:483-487 | the view-mode values read back as the glyph's index and ligature position |
| SvgDocument.ColourAttribute | src/writer.rs:307-367 | a colour attribute is written exactly when a colour is set |
| SvgDocument.End | src/writer.rs:307-367 | `end`: every symbol, then every use in usage order, each use's href `#` and its symbol's id; in text-rendering-test mode no background and no fill |
| SvgDocument.HrefsResolve | src/writer.rs:307-367 | every href names a symbol of the document |
| SvgDocument.GlyphsToSvg | src/writer.rs:220-241 | a layout error is reported as such; any other error comes from building the SVG |
| SvgDocument.GlyphsToSvgSucceeds | src/writer.rs:220-300 | drawing fails exactly when the layout fails or visiting some drawn glyph's outline fails |
| SvgDocument.GlyphsToSvgUses | src/writer.rs:220-300 | one use per drawn glyph, in drawing order, naming that glyph's symbol, at the pen plus its offset |
| SvgDocument.GlyphsToSvgSymbols | src/writer.rs:220-300 | one symbol per distinct drawn glyph, in first-occurrence order, with its id, the data attributes of its first occurrence, and its outline's path: the plain path text in view mode, the truncating sink's output in text-rendering-test mode |
| SvgDocument.EndSymbols | src/writer.rs:329-355 | the symbol elements of a finished loop: ids, data of first occurrences, and paths |
| LegacyWriter.LegacyStep | src/svg/writer.rs:61-102 | a step fails exactly when it meets a new glyph whose outline visit fails |
| LegacyWriter.StepMirrors | src/svg/writer.rs:61-102 | one older step does what one current step does in plain view mode: same success, same names, same paths, same uses |
| LegacyWriter.BuildMirrors | src/svg/writer.rs:61-102 | the two loops run in lock step over any items |
| LegacyWriter.LegacyEnd | src/svg/writer.rs:115-159 | the symbols then the uses, ids `testcase.name`, each href `#` and its symbol's id, no background |
| LegacyWriter.LegacyGlyphsToSvg | src/svg/writer.rs:39-59 | a layout error is reported as such; any other error comes from building the SVG |
| LegacyWriter.LegacySucceeds | src/svg/writer.rs:39-102 | the older writer fails exactly when the current one does |
| LegacyWriter.LegacyUses | src/svg/writer.rs:39-159 | one use per drawn glyph, in drawing order, pointing at `#testcase.name` |
| LegacyWriter.LegacySymbols | src/svg/writer.rs:39-159 | one symbol per distinct drawn glyph, in first-occurrence order |
| Style.ParseAll | src/writer.rs:54-58 | the parts parse in order: Ok exactly when every part is a number, then those numbers; otherwise the first bad part |
| Style.MarginFromStr | src/writer.rs:53-77 | one number sets every side; four numbers are top, right, bottom and left; any other count is an error reporting the count |
| Style.MarginRoundTrip | src/writer.rs:53-77 | four numbers joined by commas read back as the four sides, in order |
| Style.MarginSingle | src/writer.rs:66-71 | a single number sets all four sides |
| Style.DecodePair | src/writer.rs:101 | `str::from_utf8` on a two-byte chunk: any string found encodes to exactly those bytes |
| Style.HexByte | src/writer.rs:101 | `u8::from_str_radix(_, 16)` |
| Style.PairResult | src/writer.rs:101 | a chunk that is not UTF-8 panics in the code as written and is an error in the corrected one; otherwise the chunk's hex value |
| Style.ParseColour | src/writer.rs:91-110 | a wrong byte length is the length error; Ok exactly for eight bytes whose four chunks all read as hex bytes, in the order red, green, blue, alpha |
| Style.ColourFromStrAsWritten | src/writer.rs:91-110 | `Colour::from_str` as written: a panic only ever follows an eight-byte input |
| Style.ColourFromStr | src/writer.rs:91-110 | the corrected parser never panics; where the written one panics it reports invalid UTF-8 and agrees with it everywhere else |
| Style.AsWrittenPanicsOnSplitCharacter | src/writer.rs:101 | `aéééb` is eight bytes, the written parser panics on it and the corrected one returns an error |
| Style.Hex2RoundTrip | src/writer.rs:116 | two hex digits of a byte read back as the byte |
| Style.ColourText | src/writer.rs:113-118 | `Display`: `#` then the red, green and blue bytes as two lower-case hex digits each |
| Style.ColourTextChannels | src/writer.rs:113-118 | each digit pair of the printed colour reads back as its channel |
| Style.HexRoundTrip | src/writer.rs:91-110 | eight hex digits of a colour parse back to the colour |
| Style.ColourRoundTrip | src/writer.rs:91-118 | the printed colour with the alpha digits appended parses back to the colour |
| Style.SignedDigitsAccepted | src/writer.rs:101 | `from_str_radix` takes a leading `+`, so `+f+f+f+f` is a colour |
| Bitmaps.Shape | src/bitmaps.rs:177-180 | a row of `width` pixels is whole bytes plus fewer than eight leftover bits |
| Bitmaps.BytesPerRow | src/bitmaps.rs:177-180 | bytes per output row: the row's bits rounded up to whole bytes |
| Bitmaps.ReadBits | src/bitmaps.rs:183-196 | the bit reader: Ok exactly when enough bits remain, then the bits' value, most significant first; otherwise the not-enough-data error with the position |
| Bitmaps.Row | src/bitmaps.rs:183-196 | a row has the output row's byte count |
| Bitmaps.RowContents | src/bitmaps.rs:183-196 | each whole byte of a row is the next eight bits of the stream, and the last byte holds the leftover bits at its top |
| Bitmaps.RowPadding | src/bitmaps.rs:191-194 | the bits below the leftover bits are zero |
| Bitmaps.Image | src/bitmaps.rs:171-200 | the image is `rows × bytes per row` long |
| Bitmaps.ImageRow | src/bitmaps.rs:183-196 | row r of the image is the row cut from the stream at bit `r × bits per row` |
| Bitmaps.ByteAlignedImage | src/bitmaps.rs:171-200 | when rows fill whole bytes the image is a prefix of the data |
| Bitmaps.ReadRow | src/bitmaps.rs:183-196 | the method reading one row succeeds exactly when the row's bits are present and returns the row |
| Bitmaps.UnpackRows | src/bitmaps.rs:183-196 | the row loop succeeds exactly when all rows' bits are present and returns the image |
| Bitmaps.UnpackBitAlignedData | src/bitmaps.rs:171-200 | `unpack_bit_aligned_data`: Ok exactly when the data holds height × bits per row bits; then height × bytes per row bytes, the image above |
| Bitmaps.PngColour | src/bitmaps.rs:98-102 | RGBA exactly for 32-bit strikes, grey otherwise |
| Bitmaps.PngDepth | src/bitmaps.rs:103-108 | the PNG bit depth is 1, 2, 4 or 8 |
| Bitmaps.PixelBits | src/bitmaps.rs:98-108 | channels times channel depth is the strike's bits per pixel |
| Bitmaps.DumpGlyph | src/bitmaps.rs:68-169 | one glyph: PNG data written as is, composites and zero-sized bitmaps only reported, byte-aligned data encoded as it is, bit-aligned data unpacked into a PNG of the strike's colour and depth; it fails exactly for a non-empty format 6 bitmap (`Unimplemented(6)`) or bit-aligned data too short for its rows (the unpacking error) |
| Bitmaps.Present | src/bitmaps.rs:63-66 | the glyphs in range with a bitmap, in increasing order |
| Bitmaps.AllDescribe | src/bitmaps.rs:57-117 | appending a described output keeps every output described |
| Bitmaps.DumpOne | src/bitmaps.rs:63-117 | look up and dump one glyph: nothing for a glyph without a bitmap, a lookup or dump error passed on |
| Bitmaps.DumpStrike | src/bitmaps.rs:57-117 | `dump_bitmaps`: Ok exactly when every glyph of the range looks up and dumps; then one output per glyph with a bitmap, in order, each what its bitmap dumps to; an error names a glyph that failed |
| Subset.Insert | src/subset.rs:71 | insertion keeps the sequence sorted and adds exactly the element |
| Subset.Sort | src/subset.rs:71 | `sort`: a sorted permutation |
| Subset.Dedup | src/subset.rs:76 | `dedup`: the same elements, the first kept, strictly increasing when the input is sorted |
| Subset.SortDedup | src/subset.rs:71-76 | strictly increasing and exactly the input's elements |
| Subset.IncreasingUnique | src/subset.rs:71-76 | two strictly increasing sequences with the same elements are equal |
| Subset.SortDedupPermutation | src/subset.rs:71-76 | the order of the input ids makes no difference to the result |
| Subset.CharsToGlyphs | src/subset.rs:93-109 | `chars_to_glyphs`: without a suitable cmap sub-table the "no suitable cmap sub-table found" error; otherwise Ok exactly when the sub-table reads every character, then one `glyph::map` result per character, and an error is the first failing character's |
| Subset.PresentIds | src/subset.rs:70-75 | the ids of the present glyphs |
| Subset.PresentWithNotdef | src/subset.rs:59-70 | putting `.notdef` first adds glyph 0 to the present ids |
| Subset.TextIds | src/subset.rs:59-76 | `.notdef` plus the present ids, strictly increasing, starting with 0 |
| Subset.SubsetText | src/subset.rs:52-91 | `subset_text`: the missing sub-table error first; otherwise Ok exactly when the sub-table reads every character, an error being the first failing character's; the ids are strictly increasing, start with 0, and are exactly 0 and the mapped characters' glyphs |
| Subset.AllIds | src/subset.rs:37-50 | `subset_all`: exactly `0..num_glyphs` in order |
| Subset.AllIdsCanonical | src/subset.rs:42 | the full range is already strictly increasing |
| Subset.Select | src/subset.rs:23-32 | `--text` wins over `--all`; neither selects nothing |
| Subset.ExitCode | src/subset.rs:23-34 | exit code 1 exactly when nothing is selected, 0 otherwise |
| Subset.Main | src/subset.rs:18-50 | with a text, an error exactly when there is no suitable cmap sub-table or a character it cannot read, and then `subset_text`'s error; without a text, an error exactly when `--all` meets a font without `maxp`, which is the `expect` panic; otherwise code 1 with no ids, or code 0 with the ids given to the subsetter |
| Subset.InputsOnTheirOwnPaths | src/subset.rs:28-32 | a text never consults the `maxp` count, and `--all` never consults the cmap |
| Subset.SelectedIdsCanonical | src/subset.rs:23-50 | whatever is selected, the ids are strictly increasing; with a text they start at 0, and `--all` gives every glyph the `maxp` table counts |
| Subset.TextWinsOverAll | src/subset.rs:28-32 | adding `--all` to `--text` changes nothing |
| Subset.NothingSelected | src/subset.rs:23-26 | the run ends with code 1 and no ids exactly when neither option is given |
| LegacySubset.MakeGlyph | subset.rs:267-280 | `make_glyph`: unicodes `[ch]`, index Some, origin `Char(ch)`, ligature position 0, flags false |
| LegacySubset.MapGlyph | subset.rs:258-265 | `map_glyph`: a cmap error passed on, otherwise a glyph exactly when the sub-table maps the character |
| LegacySubset.IndexedIds | subset.rs:102-105 | `flat_map`: the ids of the present glyphs that have an index |
| LegacySubset.Codes | subset.rs:115-129 | one Mac Roman code per glyph, in order |
| LegacySubset.Cmap0 | subset.rs:116 | the format 0 array has 256 entries |
| LegacySubset.Cmap0Unused | subset.rs:116-129 | a code no glyph has keeps its zero |
| LegacySubset.Cmap0Last | subset.rs:116-129 | a code holds the position of the last glyph with that code, wrapped to a byte |
| LegacySubset.SubsetTtf | subset.rs:89-134 | `subset_ttf`: "no glyphs left" when no glyph has an index, checked first; otherwise "not mac roman compatible" exactly when some glyph fails `is_macroman`; on success the ids are strictly increasing and exactly the indexed ids, with the cmap0 array of the codes |
| LegacySubset.UnmappedIsNotMacRoman | subset.rs:101-134 | a character the font does not map makes the text fail the Mac Roman check |
| LegacySubset.Arguments | subset.rs:48-63 | help first, then a missing `-t` is an error, then fewer than two free arguments print the usage; otherwise the text, input and output |
| LegacySubset.ArgumentsRoundTrip | subset.rs:53-63 | a text and two free arguments give back that text, input and output |
| LegacySubset.ArgumentChecksOrdered | subset.rs:48-60 | `-h` hides a missing `-t`, and a missing `-t` is reported before too few free arguments |
| View.SelectInput | src/view.rs:30-36 | exactly one of `--text`, `--codepoints` and `--indices` selects that input; otherwise nothing (exit code 1) |
| View.CharOrReplacement | src/view.rs:120-124 | `from_u32(..).unwrap_or('\u{FFFD}')`: the character for a scalar value, U+FFFD otherwise |
| View.HexToChar | src/view.rs:120-124 | `hex_string_to_char`: a `u32` in hexadecimal gives its character; anything else panics naming the item |
| View.ParseCodepoints | src/view.rs:112-118 | one character per comma-separated trimmed item; otherwise the panic names the first item that is not a hexadecimal `u32`, as lazy `collect` reaches it first |
| View.EmptyCodepointsPanic | src/view.rs:112-124 | an empty argument panics on its one empty item |
| View.CodepointsRoundTrip | src/view.rs:112-124 | numbers printed in hex and joined by commas read back as their characters |
| View.TextRoundTrip | src/view.rs:112-124 | a non-empty text written as its code points reads back as itself |
| View.MakeRawGlyph | src/view.rs:139-153 | `make_raw_glyph`: the index, no unicodes, origin `Char('x')`, ligature position 0, no variation, flags false |
| View.IndexToGlyph | src/view.rs:126-137 | a decimal below 65536 gives the glyph of that index; anything else panics naming the item |
| View.ParseGlyphIndices | src/view.rs:126-133 | one glyph per comma-separated trimmed item, in order; otherwise the panic names the first item that is not a decimal `u16` |
| View.GlyphIndicesRoundTrip | src/view.rs:126-137 | glyph ids joined by commas read back as those glyphs |
| View.FeatureOf | src/view.rs:155-166 | a feature name the tag reader accepts gives that feature with no alternate; otherwise a panic naming it |
| View.ParseFeatures | src/view.rs:38-41 | no `--features` gives the default mask; otherwise one feature per trimmed item, in order; otherwise the panic names the first item the tag reader rejects |
| View.FeaturesRoundTrip | src/view.rs:155-166 | names joined by commas read back as their features, in order |
| View.FeatureTagsRoundTrip | src/view.rs:155-166 | with the tag reader, names of up to four printable characters read back as their space-padded tags |
| View.ModeOf | src/view.rs:168-175 | view mode, marking origins exactly when `--mark-origin` is given |
| View.Start | src/view.rs:23-41 | the script tag first (an error), then the language (a panic), then the input check (exit 1), then the features (a panic); otherwise the setup of all four |
| View.InputGlyphs | src/view.rs:55-64 | text goes through the font's cmap; code points are parsed first; indices become glyphs directly |
| SvgTool.ScriptAndLang | src/svg.rs:92-110 | the first matching testcase prefix decides the script and language; otherwise Latin and English |
| SvgTool.TagPair | src/svg.rs:92-110 | the tags display as the script and language names |
| SvgTool.TestcaseDirection | src/svg.rs:92-110 | only the Arabic testcases are shaped right to left |
| SvgTool.ScriptNumber | src/svg.rs:92-110 | the script tags of the testcases as numbers |
| SvgTool.CffGlyphName | src/svg.rs:112-121 | a name exactly when the first font is not CID-keyed and its charset has the glyph, and then the charset's string |
| SvgTool.PostGlyphName | src/svg.rs:123-130 | a name exactly when the `post` table exists and names the glyph, and then that name |
| SvgTool.CffSymbolName | src/svg.rs:112-121 | a CFF glyph's symbol is the charset string when readable, else `gid` and its index |
| SvgTool.CffFirstFontOnly | src/svg.rs:114 | fonts after the first never lend a name |
| SvgTool.CidKeyedNamedByIndex | src/svg.rs:115-117 | every glyph of a CID-keyed font is named `gid` and a number that reads back as its index |
| SvgTool.PostSymbolName | src/svg.rs:123-130 | a TrueType glyph's symbol is the `post` name when there is one, else `gid` and its index |
| SvgTool.PostFailureIsAbsence | src/svg.rs:127 | a failed `post` lookup is treated like a missing table |
| Cmap.Shown | src/cmap.rs:39-45 | the character shown: none for a non-scalar code, an ASCII control moved up by 0x2400, any other scalar as itself |
| Cmap.C0Pictures | src/cmap.rs:40-41 | the C0 controls become their pictures, U+2400 to U+241F, which are not controls |
| Cmap.DelShown | src/cmap.rs:40-41 | DEL becomes U+247F, not its picture U+2421 |
| Cmap.ShownControl | src/cmap.rs:39-47 | after the move, the shown character is a control exactly for the C1 range U+0080 to U+009F |
| Cmap.Prefix | src/cmap.rs:47-48 | the text before `U+`: the quoted character, or four spaces for a control |
| Cmap.ShownLineForm | src/cmap.rs:46-48 | a scalar code of a Unicode sub-table prints with `U+` and at least four upper-case hex digits |
| Cmap.NumberLineForm | src/cmap.rs:49-52 | a non-scalar code, and every code of another encoding, prints as a decimal |
| Cmap.ReadMapping | src/cmap.rs:37-53 | a reader for printed lines: the code and the glyph id |
| Cmap.LineReadsBack | src/cmap.rs:37-53 | every printed line reads back as its code and glyph id |
| Cmap.MappingLines | src/cmap.rs:37-53 | one line per mapping, in the sub-table's order |
| Cmap.DumpCmap | src/cmap.rs:32-56 | `dump_cmap`: an error exactly when the mappings cannot be read; otherwise the heading naming the encoding, one line per mapping, and always `true` |
| Cmap.DumpReadsBack | src/cmap.rs:32-56 | the lines after the heading read back as the mappings |
| Cmap.Main | src/cmap.rs:12-30 | exit code 1 on every run that does not fail, whether or not a sub-table was found |
| NameTable.Meaning | src/dump.rs:542-572 | `get_name_meaning`: a label exactly for IDs 0 to 14 and 16 to 25; the copies at dump.rs:495-525, dump_woff.rs:112-142 and subset.rs:326-356 are the same table, so this one definition stands for all four |
| NameTable.Heading | src/dump.rs:316-319 | the heading is the label, or `name` and the ID; the same at dump.rs:301-304 and dump_woff.rs:89-92 |
| NameTable.LabelsStartOtherwise | src/dump.rs:542-572 | no label starts with `n` |
| NameTable.NumberedHeadingReadsBack | src/dump.rs:316-319 | a numbered heading reads back as its Name ID |
| NameTable.LabelHeadingIsNotNumbered | src/dump.rs:316-319 | a label heading is never a numbered one |
| NameTable.DecoderFor | src/dump.rs:305-315 | UTF-16BE exactly for platform 0 and for platform 3 with encodings 0, 1 and 10; Mac Roman exactly for platform 1 with encoding 0; the same at dump.rs:290-300 and dump_woff.rs:78-88 |
| NameTable.NameText | src/dump.rs:305-315 | the string printed is the chosen decoder's reading, or the placeholder naming platform, encoding and language |
| NameTable.PlaceholderReadsBack | src/dump.rs:310-314 | platform, encoding and language read back from the placeholder |
| Dump.CheckCff | src/dump.rs:393-400 | a Name INDEX count other than one is BadIndex; then a missing font or CharStrings entry is MissingValue; otherwise the first font and its CharStrings offset |
| Dump.CheckCffFirstFontOnly | src/dump.rs:396 | only the first font of the set is looked at |
| Dump.AddIndex | src/dump.rs:467-472 | an empty slot adds nothing; a present index adds its subroutines and bytes |
| Dump.Present | src/dump.rs:464-473 | the present indices, in order |
| Dump.FoldSums | src/dump.rs:464-473 | the fold's totals are the sums over the present indices |
| Dump.LocalSubrs | src/dump.rs:442-480 | the local-subroutine summary: a Type 1-keyed font's optional index, a CID-keyed font's fold with its slot count |
| Dump.EmptySlotCountsOnlyAsSlot | src/dump.rs:464-480 | an empty slot adds a slot to the summary and nothing else |
| Dump.RawTable | src/dump.rs:521-529 | `dump_raw_table`: the bytes of a table found, otherwise "Table not found" |
| Dump.TableDump | src/dump.rs:124-231 | with `--table`, a lookup error passed on, a found table written; a missing one is an error, except in WOFF, where it is a warning |
| Dump.WarningNamesTag | src/dump.rs:180 | the WOFF warning names the missing table by its display form, so distinct tags give distinct warnings |
| Dump.GlyphRecord | src/dump.rs:510-513 | the glyph's record when its id is below the record count, otherwise BadValue |
| Dump.FlagsOf | src/dump.rs:632-640 | `Flags::from` copies the three options |
| Dump.Plan | src/dump.rs:40-97 | the table name is resolved first; a raw table to a terminal is refused; then `--cff` alone, else the loca, morx, head, hmtx, glyph or per-format dump, in that priority |
| Dump.PlanPriority | src/dump.rs:61-86 | the table dump run is the requested one of highest priority |
| Dump.TtyRefused | src/dump.rs:46-48 | a raw table never goes to a terminal |
| Dump.IndexOption | dump.rs:63-68 | `-i`: 0 when absent, the value when it is a 64-bit unsigned decimal, otherwise BadValue |
| Dump.IndexOptionReadsBack | dump.rs:63-68 | any index printed in decimal reads back |
| Dump.GlyphOption | dump.rs:81 | `-g`: a glyph id only when given as a 16-bit unsigned decimal |
| Dump.LegacyPlan | dump.rs:33-99 | help first, then the table name, the terminal check, the index and the file; then loca, glyph, CFF or per-format dump, in that priority |
| Dump.BadIndexBeforeUsage | dump.rs:63-75 | a bad index is reported even when no file is named |
| Dump.PrioritiesDiffer | src/dump.rs:52-55 | given `--cff` and `--loca`, the current tool runs only the CFF dump; given `--cff` and a glyph without `--loca`, the older tool dumps the glyph |
| Dump.LegacyPlanPriority | dump.rs:79-96 | the older tool also runs the requested dump of highest priority |
| DumpWoff.Main | dump_woff.rs:13-30 | any argument count but two prints the usage; a header error is passed on; an unknown flavor is BadVersion; otherwise the dump's result |
| DumpWoff.AcceptedByName | dump_woff.rs:26-29 | the accepted flavors are TrueType's and exactly the one displayed as `OTTO` |
| ShapeTool.MapGlyph | shape.rs:111-127 | `map_glyph`: a lookup error passed on; a glyph exactly when the sub-table maps the character, with unicodes `[ch]`, origin `Char(ch)` and flags false |
| ShapeTool.TextGlyphs | shape.rs:77-82 | Ok exactly when every character looks up; an error is the error of the first character whose lookup fails |
| ShapeTool.Mapped | shape.rs:77-82 | the characters the sub-table maps, in text order |
| ShapeTool.TextGlyphsAreMappedChars | shape.rs:77-82 | the glyphs stand one for one for the mapped characters, in order, each with its character and the sub-table's index |
| ShapeTool.UnmappedDropped | shape.rs:77-82 | an unmapped character leaves no trace |
| ShapeTool.ShapeTtf | shape.rs:58-109 | a cmap read error is returned; no cmap table and no suitable sub-table are each reported; otherwise the text's glyphs, with the first failing lookup's error; then no GSUB table is reported, a GSUB or GDEF read error is returned, and otherwise the substitution's error or its result; Ok exactly when the cmap reads, every character looks up and, with a GSUB table, the tables read and the substitution succeeds |
| ShapeTool.GsubGetsMappedChars | shape.rs:77-85 | the glyphs GSUB starts from stand one for one, in order, for the characters the sub-table maps |
| ShapeTool.ShapeTtc | shape.rs:43-56 | every font of the collection in order; Ok exactly when every entry reads and shapes, else the first failing font's error |
| ShapeTool.Main | shape.rs:12-34 | any argument count but five prints the usage; a bad script tag, then a bad language tag, is BadValue; then a file that cannot be read or parsed returns its error; a single font gives one font's report and a collection every font's report, and the run fails exactly when that font, or some font of the collection, fails, with its error. The tags are read with the corrected `Tags.TagFromString`: as written, the program never returns for a tag name shorter than four characters (shape.rs:159-163, see Findings) |
| ShapeTool.SingleAsCollection | shape.rs:28-31 | a single font and a collection holding only that font give the same run |
| ShapeTool.CollectionStopsAtFailure | shape.rs:50-54 | once a font of a collection fails, the fonts after it change nothing |
| ShapeCommand.ExitCode | src/shape.rs:24-25 | exit code 1 exactly when the font has no suitable cmap sub-table, 0 when the glyphs were printed |
| ShapeCommand.Zip | src/shape.rs:38 | `zip` of infos and positions of equal length: pair k holds both k-th elements |
| ShapeCommand.Main | src/shape.rs:14-43 | a bad script tag, then a bad language tag, is that tag's error; a font that fails to load is its error; no suitable cmap sub-table is exit code 1; printed lines are one per shaped glyph, in order |
| ShapeCommand.PrintedPositions | src/shape.rs:28-42 | with a usable font the run succeeds exactly when shaping succeeds and every shaped glyph fits the positioning pass; a shaping error is passed on |
| ShapeCommand.PrintedLinesPlaced | src/shape.rs:36-40 | every printed line carries the position `calculate_glyph_positions` promises its glyph |
| ShapeCommand.ExitCodeOne | src/shape.rs:21-27 | a run that returns normally has exit code 1 exactly when `Font::new` found no suitable cmap sub-table |
| Fallback.Place | examples/shape.rs:303-339 | an info without a glyph index is an error; otherwise its horizontal advance, plus `dx` and with `dy` for a Distance placement, else zero vertical advance |
| Fallback.ResolvedInfos | examples/shape.rs:273-342 | the resolved infos of the items, in order |
| Fallback.PositionsFollowGlyphs | examples/shape.rs:273-342 | the items stand one for one for a prefix of the input glyphs: skipped glyphs unresolved with no advance, matched ones resolved with the same characters |
| Fallback.PositionsKeepInfos | examples/shape.rs:273-342 | the resolved items are exactly the infos, in order |
| Fallback.NoGlyphsLeft | examples/shape.rs:284-286 | infos with no input glyphs left fail with the first message |
| Fallback.PlanFrom | examples/shape.rs:68-115 | every item the loop keeps is resolved |
| Fallback.PlanSplits | examples/shape.rs:68-115 | the loop keeps exactly the resolved items, in order, and reshapes exactly the unresolved characters |
| Fallback.NothingUnresolved | examples/shape.rs:70-72 | a first pass with nothing unresolved is kept as it is |
| Fallback.KeepsFollowReshape | examples/shape.rs:81-99 | in fallback mode every resolved item is kept right after a reshape |
| Fallback.FallbackKeepFollowsReshape | examples/shape.rs:81-115 | once the loop is in fallback mode, whatever the run and the items, every kept item directly follows a reshape |
| Fallback.PlanBeforeFallback | examples/shape.rs:70-80 | the items before the first unresolved one are kept one for one; the rest is planned in fallback mode with that item's characters as the run |
| Fallback.EmptyRunReshaped | examples/shape.rs:70-115 | for any items whose first unresolved item is at `i`: the first `i` items are kept as they are, and every later kept item directly follows a reshape, even of an empty run |
| Fallback.EmptyRunExample | examples/shape.rs:81-99 | one unresolved item then two resolved ones: the run, the first item, an empty run, the second item |
| Fallback.Keeps | examples/shape.rs:72 | a run of resolved items is kept one for one, in order |
| Fallback.ShapeInto | examples/shape.rs:58-118 | a font index past the last font panics; every item appended is resolved |
| Fallback.Expand | examples/shape.rs:70-115 | every appended item is resolved |
| Fallback.ExpandKeep | examples/shape.rs:72 | a kept item is appended as it is |
| Fallback.ExpandReshape | examples/shape.rs:89-96 | a run is shaped with the next font, and its items are appended with nothing added or dropped |
| Fallback.ExpandAppend | examples/shape.rs:70-115 | the pieces are worked off in order: the items of `p + q` are those of `p` followed by those of `q`, and the first failure decides |
| Fallback.CombineAssoc | examples/shape.rs:89-98 | appending results in sequence does not depend on grouping |
| Fallback.LastFontCannotFallBack | examples/shape.rs:66 | at the last font any reshape, even of an empty run, panics; a pass without one keeps its items |
| Fallback.Shape | examples/shape.rs:47-56 | with no font at all the indexing panics; every item is resolved |

## Left out

- Reading files, writing output and printing are not modelled. Printed text is modelled where it is the tool's result: cmap lines, name headings and the SVG structure.
- Font library calls are parameters or inputs: reading and parsing the font file, cmap tables and sub-tables, GSUB and GDEF tables, shaping with GSUB and GPOS, the layout engine, outline visitors, `post` and CFF lookups, and the subsetter itself.
- Errors raised inside the library are represented by `Errors.Library`, whose detail is never interpreted.
- Glyph.CalculateGlyphPositions: uses unbounded integers. It does not model the i32 overflow of the pen and of the placement sums, which panics in debug builds and wraps in release builds.
- Fallback.Place: uses unbounded integers. It does not model the i32 overflow of the advance plus `dx`.
- Glyph.CalculateGlyphPositions: `IndexOutOfBounds` stands for the panic of indexing `positions` with a mark's base index that is not earlier than the mark.
- Bitmaps.DumpGlyph: `Unimplemented(6)` stands for the `unimplemented!()` panic on a non-empty format 6 bitmap (src/bitmaps.rs:154).
- View.ParseCodepoints, View.ParseGlyphIndices, View.ParseFeatures and View.Start: `ViewPanic` values stand for the `expect` panics on a bad item or language.
- Style.ColourFromStrAsWritten: `Panic` stands for the `unwrap` panic on a chunk that is not UTF-8.
- LegacySubset.SubsetTtf: takes one Mac Roman lookup for both `is_macroman` and `char_to_macroman(..).unwrap()`. The model assumes the two agree, so the `unwrap` cannot panic and its panic is not modelled.
- LegacySubset.Arguments: the getopts parse failure (subset.rs:43-46) panics, and the model does not include it.
- Dump.LegacyPlan: the getopts parse failure (dump.rs:45-48) panics, and the model does not include it.
- The `unimplemented!()` for a font collection in the older subset tool (subset.rs:98) is not modelled; only single fonts are.
- View.ModeOf: `SVGMode::from` only sets `mark_origin`. The zero margin and the absent colours are this model's own choice.
- Coordinates are integers, which covers only points that the transform leaves integral. Formatting of `f32` values and the view box are not modelled.
- The CharStrings offset conversion and the reading of the CFF INDEX behind it are not modelled after `Dump.CheckCff`.
- Tags.TagFromStringAsWritten: a call that never returns is modelled with a fuel bound. `Ok(None)` means the fuel ran out, and the lemmas show this happens for every amount of fuel.
- The WOFF 2 and collection variants of the per-format dumps differ from the single-font one only in the library calls, which are parameters.
- The text printed by the non-raw dumps (table directories, head, hmtx, loca, morx, glyph debug output) is not modelled.
- `usize` is unbounded, apart from the 64-bit limit `Dump.IndexOption` states.
- Subset.Sort: `slice::sort` is modelled by insertion sort. Only its result matters here.
- Subset.Main: the `maxp` table is read as a count of glyphs. A `maxp` table that is present but does not parse is a library error and is not modelled; a missing one is `NoMaxpPanic`, which stands for the `expect` panic.
- ShapeCommand.Main: tag parsing, font loading, character mapping and shaping are library calls, and their results are parameters. The printed text of each line is not modelled, only the glyph and position it shows.

## Findings

| source | as written | input that shows it | evidently intended | confidence | as-written member | corrected member |
|---|---|---|---|---|---|---|
| shape.rs:159-163 | the padding loop `while count < 4` appends a space but never increments `count` | any tag name shorter than four characters, e.g. `""` or `"DFLT"[..3]` | pad to four characters with spaces, as the allsorts `tag::from_string` does | not executed; certain from the text | Tags.TagFromStringAsWritten, Tags.AsWrittenDivergesWhenShort, Tags.AsWrittenDivergesOnEmpty | Tags.TagFromString, Tags.AccumulatePad |
| src/writer.rs:101 | `std::str::from_utf8(pair).unwrap()` on two-byte chunks of the input | `aéééb`: eight bytes, and the first chunk `a` plus the first byte of `é` is not UTF-8 | return the parse error, as every other malformed colour does | not executed; high | Style.ColourFromStrAsWritten, Style.AsWrittenPanicsOnSplitCharacter | Style.ColourFromStr |

=== FILE: bitmaps.dfy ===
/** Dumping the embedded bitmaps of a colour or monochrome bitmap font as
    PNG files: bit-aligned glyph images (formats 2, 5 and 7 of the OpenType
    EBDT/CBDT tables) are unpacked into byte-aligned rows, and the PNG
    colour type and depth follow from the strike's bit depth. Table parsing
    and PNG encoding are outside the model; the bitmap lookup is a
    parameter. */
module Bitmaps {
  import opened Wrappers
  import opened Text

  // ---------------------------------------------------------------------
  // Arithmetic on bits

  lemma DivDouble(x: nat, y: nat)
    requires y > 0
    ensures x / (2 * y) == (x / y) / 2
  {
    var q, s := x / y, x % y;
    var a, b := q / 2, q % 2;
    assert x == a * (2 * y) + (y * b + s) by {
      assert x == y * q + s;
      assert y * q == y * (2 * a + b) == a * (2 * y) + y * b;
    }
    assert y * b <= y;
    DivMod(a, y * b + s, 2 * y);
  }

  lemma PowPositive(n: nat)
    ensures Pow(2, n) >= 1
  {
    if n > 0 {
      PowPositive(n - 1);
    }
  }

  /** Bit `k` of `data`, counting from the most significant bit of the
      first byte: the order a bit reader takes them in. */
  function Bit(data: seq<u8>, k: nat): (b: nat)
    requires k < 8 * |data|
    ensures b < 2
  {
    BitOf(data[k / 8], 7 - k % 8)
  }

  /** Bit `i` of `v`, counting from the least significant: `(v >> i) & 1`. */
  function BitOf(v: nat, i: nat): (b: nat)
    ensures b < 2
  {
    if i == 0 then v % 2 else BitOf(v / 2, i - 1)
  }

  lemma {:induction false} BitOfPow(v: nat, i: nat)
    ensures Pow(2, i) >= 1 && BitOf(v, i) == (v / Pow(2, i)) % 2
  {
    PowPositive(i);
    if i > 0 {
      BitOfPow(v / 2, i - 1);
      DivHalf(v, Pow(2, i - 1));
    }
  }

  /** Halving first and then dividing is dividing by the product. */
  lemma DivHalf(x: nat, y: nat)
    requires y > 0
    ensures (x / 2) / y == x / (2 * y)
  {
    var q, r := x / 2, x % 2;
    var a, b := q / y, q % y;
    assert x == a * (2 * y) + (2 * b + r) by {
      assert x == 2 * q + r;
      assert q == a * y + b;
    }
    DivMod(a, 2 * b + r, 2 * y);
  }

  /** The `n` bits from bit `from` as a number, the first bit most significant. */
  function BitsValue(data: seq<u8>, from: nat, n: nat): (v: nat)
    requires from + n <= 8 * |data|
  {
    if n == 0 then 0 else 2 * BitsValue(data, from, n - 1) + Bit(data, from + n - 1)
  }

  lemma {:induction false} BitsValueBound(data: seq<u8>, from: nat, n: nat)
    requires from + n <= 8 * |data|
    ensures BitsValue(data, from, n) < Pow(2, n)
  {
    if n > 0 {
      BitsValueBound(data, from, n - 1);
    }
  }

  /** The first `n` bits of byte `m` are the byte shifted right by `8 - n`. */
  lemma {:induction false} ByteBits(data: seq<u8>, m: nat, n: nat)
    requires m < |data| && n <= 8
    ensures Pow(2, 8 - n) >= 1 && BitsValue(data, 8 * m, n) == data[m] / Pow(2, 8 - n)
  {
    var d := data[m] as nat;
    PowPositive(8 - n);
    if n == 0 {
      assert Pow(2, 8) == 256;
      DivMod(0, d, 256);
    } else {
      ByteBits(data, m, n - 1);
      DivMod(m, n - 1, 8);
      DivDouble(d, Pow(2, 8 - n));
      BitOfPow(d, 8 - n);
      assert Pow(2, 8 - (n - 1)) == 2 * Pow(2, 8 - n);
    }
  }

  /** Eight bits starting on a byte boundary are that byte. */
  lemma WholeByte(data: seq<u8>, m: nat)
    requires m < |data|
    ensures BitsValue(data, 8 * m, 8) == data[m]
  {
    ByteBits(data, m, 8);
  }

  // ---------------------------------------------------------------------
  // Unpacking bit-aligned rows

  /** A strike's bit depth; the discriminant is the number of bits per pixel. */
  datatype BitDepth = One | Two | Four | Eight | ThirtyTwo

  function Bits(d: BitDepth): nat {
    match d
    case One => 1
    case Two => 2
    case Four => 4
    case Eight => 8
    case ThirtyTwo => 32
  }

  /** How a row of `width` pixels splits: whole bytes and leftover bits. */
  datatype RowShape = RowShape(whole: nat, rest: nat)

  function Shape(d: BitDepth, width: u8): (s: RowShape)
    ensures 8 * s.whole + s.rest == Bits(d) * width && s.rest < 8
  {
    var bits := Bits(d) * width;
    RowShape(bits / 8, bits % 8)
  }

  function BitsPerRow(s: RowShape): nat {
    8 * s.whole + s.rest
  }

  /** Bytes per output row: the bits of a row rounded up to whole bytes. */
  function BytesPerRow(s: RowShape): (n: nat)
    ensures s.rest < 8 ==> 8 * n >= BitsPerRow(s) && 8 * n < BitsPerRow(s) + 8
  {
    s.whole + if s.rest != 0 then 1 else 0
  }

  /** `BitReader::read_u8`: running out of bits is the reader's only error here. */
  datatype BitReaderError = NotEnoughData(position: nat, length: nat, requested: nat)

  /** Reading `count` bits at bit position `pos`, for `1 <= count <= 8`. */
  function ReadBits(data: seq<u8>, pos: nat, count: nat): (r: Result<u8, BitReaderError>)
    requires 1 <= count <= 8
    ensures r.Ok? <==> pos + count <= 8 * |data|
    ensures r.Ok? ==> r.value == BitsValue(data, pos, count)
    ensures r.Err? ==> r.error == NotEnoughData(pos, 8 * |data|, count)
  {
    if pos + count > 8 * |data| then Err(NotEnoughData(pos, 8 * |data|, count))
    else
      PowMonotone8(count);
      BitsValueBound(data, pos, count);
      Ok(BitsValue(data, pos, count))
  }

  lemma PowMonotone8(n: nat)
    requires n <= 8
    ensures Pow(2, n) <= 256
    decreases 8 - n
  {
    if n < 8 {
      PowMonotone8(n + 1);
    }
  }

  lemma {:induction false} PowAdd(a: nat, b: nat)
    ensures Pow(2, a) * Pow(2, b) == Pow(2, a + b)
    decreases a
  {
    if a > 0 {
      PowAdd(a - 1, b);
      assert Pow(2, a) * Pow(2, b) == 2 * (Pow(2, a - 1) * Pow(2, b));
    }
  }

  /** `v << k` on a `u8`: bits pushed past the top are lost. */
  function Shl(v: u8, k: nat): u8
    decreases k
  {
    if k == 0 then v else Shl((2 * v) % 0x100, k - 1)
  }

  /** A shift that pushes no bit past the top multiplies. */
  lemma {:induction false} ShlExact(v: u8, k: nat)
    decreases k
    requires v * Pow(2, k) < 0x100
    ensures Shl(v, k) == v * Pow(2, k)
  {
    if k > 0 {
      PowPositive(k - 1);
      assert 2 * v <= v * Pow(2, k) by {
        assert v * Pow(2, k) == 2 * v * Pow(2, k - 1);
      }
      assert (2 * v) % 0x100 == 2 * v;
      ShlExact(2 * v, k - 1);
      assert 2 * v * Pow(2, k - 1) == v * Pow(2, k);
    }
  }

  /** Shifting the `n` leftover bits to the top of a byte loses none of them,
      and leaves the low `8 - n` bits zero. */
  lemma LeftAlign(v: u8, n: nat)
    requires 1 <= n <= 8 && v < Pow(2, n)
    ensures Shl(v, 8 - n) == v * Pow(2, 8 - n)
    ensures Pow(2, 8 - n) >= 1 && Shl(v, 8 - n) % Pow(2, 8 - n) == 0
  {
    PowAdd(n, 8 - n);
    PowPositive(8 - n);
    assert Pow(2, 8) == 256;
    assert v * Pow(2, 8 - n) < Pow(2, n) * Pow(2, 8 - n);
    ShlExact(v, 8 - n);
    DivMod(v, 0, Pow(2, 8 - n));
  }

  /** The `count <= 8` bits at `pos` as a byte. */
  function BitsByte(data: seq<u8>, pos: nat, count: nat): u8
    requires count <= 8 && pos + count <= 8 * |data|
  {
    PowMonotone8(count);
    BitsValueBound(data, pos, count);
    BitsValue(data, pos, count)
  }

  /** The output row whose bits start at bit `start` of the stream: the
      whole bytes, then the leftover bits moved to the top of one more byte. */
  function Row(data: seq<u8>, start: nat, s: RowShape): (row: seq<u8>)
    requires s.rest < 8 && start + BitsPerRow(s) <= 8 * |data|
    ensures |row| == BytesPerRow(s)
  {
    seq(BytesPerRow(s), j requires 0 <= j < BytesPerRow(s) => RowByte(data, start, s, j))
  }

  /** Byte `j` of a row: a whole byte, or after them the leftover bits
      shifted to the top. */
  function RowByte(data: seq<u8>, start: nat, s: RowShape, j: nat): u8
    requires s.rest < 8 && start + BitsPerRow(s) <= 8 * |data| && j < BytesPerRow(s)
  {
    if j < s.whole then BitsByte(data, start + 8 * j, 8)
    else Shl(BitsByte(data, start + 8 * s.whole, s.rest), 8 - s.rest)
  }

  /** The bytes of a row: each whole byte is the next eight bits, and the
      leftover bits become the high bits of the last byte. */
  lemma RowContents(data: seq<u8>, start: nat, s: RowShape)
    requires s.rest < 8 && start + BitsPerRow(s) <= 8 * |data|
    ensures forall j | 0 <= j < s.whole :: Row(data, start, s)[j] == BitsValue(data, start + 8 * j, 8)
    ensures s.rest != 0 ==> Row(data, start, s)[s.whole] == BitsValue(data, start + 8 * s.whole, s.rest) * Pow(2, 8 - s.rest)
  {
    if s.rest != 0 {
      BitsValueBound(data, start + 8 * s.whole, s.rest);
      LeftAlign(BitsByte(data, start + 8 * s.whole, s.rest), s.rest);
    }
  }

  /** `k * n`, written as repeated addition so that the proofs about rows
      need only linear arithmetic; `TimesProduct` connects the two. */
  function Times(k: nat, n: nat): nat {
    if k == 0 then 0 else Times(k - 1, n) + n
  }

  lemma {:induction false} TimesProduct(k: nat, n: nat)
    ensures Times(k, n) == k * n
  {
    if k > 0 {
      TimesProduct(k - 1, n);
    }
  }

  lemma {:induction false} TimesMonotone(j: nat, k: nat, n: nat)
    requires j <= k
    ensures Times(j, n) <= Times(k, n)
    decreases k
  {
    if j < k {
      TimesMonotone(j, k - 1, n);
    }
  }

  lemma {:induction false} TimesEight(k: nat, n: nat)
    ensures Times(k, 8 * n) == 8 * Times(k, n)
  {
    if k > 0 {
      TimesEight(k - 1, n);
    }
  }

  /** The unpacked image: `rows` rows cut from one stream of bits, row `k`
      starting at bit `Times(k, BitsPerRow(s))`, with no padding between
      rows. */
  function Image(data: seq<u8>, s: RowShape, rows: nat): (img: seq<u8>)
    requires s.rest < 8 && Times(rows, BitsPerRow(s)) <= 8 * |data|
    ensures |img| == Times(rows, BytesPerRow(s))
  {
    if rows == 0 then []
    else Image(data, s, rows - 1) + Row(data, Times(rows - 1, BitsPerRow(s)), s)
  }

  /** A row's leftover bits sit at the top of its last byte; the bits below
      them are zero. */
  lemma RowPadding(data: seq<u8>, start: nat, s: RowShape)
    requires 0 < s.rest < 8 && start + BitsPerRow(s) <= 8 * |data|
    ensures Pow(2, 8 - s.rest) >= 1 && Row(data, start, s)[s.whole] % Pow(2, 8 - s.rest) == 0
  {
    var v := BitsByte(data, start + 8 * s.whole, s.rest);
    BitsValueBound(data, start + 8 * s.whole, s.rest);
    LeftAlign(v, s.rest);
  }

  /** The last row of an image is the row cut at its start. */
  lemma ImageLast(data: seq<u8>, s: RowShape, rows: nat)
    requires s.rest < 8 && Times(rows, BitsPerRow(s)) <= 8 * |data| && rows > 0
    ensures Times(rows - 1, BitsPerRow(s)) + BitsPerRow(s) <= 8 * |data|
    ensures Image(data, s, rows)[Times(rows - 1, BytesPerRow(s))..Times(rows, BytesPerRow(s))]
         == Row(data, Times(rows - 1, BitsPerRow(s)), s)
  {
    ImageStep(data, s, rows);
    SliceRight(Image(data, s, rows - 1), Row(data, Times(rows - 1, BitsPerRow(s)), s));
  }

  /** Adding a row leaves the earlier bytes alone. */
  lemma ImageGrows(data: seq<u8>, s: RowShape, rows: nat, i: nat, j: nat)
    requires s.rest < 8 && Times(rows, BitsPerRow(s)) <= 8 * |data| && rows > 0
    requires i <= j <= Times(rows - 1, BytesPerRow(s))
    ensures Times(rows - 1, BitsPerRow(s)) <= 8 * |data|
    ensures Image(data, s, rows)[i..j] == Image(data, s, rows - 1)[i..j]
  {
    ImagePrefix(data, s, rows);
    SliceOfPrefix(Image(data, s, rows), Image(data, s, rows - 1), i, j);
  }

  /** The image over one row fewer is a prefix of the image. */
  lemma ImagePrefix(data: seq<u8>, s: RowShape, rows: nat)
    requires s.rest < 8 && Times(rows, BitsPerRow(s)) <= 8 * |data| && rows > 0
    ensures Times(rows - 1, BitsPerRow(s)) <= 8 * |data|
    ensures Times(rows - 1, BytesPerRow(s)) <= |Image(data, s, rows)|
    ensures Image(data, s, rows)[..Times(rows - 1, BytesPerRow(s))] == Image(data, s, rows - 1)
  {
    ImageStep(data, s, rows);
    PrefixOfAppend(Image(data, s, rows - 1), Row(data, Times(rows - 1, BitsPerRow(s)), s));
  }

  lemma PrefixOfAppend<T>(a: seq<T>, b: seq<T>)
    ensures (a + b)[..|a|] == a
  {
  }

  lemma SliceOfPrefix<T>(whole: seq<T>, front: seq<T>, i: nat, j: nat)
    requires |front| <= |whole| && whole[..|front|] == front && i <= j <= |front|
    ensures whole[i..j] == front[i..j]
  {
    assert forall k | 0 <= k < j - i :: whole[i..j][k] == whole[..|front|][i + k];
  }

  /** Row `r` of the image is the row cut from the stream at bit
      `Times(r, BitsPerRow(s))`: rows follow one another with no padding. */
  lemma {:induction false} ImageRow(data: seq<u8>, s: RowShape, rows: nat, r: nat)
    requires s.rest < 8 && Times(rows, BitsPerRow(s)) <= 8 * |data| && r < rows
    ensures Times(r + 1, BytesPerRow(s)) <= Times(rows, BytesPerRow(s))
    ensures Times(r + 1, BitsPerRow(s)) <= 8 * |data|
    ensures Image(data, s, rows)[Times(r, BytesPerRow(s))..Times(r + 1, BytesPerRow(s))]
         == Row(data, Times(r, BitsPerRow(s)), s)
  {
    var n := BytesPerRow(s);
    TimesMonotone(r + 1, rows, n);
    TimesMonotone(r + 1, rows, BitsPerRow(s));
    if r < rows - 1 {
      TimesMonotone(rows - 1, rows, BitsPerRow(s));
      ImageRow(data, s, rows - 1, r);
      TimesMonotone(r + 1, rows - 1, n);
      ImageGrows(data, s, rows, Times(r, n), Times(r + 1, n));
    } else {
      ImageLast(data, s, rows);
    }
  }

  lemma SliceRight<T>(a: seq<T>, b: seq<T>)
    ensures (a + b)[|a|..|a| + |b|] == b
  {
  }

  /** A row that starts on a byte boundary and fills whole bytes is a copy
      of those bytes. */
  lemma RowOfBytes(data: seq<u8>, k: nat, s: RowShape)
    requires s.rest == 0 && k + s.whole <= |data|
    ensures Row(data, 8 * k, s) == data[k..k + s.whole]
  {
    var row := Row(data, 8 * k, s);
    RowContents(data, 8 * k, s);
    forall j | 0 <= j < s.whole
      ensures row[j] == data[k + j]
    {
      WholeByte(data, k + j);
      assert 8 * k + 8 * j == 8 * (k + j);
    }
  }

  /** When rows fill whole bytes the image is the first `rows * whole` bytes
      of the data, copied. */
  lemma {:induction false} ByteAlignedImage(data: seq<u8>, s: RowShape, rows: nat)
    requires s.rest == 0 && Times(rows, BitsPerRow(s)) <= 8 * |data|
    ensures Times(rows, s.whole) <= |data|
    ensures Image(data, s, rows) == data[..Times(rows, s.whole)]
  {
    TimesEight(rows, s.whole);
    if rows > 0 {
      ByteAlignedImage(data, s, rows - 1);
      ByteAlignedStep(data, s, rows);
    }
  }

  lemma ByteAlignedStep(data: seq<u8>, s: RowShape, rows: nat)
    requires s.rest == 0 && rows > 0 && Times(rows, BitsPerRow(s)) <= 8 * |data|
    requires Times(rows - 1, s.whole) <= |data|
    requires Image(data, s, rows - 1) == data[..Times(rows - 1, s.whole)]
    ensures Times(rows, s.whole) <= |data|
    ensures Image(data, s, rows) == data[..Times(rows, s.whole)]
  {
    var k := Times(rows - 1, s.whole);
    TimesEight(rows, s.whole);
    TimesEight(rows - 1, s.whole);
    assert Times(rows - 1, BitsPerRow(s)) == 8 * k;
    RowOfBytes(data, k, s);
    ImageStep(data, s, rows);
    PrefixSplit(data, k, k + s.whole);
  }

  /** The image over `rows` rows is the image over one row fewer and its last row. */
  lemma ImageStep(data: seq<u8>, s: RowShape, rows: nat)
    requires s.rest < 8 && Times(rows, BitsPerRow(s)) <= 8 * |data| && rows > 0
    ensures Times(rows - 1, BitsPerRow(s)) + BitsPerRow(s) <= 8 * |data|
    ensures Image(data, s, rows) == Image(data, s, rows - 1) + Row(data, Times(rows - 1, BitsPerRow(s)), s)
  {
  }

  lemma PrefixSplit<T>(a: seq<T>, i: nat, j: nat)
    requires i <= j <= |a|
    ensures a[..i] + a[i..j] == a[..j]
  {
  }

  /** One row of the loop: the whole bytes, then the leftover bits. */
  method ReadRow(data: seq<u8>, start: nat, s: RowShape) returns (r: Result<seq<u8>, BitReaderError>)
    requires s.rest < 8 && start <= 8 * |data|
    ensures r.Ok? <==> start + BitsPerRow(s) <= 8 * |data|
    ensures r.Ok? ==> start + BitsPerRow(s) <= 8 * |data| && r.value == Row(data, start, s)
  {
    var bytes: seq<u8> := [];
    var pos := start;
    var j: nat := 0;
    while j < s.whole
      invariant j <= s.whole
      invariant pos == start + 8 * j
      invariant pos <= 8 * |data|
      invariant |bytes| == j
      invariant forall i | 0 <= i < j :: bytes[i] == BitsByte(data, start + 8 * i, 8)
    {
      var b := ReadBits(data, pos, 8);
      if b.Err? {
        return Err(b.error);
      }
      bytes := bytes + [b.value];
      pos := pos + 8;
      j := j + 1;
    }
    if s.rest != 0 {
      var b := ReadBits(data, pos, s.rest);
      if b.Err? {
        return Err(b.error);
      }
      bytes := bytes + [Shl(b.value, 8 - s.rest)];
    }
    assert forall i | 0 <= i < |bytes| :: bytes[i] == Row(data, start, s)[i];
    return Ok(bytes);
  }

  /** The row loop, for any row shape. */
  method UnpackRows(data: seq<u8>, s: RowShape, height: nat) returns (r: Result<seq<u8>, BitReaderError>)
    requires s.rest < 8
    ensures r.Ok? <==> Times(height, BitsPerRow(s)) <= 8 * |data|
    ensures r.Ok? ==> Times(height, BitsPerRow(s)) <= 8 * |data| && r.value == Image(data, s, height)
  {
    var image: seq<u8> := [];
    var row: nat := 0;
    while row < height
      invariant row <= height
      invariant Times(row, BitsPerRow(s)) <= 8 * |data|
      invariant image == Image(data, s, row)
    {
      TimesMonotone(row + 1, height, BitsPerRow(s));
      var bytes := ReadRow(data, Times(row, BitsPerRow(s)), s);
      if bytes.Err? {
        return Err(bytes.error);
      }
      image := image + bytes.value;
      row := row + 1;
    }
    return Ok(image);
  }

  /** `unpack_bit_aligned_data`: reads `height` rows from one bit stream,
      each row as whole bytes and then its leftover bits shifted to the top
      of a final byte. The source fills a zeroed buffer at a running offset;
      appending row by row produces the same bytes. */
  method UnpackBitAlignedData(depth: BitDepth, width: u8, height: u8, data: seq<u8>)
    returns (image: Result<seq<u8>, BitReaderError>)
    ensures image.Ok? <==> height * BitsPerRow(Shape(depth, width)) <= 8 * |data|
    ensures image.Ok? ==> |image.value| == height * BytesPerRow(Shape(depth, width))
    ensures image.Ok? ==> Times(height, BitsPerRow(Shape(depth, width))) <= 8 * |data|
                          && image.value == Image(data, Shape(depth, width), height)
  {
    var s := Shape(depth, width);
    TimesProduct(height, BitsPerRow(s));
    TimesProduct(height, BytesPerRow(s));
    image := UnpackRows(data, s, height);
  }

  // ---------------------------------------------------------------------
  // PNG settings

  datatype ColourType = Grayscale | Rgba

  /** Grey levels unless the strike holds 32-bit colour. */
  function PngColour(d: BitDepth): (c: ColourType)
    ensures c == Rgba <==> d == ThirtyTwo
  {
    if d != ThirtyTwo then Grayscale else Rgba
  }

  /** Bits per PNG channel. */
  function PngDepth(d: BitDepth): (n: nat)
    ensures n == 1 || n == 2 || n == 4 || n == 8
  {
    match d
    case One => 1
    case Two => 2
    case Four => 4
    case Eight | ThirtyTwo => 8
  }

  function Channels(c: ColourType): nat {
    match c
    case Grayscale => 1
    case Rgba => 4
  }

  /** The PNG holds as many bits per pixel as the strike. */
  lemma PixelBits(d: BitDepth)
    ensures Channels(PngColour(d)) * PngDepth(d) == Bits(d)
  {
  }

  // ---------------------------------------------------------------------
  // Dumping a strike

  datatype Size = Size(width: u8, height: u8)

  /** A glyph's bitmap as the font stores it, by EBDT/CBDT format. */
  datatype GlyphBitmap =
    | Format1(size: Size, data: seq<u8>)
    | Format2(size: Size, data: seq<u8>)
    | Format5(size: Size, data: seq<u8>)
    | Format6(size: Size, data: seq<u8>)
    | Format7(size: Size, data: seq<u8>)
    | Format8(components: seq<u16>)
    | Format9(components: seq<u16>)
    | Format17(data: seq<u8>)
    | Format18(data: seq<u8>)
    | Format19(data: seq<u8>)

  predicate IsPng(b: GlyphBitmap) {
    b.Format17? || b.Format18? || b.Format19?
  }

  predicate IsComposite(b: GlyphBitmap) {
    b.Format8? || b.Format9?
  }

  /** Formats 2, 5 and 7 pack their rows without byte alignment. */
  predicate IsBitAligned(b: GlyphBitmap) {
    b.Format2? || b.Format5? || b.Format7?
  }

  datatype Strike = Strike(ppemX: u8, ppemY: u8, bitDepth: BitDepth, startGlyph: u16, endGlyph: u16)

  /** What dumping one glyph produces. */
  datatype Output =
    | PngFile(glyph: u16, bytes: seq<u8>)
    | CompositeReport(glyph: u16, components: seq<u16>)
    | ZeroSizeReport(glyph: u16, size: Size)
    | Encoded(glyph: u16, size: Size, colour: ColourType, depth: nat, image: seq<u8>)

  datatype DumpError<E> = LookupFailed(error: E) | Unpacking(reason: BitReaderError) | Unimplemented(format: nat)

  /** What the glyph's output must be: PNG data written as is, composites
      reported by their components, empty bitmaps reported and skipped,
      everything else encoded with the strike's PNG settings, its rows
      unpacked if they are bit-aligned. */
  ghost predicate Dumped(strike: Strike, g: u16, b: GlyphBitmap, out: Output) {
    && out.glyph == g
    && (IsPng(b) ==> out == PngFile(g, b.data))
    && (IsComposite(b) ==> out == CompositeReport(g, b.components))
    && (!IsPng(b) && !IsComposite(b) ==>
          if b.size.width == 0 || b.size.height == 0 then out == ZeroSizeReport(g, b.size)
          else
            && out.Encoded? && out.size == b.size
            && out.colour == PngColour(strike.bitDepth) && out.depth == PngDepth(strike.bitDepth)
            && (b.Format1? ==> out.image == b.data)
            && (IsBitAligned(b) ==>
                  var s := Shape(strike.bitDepth, b.size.width);
                  Times(b.size.height, BitsPerRow(s)) <= 8 * |b.data| && out.image == Image(b.data, s, b.size.height)))
  }

  /** Dumping a glyph fails for a non-empty format 6 bitmap, which is not
      implemented, and for bit-aligned data too short for its rows. */
  predicate GlyphFails(strike: Strike, b: GlyphBitmap) {
    && !IsPng(b) && !IsComposite(b) && b.size.width != 0 && b.size.height != 0
    && (b.Format6? || (IsBitAligned(b) &&
          Times(b.size.height, BitsPerRow(Shape(strike.bitDepth, b.size.width))) > 8 * |b.data|))
  }

  /** The error a failing glyph reports. */
  ghost predicate GlyphError<E>(b: GlyphBitmap, e: DumpError<E>) {
    if b.Format6? then e == Unimplemented(6) else e.Unpacking?
  }

  /** One glyph of `dump_bitmaps`. */
  method DumpGlyph<E>(strike: Strike, g: u16, b: GlyphBitmap) returns (r: Result<Output, DumpError<E>>)
    ensures r.Ok? ==> Dumped(strike, g, b, r.value)
    ensures r.Err? <==> GlyphFails(strike, b)
    ensures r.Err? ==> GlyphError(b, r.error)
  {
    if IsPng(b) {
      return Ok(PngFile(g, b.data));
    } else if IsComposite(b) {
      return Ok(CompositeReport(g, b.components));
    } else if b.size.width == 0 || b.size.height == 0 {
      return Ok(ZeroSizeReport(g, b.size));
    }
    var (colour, depth) := (PngColour(strike.bitDepth), PngDepth(strike.bitDepth));
    if b.Format1? {
      return Ok(Encoded(g, b.size, colour, depth, b.data));
    } else if b.Format6? {
      return Err(Unimplemented(6));
    }
    var image := UnpackBitAlignedData(strike.bitDepth, b.size.width, b.size.height, b.data);
    TimesProduct(b.size.height, BitsPerRow(Shape(strike.bitDepth, b.size.width)));
    if image.Err? {
      return Err(Unpacking(image.error));
    }
    return Ok(Encoded(g, b.size, colour, depth, image.value));
  }

  /** Looking a glyph up in the strike and dumping it both succeed. */
  predicate LookupOk<E>(strike: Strike, found: Result<Option<GlyphBitmap>, E>) {
    found.Ok? && (found.value.Some? ==> !GlyphFails(strike, found.value.value))
  }

  /** The error dumping reports for a glyph whose lookup or dump fails. */
  ghost predicate LookupError<E>(strike: Strike, found: Result<Option<GlyphBitmap>, E>, e: DumpError<E>) {
    match found
    case Err(lookupError) => e == LookupFailed(lookupError)
    case Ok(None) => false
    case Ok(Some(b)) => GlyphError(b, e)
  }

  /** The glyphs in `lo..hi` that have a bitmap, in increasing order. */
  function Present<E>(lookup: u16 -> Result<Option<GlyphBitmap>, E>, lo: int, hi: int): (gs: seq<u16>)
    requires 0 <= lo && hi <= 0x1_0000
    ensures forall k :: 0 <= k < |gs| ==> lo <= gs[k] < hi
    decreases hi - lo
  {
    if hi <= lo then []
    else
      var g: u16 := hi - 1;
      Present(lookup, lo, hi - 1) + (if lookup(g).Ok? && lookup(g).value.Some? then [g] else [])
  }

  function Glyphs(outs: seq<Output>): (gs: seq<u16>)
    ensures |gs| == |outs| && forall k :: 0 <= k < |outs| ==> gs[k] == outs[k].glyph
  {
    if outs == [] then [] else Glyphs(outs[..|outs| - 1]) + [outs[|outs| - 1].glyph]
  }

  /** The output is what the glyph's bitmap dumps to. */
  ghost predicate Describes<E>(strike: Strike, lookup: u16 -> Result<Option<GlyphBitmap>, E>, out: Output) {
    var found := lookup(out.glyph);
    found.Ok? && found.value.Some? && Dumped(strike, out.glyph, found.value.value, out)
  }

  lemma AllDescribe<E>(strike: Strike, lookup: u16 -> Result<Option<GlyphBitmap>, E>, outs: seq<Output>, out: Output)
    requires forall k :: 0 <= k < |outs| ==> Describes(strike, lookup, outs[k])
    requires Describes(strike, lookup, out)
    ensures forall k :: 0 <= k < |outs| + 1 ==> Describes(strike, lookup, (outs + [out])[k])
  {
    forall k | 0 <= k < |outs| + 1
      ensures Describes(strike, lookup, (outs + [out])[k])
    {
      if k < |outs| {
        assert (outs + [out])[k] == outs[k];
      }
    }
  }

  /** Looking up and dumping the glyph `g`: nothing for a glyph with no
      bitmap. */
  method DumpOne<E>(strike: Strike, lookup: u16 -> Result<Option<GlyphBitmap>, E>, g: u16)
    returns (r: Result<Option<Output>, DumpError<E>>)
    ensures r.Ok? <==> LookupOk(strike, lookup(g))
    ensures r.Ok? ==> (r.value.Some? <==> lookup(g).value.Some?)
    ensures r.Ok? && r.value.Some? ==> r.value.value.glyph == g && Describes(strike, lookup, r.value.value)
    ensures r.Err? ==> LookupError(strike, lookup(g), r.error)
  {
    var found := lookup(g);
    if found.Err? {
      return Err(LookupFailed(found.error));
    }
    if found.value.None? {
      return Ok(None);
    }
    var out := DumpGlyph(strike, g, found.value.value);
    if out.Err? {
      return Err(out.error);
    }
    return Ok(Some(out.value));
  }

  /** `dump_bitmaps`: every glyph of the strike's range in turn, stopping at
      the first one whose lookup or dump fails. */
  method DumpStrike<E>(strike: Strike, lookup: u16 -> Result<Option<GlyphBitmap>, E>)
    returns (r: Result<seq<Output>, DumpError<E>>)
    ensures r.Ok? <==> forall g: u16 :: strike.startGlyph <= g <= strike.endGlyph ==> LookupOk(strike, lookup(g))
    ensures r.Ok? ==> Glyphs(r.value) == Present(lookup, strike.startGlyph, strike.endGlyph + 1)
    ensures r.Ok? ==> forall k :: 0 <= k < |r.value| ==> Describes(strike, lookup, r.value[k])
    ensures r.Err? ==> exists g: u16 ::
              && strike.startGlyph <= g <= strike.endGlyph
              && (forall h: u16 :: strike.startGlyph <= h < g ==> LookupOk(strike, lookup(h)))
              && LookupError(strike, lookup(g), r.error)
  {
    var outs: seq<Output> := [];
    var g: int := strike.startGlyph;
    while g <= strike.endGlyph
      invariant strike.startGlyph <= g <= strike.endGlyph + 1 || g == strike.startGlyph
      invariant forall h: u16 :: strike.startGlyph <= h < g ==> LookupOk(strike, lookup(h))
      invariant Glyphs(outs) == Present(lookup, strike.startGlyph, g)
      invariant forall k :: 0 <= k < |outs| ==> Describes(strike, lookup, outs[k])
    {
      var one := DumpOne(strike, lookup, g);
      if one.Err? {
        return Err(one.error);
      }
      if one.value.Some? {
        var out := one.value.value;
        assert Glyphs(outs + [out]) == Glyphs(outs) + [g];
        AllDescribe(strike, lookup, outs, out);
        outs := outs + [out];
      }
      g := g + 1;
    }
    return Ok(outs);
  }
}

=== FILE: cmap.dfy ===
/** The `cmap` subcommand: one line per mapping of the font's chosen cmap
    sub-table. Code points of a Unicode sub-table are shown as characters,
    with the ASCII control characters moved into the Control Pictures block;
    every other encoding prints plain numbers. Reading the font and walking
    the sub-table belong to the font library: the encoding and the list of
    mappings are inputs. */
module Cmap {
  import opened Wrappers
  import opened Errors
  import opened Text

  /** The encodings the library reports for a cmap sub-table. */
  datatype Encoding = Unicode | Symbol | AppleRoman | Big5

  /** `{:?}` of an encoding. */
  function EncodingName(e: Encoding): string {
    match e
    case Unicode => "Unicode"
    case Symbol => "Symbol"
    case AppleRoman => "AppleRoman"
    case Big5 => "Big5"
  }

  /** `char::is_ascii_control`, for a code point. */
  predicate IsAsciiControl(code: int) {
    0 <= code < 0x20 || code == 0x7F
  }

  /** `char::is_control`: the general category Cc, that is C0, DEL and C1. */
  predicate IsControl(c: char) {
    c as int < 0x20 || 0x7F <= c as int < 0xA0
  }

  /** The character shown for a code of a Unicode sub-table: none for a code
      that is not a scalar value, the code moved up by 0x2400 for an ASCII
      control, otherwise the code's own character. */
  function Shown(code: u32): (r: Option<char>)
    ensures r.Some? <==> IsScalar(code)
    ensures r.Some? && IsAsciiControl(code) ==> r.value as int == code + 0x2400
    ensures r.Some? && !IsAsciiControl(code) ==> r.value as int == code
  {
    var chr :- FromU32(code);
    if IsAsciiControl(code) then FromU32(code + 0x2400) else Some(chr)
  }

  /** The C0 controls become their pictures, U+2400 to U+241F. */
  lemma C0Pictures(code: u32)
    requires code < 0x20
    ensures Shown(code).Some? && 0x2400 <= Shown(code).value as int < 0x2420
    ensures !IsControl(Shown(code).value)
  {
  }

  /** DEL is moved by the same offset, to U+247F, not to its picture U+2421. */
  lemma DelShown()
    ensures Shown(0x7F) == Some('\U{247F}')
  {
  }

  /** After the move, the shown character is a control character exactly for
      the C1 codes: no ASCII control is ever printed raw. */
  lemma ShownControl(code: u32)
    requires IsScalar(code)
    ensures !IsAsciiControl(Shown(code).value as int)
    ensures IsControl(Shown(code).value) <==> 0x80 <= code < 0xA0
  {
  }

  /** What precedes `U+` on the line of a shown character: the character in
      quotes, or blanks of the same width for a C1 control. */
  function Prefix(c: char): (r: string)
    ensures |r| == 6 && r[4] == 'U' && r[5] == '+'
    ensures r[0] == '\'' <==> !IsControl(c)
    ensures r[0] == '\'' ==> r[1] == c
  {
    if IsControl(c) then "    U+" else "'" + [c] + "' U+"
  }

  /** The line printed for the mapping `code -> gid`. */
  function MappingLine(encoding: Encoding, code: u32, gid: u16): (line: string) {
    if encoding == Unicode && IsScalar(code) then
      Prefix(Shown(code).value) + Hex(code, 4, true) + " -> " + Decimal(gid)
    else Decimal(code) + " -> " + Decimal(gid)
  }

  /** A Unicode code that is a scalar value is shown with `U+` and
      hexadecimal digits; it is quoted as a character exactly when it is not
      a C1 control, and then the character is never a control. */
  lemma ShownLineForm(code: u32, gid: u16)
    requires IsScalar(code)
    ensures var line := MappingLine(Unicode, code, gid);
            HexForm(line)
            && (line[0] == '\'' <==> !(0x80 <= code < 0xA0))
            && (line[0] == '\'' ==> line[1] == Shown(code).value && !IsControl(line[1]))
  {
    ShownControl(code);
    PrefixStarts(Shown(code).value, Hex(code, 4, true) + " -> " + Decimal(gid));
  }

  /** Every other code starts its line with a decimal digit. */
  lemma NumberLineForm(encoding: Encoding, code: u32, gid: u16)
    requires encoding != Unicode || !IsScalar(code)
    ensures var line := MappingLine(encoding, code, gid);
            !HexForm(line) && '0' <= line[0] <= '9'
  {
    var d := Decimal(code);
    assert d[0] in d;
    NotAHexForm(d, Decimal(gid));
  }

  /** A line starting with a prefix begins with the prefix's characters. */
  lemma PrefixStarts(c: char, rest: string)
    ensures var line := Prefix(c) + rest;
            HexForm(line) && line[0] == Prefix(c)[0] && line[1] == Prefix(c)[1]
  {
  }

  /** Whether a line shows the code in hexadecimal after `U+`. */
  predicate HexForm(line: string) {
    |line| >= 6 && line[4] == 'U' && line[5] == '+'
  }

  /** The code of a printed line: the hexadecimal number after `U+`, or
      else the leading decimal number. */
  function ReadCode(line: string): (r: Option<nat>)
    ensures r.Some? ==> r.value < 0x1_0000_0000
  {
    if HexForm(line) then ParseUnsigned(Before(line[6..], ' '), 16, 0x1_0000_0000)
    else ParseUnsigned(Before(line, ' '), 10, 0x1_0000_0000)
  }

  /** The glyph id of a printed line: the number after the last space. */
  function ReadGid(line: string): (r: Option<nat>)
    ensures r.Some? ==> r.value < 0x1_0000
  {
    ParseUnsigned(AfterLast(line, ' '), 10, 0x1_0000)
  }

  /** A reader for the printed lines, the inverse of `MappingLine`. */
  function ReadMapping(line: string): (r: Option<(nat, nat)>)
    ensures r.Some? <==> ReadCode(line).Some? && ReadGid(line).Some?
    ensures r.Some? ==> r.value == (ReadCode(line).value, ReadGid(line).value)
  {
    var code := ReadCode(line);
    var gid := ReadGid(line);
    if code.Some? && gid.Some? then Some((code.value, gid.value)) else None
  }

  /** Every printed line names its mapping: the code and the glyph id read
      back from it, whatever the encoding and whether or not the code is
      shown as a character. */
  lemma LineReadsBack(encoding: Encoding, code: u32, gid: u16)
    ensures ReadMapping(MappingLine(encoding, code, gid)) == Some((code, gid))
  {
    var line := MappingLine(encoding, code, gid);
    var h := Hex(code, 4, true);
    var d := Decimal(code);
    var g := Decimal(gid);
    ParseDecimal(gid, 0x1_0000);
    if encoding == Unicode && IsScalar(code) {
      var prefix := Prefix(Shown(code).value);
      ParseHex(code, 4, true, 0x1_0000_0000);
      HexCode(prefix, h, g, code);
      LastWord(prefix + h, g);
    } else {
      assert line == d + " -> " + g;
      ParseDecimal(code, 0x1_0000_0000);
      DecimalCode(d, g, code);
      LastWord(d, g);
    }
  }

  /** The glyph id is the last word of a line ending in ` -> ` and a number. */
  lemma LastWord(front: string, g: string)
    requires AllDigits(g, 10)
    ensures AfterLast(front + " -> " + g, ' ') == g
  {
    NotADigit(g, 10, ' ');
    assert front + " -> " + g == (front + " ->") + [' '] + g;
    AfterLastJoin(front + " ->", ' ', g);
  }

  /** The code of a line with hexadecimal digits after `U+`. */
  lemma HexCode(prefix: string, h: string, g: string, code: nat)
    requires |prefix| == 6 && prefix[4] == 'U' && prefix[5] == '+'
    requires AllDigits(h, 16) && ParseUnsigned(h, 16, 0x1_0000_0000) == Some(code)
    ensures ReadCode(prefix + h + " -> " + g) == Some(code)
  {
    var line := prefix + h + " -> " + g;
    assert HexForm(line);
    NotADigit(h, 16, ' ');
    assert line[6..] == h + [' '] + ("-> " + g);
    BeforeJoin(h, ' ', "-> " + g);
  }

  /** The code of a line that starts with decimal digits. */
  lemma DecimalCode(d: string, g: string, code: nat)
    requires |d| > 0 && AllDigits(d, 10) && AllDigits(g, 10)
    requires ParseUnsigned(d, 10, 0x1_0000_0000) == Some(code)
    ensures ReadCode(d + " -> " + g) == Some(code)
  {
    var line := d + " -> " + g;
    NotADigit(d, 10, ' ');
    assert line == d + [' '] + ("-> " + g);
    BeforeJoin(d, ' ', "-> " + g);
    NotAHexForm(d, g);
  }

  /** A line that starts with a decimal number has no `U+` where the
      hexadecimal form has it. */
  lemma NotAHexForm(d: string, g: string)
    requires |d| > 0 && AllDigits(d, 10)
    ensures !HexForm(d + " -> " + g)
  {
    var line := d + " -> " + g;
    if |line| >= 6 && 4 < |d| {
      NotADigit(d, 10, 'U');
      assert line[4] == d[4];
    }
  }

  /** One printed line per mapping, in the sub-table's order. */
  function MappingLines(encoding: Encoding, ms: seq<(u32, u16)>): (lines: seq<string>)
    ensures |lines| == |ms|
    ensures forall k | 0 <= k < |ms| :: lines[k] == MappingLine(encoding, ms[k].0, ms[k].1)
  {
    seq(|ms|, k requires 0 <= k < |ms| => MappingLine(encoding, ms[k].0, ms[k].1))
  }

  /** `dump_cmap`: a heading, then one line per mapping in the sub-table's
      order. It reports failure (`true`) on every path that returns. */
  function DumpCmap(encoding: Encoding, mappings: Result<seq<(u32, u16)>, ParseError>): (r: Result<(seq<string>, bool), ParseError>)
    ensures r.Err? <==> mappings.Err?
    ensures r.Ok? ==> r.value.1
    ensures r.Ok? ==> |r.value.0| == |mappings.value| + 1
    ensures r.Ok? ==> r.value.0[0] == "cmap sub-table encoding: " + EncodingName(encoding)
    ensures r.Ok? ==> r.value.0[1..] == MappingLines(encoding, mappings.value)
  {
    var ms :- mappings;
    Ok((["cmap sub-table encoding: " + EncodingName(encoding)] + MappingLines(encoding, ms), true))
  }

  /** The dump loses nothing: reading its lines after the heading gives back
      the sub-table's mappings, in order. */
  lemma DumpReadsBack(encoding: Encoding, mappings: seq<(u32, u16)>)
    ensures DumpCmap(encoding, Ok(mappings)).Ok?
    ensures var lines := DumpCmap(encoding, Ok(mappings)).value.0;
            forall k | 0 <= k < |mappings| ::
              ReadMapping(lines[k + 1]) == Some((mappings[k].0 as nat, mappings[k].1 as nat))
  {
    var lines := DumpCmap(encoding, Ok(mappings)).value.0;
    forall k | 0 <= k < |mappings|
      ensures ReadMapping(lines[k + 1]) == Some((mappings[k].0 as nat, mappings[k].1 as nat))
    {
      assert lines[k + 1] == lines[1..][k];
      LineReadsBack(encoding, mappings[k].0, mappings[k].1);
    }
  }

  /** `main` once the font is read: `None` when the library finds no
      suitable cmap sub-table, otherwise the sub-table's encoding and its
      mappings. The result is the printed lines and the exit code. */
  function Main(found: Option<(Encoding, Result<seq<(u32, u16)>, ParseError>)>): (r: Result<(seq<string>, int), ParseError>)
    ensures r.Err? <==> found.Some? && found.value.1.Err?
    ensures r.Ok? ==> r.value.1 == 1
    ensures found.None? ==> r == Ok(([], 1))
    ensures found.Some? && r.Ok? ==> r.value.0 == DumpCmap(found.value.0, found.value.1).value.0
  {
    match found
    case None => Ok(([], 1))
    case Some((encoding, mappings)) =>
      var (lines, failed) :- DumpCmap(encoding, mappings);
      Ok((lines, if failed then 1 else 0))
  }
}

=== FILE: dump.dfy ===
/** The control logic of the `dump` subcommand and of the older stand-alone
    `dump` tool: which dump an invocation selects, the checks before the CFF
    summary, the local-subroutine totals it prints, and the raw dump of one
    table. Reading the font, the tables and the CFF structures belongs to the
    font library: what it reports arrives as inputs, and the dumps
    themselves are named, not printed. */
module Dump {
  import opened Wrappers
  import opened Errors
  import opened Text
  import opened Tags

  /** The errors of both tools: a library error, or a message of their own. */
  datatype DumpError = Parse(error: ParseError) | Message(text: string)

  const TtyMessage := "Not printing binary data to tty."
  const NotFoundMessage := "Table not found"

  // ---------------------------------------------------------------------
  // CFF

  /** A local subroutine INDEX: how many subroutines it holds and how many
      bytes of data. */
  datatype SubrIndex = SubrIndex(count: nat, dataLen: nat)

  /** A Type 1-keyed font has at most one local subroutine INDEX; a
      CID-keyed font has one slot per Font DICT, each possibly empty. */
  datatype CffVariant =
    | Type1(localSubrs: Option<SubrIndex>)
    | Cid(localSubrIndices: seq<Option<SubrIndex>>)

  /** A font of the CFF font set: the CharStrings entry of its Top DICT
      (absent, present but not an integer, or an offset) and its variant. */
  datatype CffFont = CffFont(charStrings: Option<Result<int, ParseError>>, variant: CffVariant)

  /** The checks `dump_cff_table` makes before its summary: the Name INDEX
      holds exactly one name, there is a first font, and its CharStrings
      offset is present and readable. The result is that font and offset. */
  function CheckCff(nameCount: nat, fonts: seq<CffFont>): (r: Result<(CffFont, int), ParseError>)
    ensures r.Ok? <==> nameCount == 1 && |fonts| > 0
                       && fonts[0].charStrings.Some? && fonts[0].charStrings.value.Ok?
    ensures r.Ok? ==> r.value.0 == fonts[0] && Some(Ok(r.value.1)) == fonts[0].charStrings
    ensures nameCount != 1 ==> r == Err(BadIndex)
    ensures r.Err? && nameCount == 1 ==>
              r.error == MissingValue || (|fonts| > 0 && Some(Err(r.error)) == fonts[0].charStrings)
  {
    if nameCount != 1 then Err(BadIndex)
    else if |fonts| == 0 then Err(MissingValue)
    else
      match fonts[0].charStrings
      case None => Err(MissingValue)
      case Some(Err(e)) => Err(e)
      case Some(Ok(offset)) => Ok((fonts[0], offset))
  }

  /** Only the first font of the set is ever looked at. */
  lemma CheckCffFirstFontOnly(nameCount: nat, fonts: seq<CffFont>, more: seq<CffFont>)
    requires |fonts| > 0
    ensures CheckCff(nameCount, fonts + more) == CheckCff(nameCount, fonts[..1])
  {
    assert (fonts + more)[0] == fonts[..1][0];
  }

  /** One slot of the fold: a present index adds its subroutines and bytes,
      an empty slot adds nothing. */
  function AddIndex(totals: (nat, nat), index: Option<SubrIndex>): (r: (nat, nat))
    ensures index.None? ==> r == totals
    ensures index.Some? ==> r.0 - totals.0 == index.value.count && r.1 - totals.1 == index.value.dataLen
  {
    match index
    case Some(i) => (totals.0 + i.count, totals.1 + i.dataLen)
    case None => totals
  }

  /** The fold over the local subroutine slots of a CID-keyed font, from the
      first slot to the last. */
  function Fold(totals: (nat, nat), indices: seq<Option<SubrIndex>>): (nat, nat)
    decreases |indices|
  {
    if |indices| == 0 then totals else Fold(AddIndex(totals, indices[0]), indices[1..])
  }

  /** The indices actually present, in order. */
  function Present(indices: seq<Option<SubrIndex>>): (r: seq<SubrIndex>)
    ensures |r| <= |indices|
    ensures forall x :: x in r <==> Some(x) in indices
  {
    if |indices| == 0 then []
    else
      var rest := Present(indices[1..]);
      assert forall x :: Some(x) in indices <==> Some(x) == indices[0] || Some(x) in indices[1..];
      if indices[0].Some? then [indices[0].value] + rest else rest
  }

  function Subroutines(xs: seq<SubrIndex>): nat {
    if |xs| == 0 then 0 else xs[0].count + Subroutines(xs[1..])
  }

  function DataBytes(xs: seq<SubrIndex>): nat {
    if |xs| == 0 then 0 else xs[0].dataLen + DataBytes(xs[1..])
  }

  /** The fold adds up exactly the present indices: the totals are the sums
      of their subroutine counts and data lengths. */
  lemma {:induction false} FoldSums(totals: (nat, nat), indices: seq<Option<SubrIndex>>)
    ensures Fold(totals, indices)
            == (totals.0 + Subroutines(Present(indices)), totals.1 + DataBytes(Present(indices)))
    decreases |indices|
  {
    if |indices| > 0 {
      FoldSums(AddIndex(totals, indices[0]), indices[1..]);
      if indices[0].Some? {
        var xs := [indices[0].value] + Present(indices[1..]);
        assert xs[1..] == Present(indices[1..]);
      }
    }
  }

  /** What the summary line reports: subroutines, bytes and, for a
      CID-keyed font, the number of slots. */
  datatype SubrsSummary = SubrsSummary(count: nat, size: nat, slots: Option<nat>)

  /** The local-subroutine summary of either variant. A Type 1-keyed font's
      single index is totalled like a one-slot CID-keyed font; the slot count
      of a CID-keyed font includes its empty slots. */
  function LocalSubrs(v: CffVariant): (r: SubrsSummary)
    ensures v.Type1? ==> r.slots.None? && (r.count, r.size) == Fold((0, 0), [v.localSubrs])
    ensures v.Cid? ==> r.slots == Some(|v.localSubrIndices|)
                       && (r.count, r.size) == (Subroutines(Present(v.localSubrIndices)), DataBytes(Present(v.localSubrIndices)))
  {
    match v
    case Type1(index) =>
      assert [index][1..] == [];
      (match index
       case Some(i) => SubrsSummary(i.count, i.dataLen, None)
       case None => SubrsSummary(0, 0, None))
    case Cid(indices) =>
      FoldSums((0, 0), indices);
      var (count, size) := Fold((0, 0), indices);
      SubrsSummary(count, size, Some(|indices|))
  }

  /** An empty slot adds a slot to the summary and nothing else. */
  lemma EmptySlotCountsOnlyAsSlot(indices: seq<Option<SubrIndex>>)
    ensures var before := LocalSubrs(Cid(indices));
            var after := LocalSubrs(Cid(indices + [None]));
            after.count == before.count && after.size == before.size
            && after.slots.value == before.slots.value + 1
  {
    PresentAppendNone(indices);
  }

  lemma {:induction false} PresentAppendNone(indices: seq<Option<SubrIndex>>)
    ensures Present(indices + [None]) == Present(indices)
    decreases |indices|
  {
    if |indices| == 0 {
      var empty: seq<Option<SubrIndex>> := [None];
      assert empty[1..] == [];
    } else {
      assert (indices + [None])[1..] == indices[1..] + [None];
      PresentAppendNone(indices[1..]);
    }
  }

  // ---------------------------------------------------------------------
  // Raw table dumps

  /** `dump_raw_table`: the table's bytes, or "Table not found". */
  function RawTable(table: Option<seq<u8>>): (r: Result<seq<u8>, DumpError>)
    ensures r.Ok? <==> table.Some?
    ensures r.Ok? ==> r.value == table.value
    ensures r.Err? ==> r.error == Message(NotFoundMessage)
  {
    match table
    case Some(bytes) => Ok(bytes)
    case None => Err(Message(NotFoundMessage))
  }

  /** The kinds of font file the per-format dumps tell apart. */
  datatype Container = Sfnt | Woff | Woff2

  /** What a raw dump does: write the table's bytes to standard output, or
      warn on standard error. */
  datatype RawOutcome = Written(bytes: seq<u8>) | Warned(warning: string)

  /** A per-format dump given `--table`: the library's lookup of the table,
      `None` when the font has no such table. A font file (or WOFF2) without
      the table is an error; a WOFF file without it only gets a warning
      naming the tag. */
  function TableDump(container: Container, tag: u32, lookup: Result<Option<seq<u8>>, ParseError>): (r: Result<RawOutcome, DumpError>)
    ensures lookup.Err? ==> r == Err(Parse(lookup.error))
    ensures lookup.Ok? && lookup.value.Some? ==> r == Ok(Written(lookup.value.value))
    ensures lookup.Ok? && lookup.value.None? && container != Woff ==> r == Err(Message(NotFoundMessage))
    ensures lookup.Ok? && lookup.value.None? && container == Woff ==> r.Ok? && r.value.Warned?
  {
    match lookup
    case Err(e) => Err(Parse(e))
    case Ok(table) =>
      if container == Woff && table.None? then Ok(Warned("Table " + DisplayTag(tag) + " not found"))
      else
        var bytes :- RawTable(table);
        Ok(Written(bytes))
  }

  /** The tag named in a WOFF warning. */
  function WarnedTag(warning: string): (r: string) {
    if |warning| >= 16 then warning[6..|warning| - 10] else ""
  }

  /** The warning names the missing table: the tag's display form is read
      back from it, and no two tags give the same warning. */
  lemma WarningNamesTag(tag: u32, other: u32)
    ensures TableDump(Woff, tag, Ok(None)).value.warning == "Table " + DisplayTag(tag) + " not found"
    ensures WarnedTag(TableDump(Woff, tag, Ok(None)).value.warning) == DisplayTag(tag)
    ensures tag != other ==>
              TableDump(Woff, tag, Ok(None)).value.warning != TableDump(Woff, other, Ok(None)).value.warning
  {
    var w := "Table " + DisplayTag(tag) + " not found";
    assert |w| >= 16;
    assert w[6..|w| - 10] == DisplayTag(tag);
    if tag != other {
      var v := "Table " + DisplayTag(other) + " not found";
      assert |v| >= 16 && v[6..|v| - 10] == DisplayTag(other);
      if w == v {
        DisplayTagInjective(tag, other);
      }
    }
  }

  /** `dump_glyph` takes the glyph's record from the glyf table, `BadValue`
      when the id is past the last record. */
  function GlyphRecord<T>(records: seq<T>, glyphId: u16): (r: Result<T, ParseError>)
    ensures r.Ok? <==> glyphId < |records|
    ensures r.Ok? ==> r.value == records[glyphId]
    ensures r.Err? ==> r.error == BadValue
  {
    if glyphId < |records| then Ok(records[glyphId]) else Err(BadValue)
  }

  // ---------------------------------------------------------------------
  // The `dump` subcommand

  /** The options `main` reads. */
  datatype DumpOpts = DumpOpts(
    table: Option<string>, index: nat,
    cff: bool, loca: bool, morx: bool, head: bool, hmtx: bool, glyph: Option<u16>,
    encodings: bool, glyphNames: bool, name: bool)

  /** `Flags::from`: the options the per-format dumps and the extras need. */
  datatype Flags = Flags(encodings: bool, glyphNames: bool, name: bool)

  function FlagsOf(opts: DumpOpts): (f: Flags)
    ensures f.encodings == opts.encodings && f.glyphNames == opts.glyphNames && f.name == opts.name
  {
    Flags(opts.encodings, opts.glyphNames, opts.name)
  }

  /** The dumps `main` can run, in the order it runs them. */
  datatype Action =
    | CffDump
    | LocaDump
    | MorxDump
    | HeadDump
    | HmtxDump
    | GlyphDump(glyphId: u16)
    | FormatDump(table: Option<u32>, flags: Flags)
    | EncodingList
    | GlyphNameList

  /** The priority of each table dump: the smaller the earlier. */
  function Rank(a: Action): nat {
    match a
    case CffDump => 0
    case LocaDump => 1
    case MorxDump => 2
    case HeadDump => 3
    case HmtxDump => 4
    case GlyphDump(_) => 5
    case FormatDump(_, _) => 6
    case _ => 7
  }

  /** Whether the options ask for the dump of that kind. */
  predicate Requested(opts: DumpOpts, a: Action) {
    match a
    case CffDump => opts.cff
    case LocaDump => opts.loca
    case MorxDump => opts.morx
    case HeadDump => opts.head
    case HmtxDump => opts.hmtx
    case GlyphDump(_) => opts.glyph.Some?
    case FormatDump(_, _) => true
    case _ => false
  }

  /** The table dump of a run without `--cff`. */
  function Selected(opts: DumpOpts, table: Option<u32>): Action {
    if opts.loca then LocaDump
    else if opts.morx then MorxDump
    else if opts.head then HeadDump
    else if opts.hmtx then HmtxDump
    else if opts.glyph.Some? then GlyphDump(opts.glyph.value)
    else FormatDump(table, FlagsOf(opts))
  }

  /** `main`'s plan: the table name is resolved first and a raw dump to a
      terminal is refused before the font is read; `--cff` dumps the file as
      a bare CFF table and stops; otherwise one table dump, chosen by
      priority, followed by the cmap encodings and the glyph names when
      asked for. */
  function Plan(opts: DumpOpts, fromString: string -> Result<u32, ParseError>, tty: bool): (r: Result<seq<Action>, DumpError>)
    ensures opts.table.Some? && fromString(opts.table.value).Err? ==>
              r == Err(Parse(fromString(opts.table.value).error))
    ensures r.Err? <==> opts.table.Some? && (fromString(opts.table.value).Err? || tty)
    ensures r.Err? && opts.table.Some? && fromString(opts.table.value).Ok? ==> r.error == Message(TtyMessage)
    ensures r.Ok? && opts.cff ==> r.value == [CffDump]
    ensures r.Ok? && !opts.cff ==>
              |r.value| == 1 + (if opts.encodings then 1 else 0) + (if opts.glyphNames then 1 else 0)
              && (opts.encodings <==> EncodingList in r.value)
              && (opts.glyphNames <==> r.value[|r.value| - 1] == GlyphNameList)
  {
    var table :- match opts.table
                 case None => Ok(None)
                 case Some(name) =>
                   (match fromString(name)
                    case Ok(t) => Ok(Some(t))
                    case Err(e) => Err(Parse(e)));
    if table.Some? && tty then Err(Message(TtyMessage))
    else if opts.cff then Ok([CffDump])
    else
      Ok([Selected(opts, table)]
         + (if opts.encodings then [EncodingList] else [])
         + (if opts.glyphNames then [GlyphNameList] else []))
  }

  /** The table dump `main` runs is the requested one of highest priority:
      its option is set, and no dump ranked before it was asked for. */
  lemma PlanPriority(opts: DumpOpts, fromString: string -> Result<u32, ParseError>, tty: bool, other: Action)
    requires Plan(opts, fromString, tty).Ok?
    ensures var a := Plan(opts, fromString, tty).value[0];
            Requested(opts, a) && (Requested(opts, other) ==> Rank(a) <= Rank(other))
  {
  }

  /** A request for a raw table never goes to a terminal, whatever else the
      options say. */
  lemma TtyRefused(opts: DumpOpts, fromString: string -> Result<u32, ParseError>)
    requires opts.table.Some? && fromString(opts.table.value).Ok?
    ensures Plan(opts, fromString, true) == Err(Message(TtyMessage))
  {
  }

  // ---------------------------------------------------------------------
  // The older stand-alone `dump` tool

  /** The options of the older tool, as getopts returns them. */
  datatype LegacyOpts = LegacyOpts(
    help: bool, table: Option<string>, index: Option<string>, glyph: Option<string>,
    cff: bool, loca: bool, free: seq<string>)

  /** What the older tool does. */
  datatype LegacyAction =
    | LegacyUsage
    | LegacyLoca(file: string, index: nat)
    | LegacyGlyph(file: string, index: nat, glyphId: u16)
    | LegacyCff(file: string)
    | LegacyFormat(file: string, table: Option<u32>, index: nat)

  /** `-i`: the font's index in a collection, 0 when absent; a value that is
      not a 64-bit unsigned number is `BadValue`. */
  function IndexOption(index: Option<string>): (r: Result<nat, ParseError>)
    ensures index.None? ==> r == Ok(0)
    ensures r.Ok? ==> r.value < 0x1_0000_0000_0000_0000
    ensures r.Err? ==> r.error == BadValue
  {
    match index
    case None => Ok(0)
    case Some(s) =>
      (match ParseUnsigned(s, 10, 0x1_0000_0000_0000_0000)
       case Some(n) => Ok(n)
       case None => Err(BadValue))
  }

  /** Every index the tool can be given in decimal is read back. */
  lemma IndexOptionReadsBack(n: nat)
    requires n < 0x1_0000_0000_0000_0000
    ensures IndexOption(Some(Decimal(n))) == Ok(n)
  {
    ParseDecimal(n, 0x1_0000_0000_0000_0000);
  }

  /** `-g`: a glyph id only when the value parses as a 16-bit unsigned
      number; anything else is ignored rather than reported. */
  function GlyphOption(glyph: Option<string>): (r: Option<u16>)
    ensures glyph.None? ==> r.None?
  {
    match glyph
    case None => None
    case Some(s) =>
      (match ParseUnsigned(s, 10, 0x1_0000)
       case Some(n) => Some(n)
       case None => None)
  }

  /** The older tool's `main`: help first, then the table name, the terminal
      check and the index, then the file argument; the dumps rank loca,
      glyph, CFF, and the per-format dump last. */
  function LegacyPlan(opts: LegacyOpts, fromString: string -> Result<u32, ParseError>, tty: bool): (r: Result<LegacyAction, DumpError>)
    ensures opts.help ==> r == Ok(LegacyUsage)
    ensures !opts.help && opts.table.Some? && fromString(opts.table.value).Err? ==>
              r == Err(Parse(fromString(opts.table.value).error))
    ensures r.Err? <==> !opts.help && ((opts.table.Some? && (fromString(opts.table.value).Err? || tty))
                                       || IndexOption(opts.index).Err?)
    ensures r == Ok(LegacyUsage) <==> opts.help || (r.Ok? && |opts.free| == 0)
    ensures r.Ok? && !r.value.LegacyUsage? ==> r.value.file == opts.free[0]
    ensures r.Ok? && r.value.LegacyGlyph? ==> !opts.loca && GlyphOption(opts.glyph) == Some(r.value.glyphId)
  {
    if opts.help then Ok(LegacyUsage)
    else
      var table :- match opts.table
                   case None => Ok(None)
                   case Some(name) =>
                     (match fromString(name)
                      case Ok(t) => Ok(Some(t))
                      case Err(e) => Err(Parse(e)));
      if table.Some? && tty then Err(Message(TtyMessage))
      else
        var index :- match IndexOption(opts.index)
                     case Ok(i) => Ok(i)
                     case Err(e) => Err(Parse(e));
        if |opts.free| == 0 then Ok(LegacyUsage)
        else
          var file := opts.free[0];
          if opts.loca then Ok(LegacyLoca(file, index))
          else if GlyphOption(opts.glyph).Some? then Ok(LegacyGlyph(file, index, GlyphOption(opts.glyph).value))
          else if opts.cff then Ok(LegacyCff(file))
          else Ok(LegacyFormat(file, table, index))
  }

  /** A bad index is reported even when no font file is named: the index is
      checked before the file argument. */
  lemma BadIndexBeforeUsage(opts: LegacyOpts, fromString: string -> Result<u32, ParseError>, tty: bool)
    requires !opts.help && opts.table.None? && IndexOption(opts.index).Err?
    ensures LegacyPlan(opts, fromString, tty) == Err(Parse(BadValue))
  {
  }

  /** The two tools rank the dumps differently: given `--cff` and `--loca`,
      the subcommand dumps only the CFF table; given `--cff` and a glyph
      without `--loca`, the older tool dumps the glyph, so a glyph request
      outranks `--cff` only there. */
  lemma PrioritiesDiffer(opts: DumpOpts, legacy: LegacyOpts, fromString: string -> Result<u32, ParseError>)
    requires opts.table.None? && opts.cff && opts.loca
    requires !legacy.help && legacy.table.None? && legacy.index.None? && |legacy.free| > 0
    requires legacy.cff && !legacy.loca && GlyphOption(legacy.glyph).Some?
    ensures Plan(opts, fromString, false) == Ok([CffDump])
    ensures LegacyPlan(legacy, fromString, false).value.LegacyGlyph?
  {
  }

  /** The older tool's rank of each dump. */
  function LegacyRank(a: LegacyAction): nat {
    match a
    case LegacyLoca(_, _) => 0
    case LegacyGlyph(_, _, _) => 1
    case LegacyCff(_) => 2
    case LegacyFormat(_, _, _) => 3
    case LegacyUsage => 4
  }

  /** Whether the older tool's options ask for that dump. */
  predicate LegacyRequested(opts: LegacyOpts, a: LegacyAction) {
    match a
    case LegacyLoca(_, _) => opts.loca
    case LegacyGlyph(_, _, _) => GlyphOption(opts.glyph).Some?
    case LegacyCff(_) => opts.cff
    case LegacyFormat(_, _, _) => true
    case LegacyUsage => false
  }

  /** The older tool also runs the requested dump of highest priority. */
  lemma LegacyPlanPriority(opts: LegacyOpts, fromString: string -> Result<u32, ParseError>, tty: bool, other: LegacyAction)
    requires LegacyPlan(opts, fromString, tty).Ok? && !LegacyPlan(opts, fromString, tty).value.LegacyUsage?
    ensures var a := LegacyPlan(opts, fromString, tty).value;
            LegacyRequested(opts, a) && (LegacyRequested(opts, other) ==> LegacyRank(a) <= LegacyRank(other))
  {
  }
}

=== FILE: dump_woff.dfy ===
/** The stand-alone `dump_woff` tool: it takes exactly one argument, and
    dumps a WOFF file only when the font inside is TrueType or CFF-based
    OpenType. Reading the file and the WOFF header, and the dump itself,
    belong to the font library; their results are inputs. The name table
    part of its dump is the one `NameTable` describes. */
module DumpWoff {
  import opened Wrappers
  import opened Errors
  import opened Tags

  /** The sfnt version of a TrueType font, and `OTTO` of a CFF-based one. */
  const TrueTypeFlavor: u32 := 0x0001_0000
  const OttoFlavor: u32 := 0x4F54_544F

  predicate Accepted(flavor: u32) {
    flavor == TrueTypeFlavor || flavor == OttoFlavor
  }

  /** What the tool does when it does not fail. */
  datatype Outcome = Usage | Dumped

  /** `main`: any argument count other than two (the program and the file)
      prints the usage and succeeds. Otherwise `header` is the library's
      reading of the file, giving the flavor, and `dump` is the result of
      dumping it; an unknown flavor is `BadVersion`. */
  function Main(args: seq<string>, header: Result<u32, ParseError>, dump: Result<(), ParseError>): (r: Result<Outcome, ParseError>)
    ensures |args| != 2 ==> r == Ok(Usage)
    ensures |args| == 2 ==> (r == Ok(Dumped) <==> header.Ok? && Accepted(header.value) && dump.Ok?)
    ensures |args| == 2 && header.Ok? && !Accepted(header.value) ==> r == Err(BadVersion)
    ensures |args| == 2 && header.Err? ==> r == Err(header.error)
  {
    if |args| != 2 then Ok(Usage)
    else
      var flavor :- header;
      if Accepted(flavor) then
        var _ :- dump;
        Ok(Dumped)
      else Err(BadVersion)
  }

  /** The flavors accepted are TrueType's and exactly the one that displays
      as `OTTO`. */
  lemma AcceptedByName(flavor: u32)
    ensures Accepted(flavor) <==> flavor == TrueTypeFlavor || DisplayTag(flavor) == "OTTO"
  {
    assert TagOf("OTTO") == OttoFlavor;
    DisplayTagOf("OTTO");
    if DisplayTag(flavor) == "OTTO" {
      DisplayTagInjective(flavor, OttoFlavor);
    }
  }
}

=== FILE: errors.dfy ===
/** The error values of the font library the tools report. Only the variants
    the modelled code produces itself are listed; errors raised inside the
    library arrive through `Library(detail)` with an uninterpreted detail. */
module Errors {
  datatype ParseError =
    | BadValue
    | BadIndex
    | BadVersion
    | MissingValue
    | Library(detail: nat)
}

=== FILE: fallback.dfy ===
/** The font-fallback example: text is shaped with the first font, and every
    stretch of characters that font has no glyph for is shaped again with the
    next font, recursively. `GlyphPositions` lines the library's glyph infos
    up with the glyphs that went into it, since the library silently drops
    glyphs without an index; `ShapeInto` splits the first pass into kept
    items and runs to reshape. Shaping one text with one font (GSUB, GPOS)
    and the horizontal advances are parameters. Only the glyph fields the
    example reads are kept; the others pass through untouched. */
module Fallback {
  import opened Wrappers
  import opened Errors
  import opened Glyph

  /** An input glyph: the characters it stands for and, when the font maps
      them, its index. */
  datatype InputGlyph = InputGlyph(unicodes: seq<char>, glyphIndex: Option<u16>)

  /** A glyph info from the library's shaping: the glyph and its placement. */
  datatype ShapedInfo = ShapedInfo(glyph: InputGlyph, placement: Placement)

  datatype Resolution = Resolved(info: ShapedInfo) | Unresolved(input: InputGlyph)

  /** One output item: the glyph, the font it came from and its advances. */
  datatype Shaped = Shaped(resolution: Resolution, fontIndex: nat, xAdvance: int, yAdvance: int)

  datatype FallbackError =
    | MoreInfosThanGlyphs(atLoopBottom: bool)
    | NoGlyphIndex
    | LibraryFailure(error: ParseError)
    /** A panic: `loaded_fonts[font_index]` past the last font. */
    | FontIndexOutOfBounds(index: nat, count: nat)

  /** The characters an item stands for. */
  function Unicodes(s: Shaped): seq<char> {
    match s.resolution
    case Resolved(info) => info.glyph.unicodes
    case Unresolved(g) => g.unicodes
  }

  // ---------------------------------------------------------------------
  // glyph_positions

  /** The item of one info: its horizontal advance, adjusted by a `Distance`
      placement; the vertical advance is the placement's `dy`, else 0. */
  function Place(fontIndex: nat, info: ShapedInfo, advance: u16 -> Result<int, ParseError>): (r: Result<Shaped, FallbackError>)
    ensures info.glyph.glyphIndex.None? ==> r == Err(NoGlyphIndex)
    ensures r.Ok? ==> info.glyph.glyphIndex.Some? && advance(info.glyph.glyphIndex.value).Ok?
    ensures r.Ok? ==> r.value.resolution == Resolved(info) && r.value.fontIndex == fontIndex
    ensures r.Ok? && info.placement.Distance? ==>
              r.value.xAdvance == advance(info.glyph.glyphIndex.value).value + info.placement.dx
              && r.value.yAdvance == info.placement.dy
    ensures r.Ok? && !info.placement.Distance? ==>
              r.value.xAdvance == advance(info.glyph.glyphIndex.value).value && r.value.yAdvance == 0
  {
    match info.glyph.glyphIndex
    case None => Err(NoGlyphIndex)
    case Some(gid) =>
      match advance(gid)
      case Err(e) => Err(LibraryFailure(e))
      case Ok(h) =>
        match info.placement
        case Distance(dx, dy) => Ok(Shaped(Resolved(info), fontIndex, h + dx, dy))
        case _ => Ok(Shaped(Resolved(info), fontIndex, h, 0))
  }

  /** `glyph_positions`: each info is matched with the next input glyph
      standing for the same characters; the input glyphs passed over on the
      way come out first as unresolved items with no advance. Running out of
      input glyphs is an error (`atLoopBottom` tells the two places apart);
      input glyphs after the last info are never looked at. */
  function GlyphPositions(fontIndex: nat, infos: seq<ShapedInfo>, glyphs: seq<InputGlyph>,
                          advance: u16 -> Result<int, ParseError>, skipping: bool): (r: Result<seq<Shaped>, FallbackError>)
    decreases |infos|, |glyphs|
  {
    if |infos| == 0 then Ok([])
    else if |glyphs| == 0 then Err(MoreInfosThanGlyphs(skipping))
    else if glyphs[0].unicodes != infos[0].glyph.unicodes then
      var rest :- GlyphPositions(fontIndex, infos, glyphs[1..], advance, true);
      Ok([Shaped(Unresolved(glyphs[0]), fontIndex, 0, 0)] + rest)
    else
      var item :- Place(fontIndex, infos[0], advance);
      var rest :- GlyphPositions(fontIndex, infos[1..], glyphs[1..], advance, false);
      Ok([item] + rest)
  }

  /** The resolved infos of a list of items, in order. */
  function ResolvedInfos(items: seq<Shaped>): (r: seq<ShapedInfo>)
    ensures |r| <= |items|
  {
    if |items| == 0 then []
    else if items[0].resolution.Resolved? then [items[0].resolution.info] + ResolvedInfos(items[1..])
    else ResolvedInfos(items[1..])
  }

  /** The alignment loses and invents nothing: the output stands one for one
      for a prefix of the input glyphs, each item for the characters of the
      glyph at its position and with the font's index; an unresolved item is
      that glyph itself, with no advance. */
  lemma {:induction false} PositionsFollowGlyphs(fontIndex: nat, infos: seq<ShapedInfo>, glyphs: seq<InputGlyph>,
                                                 advance: u16 -> Result<int, ParseError>, skipping: bool)
    requires GlyphPositions(fontIndex, infos, glyphs, advance, skipping).Ok?
    ensures var out := GlyphPositions(fontIndex, infos, glyphs, advance, skipping).value;
            |out| <= |glyphs|
            && (forall k | 0 <= k < |out| :: Unicodes(out[k]) == glyphs[k].unicodes && out[k].fontIndex == fontIndex)
            && (forall k | 0 <= k < |out| :: out[k].resolution.Unresolved? ==>
                  out[k].resolution.input == glyphs[k] && out[k].xAdvance == 0 && out[k].yAdvance == 0)
    decreases |infos|, |glyphs|
  {
    if |infos| > 0 {
      var out := GlyphPositions(fontIndex, infos, glyphs, advance, skipping).value;
      var skipped := glyphs[0].unicodes != infos[0].glyph.unicodes;
      var infos' := if skipped then infos else infos[1..];
      var skipping' := skipped;
      PositionsFollowGlyphs(fontIndex, infos', glyphs[1..], advance, skipping');
      var rest := GlyphPositions(fontIndex, infos', glyphs[1..], advance, skipping').value;
      assert out[1..] == rest;
      assert forall k | 1 <= k < |out| :: out[k] == rest[k - 1] && glyphs[k] == glyphs[1..][k - 1];
    }
  }

  /** The resolved items of the output are exactly the infos, in order. */
  lemma {:induction false} PositionsKeepInfos(fontIndex: nat, infos: seq<ShapedInfo>, glyphs: seq<InputGlyph>,
                                              advance: u16 -> Result<int, ParseError>, skipping: bool)
    requires GlyphPositions(fontIndex, infos, glyphs, advance, skipping).Ok?
    ensures ResolvedInfos(GlyphPositions(fontIndex, infos, glyphs, advance, skipping).value) == infos
    decreases |infos|, |glyphs|
  {
    if |infos| > 0 {
      var out := GlyphPositions(fontIndex, infos, glyphs, advance, skipping).value;
      if glyphs[0].unicodes != infos[0].glyph.unicodes {
        PositionsKeepInfos(fontIndex, infos, glyphs[1..], advance, true);
        assert out[1..] == GlyphPositions(fontIndex, infos, glyphs[1..], advance, true).value;
      } else {
        PositionsKeepInfos(fontIndex, infos[1..], glyphs[1..], advance, false);
        assert out[1..] == GlyphPositions(fontIndex, infos[1..], glyphs[1..], advance, false).value;
      }
    }
  }

  /** Every info needs an input glyph with the same characters: with none
      left, the alignment fails. */
  lemma NoGlyphsLeft(fontIndex: nat, infos: seq<ShapedInfo>, advance: u16 -> Result<int, ParseError>)
    requires |infos| > 0
    ensures GlyphPositions(fontIndex, infos, [], advance, false) == Err(MoreInfosThanGlyphs(false))
  {
  }

  // ---------------------------------------------------------------------
  // shape_into

  /** A step of `shape_into` over the first pass: keep a resolved item, or
      shape a run of characters with the next font. */
  datatype Piece = Keep(item: Shaped) | Reshape(run: string)

  /** The loop over the first pass. Until the first unresolved item, resolved
      items are kept; from then on (`fallback`), the characters of unresolved
      items gather in `run`, and every resolved item first has the run
      reshaped, even an empty one, and the run cleared. A run left at the end
      is reshaped when it is not empty. */
  function PlanFrom(items: seq<Shaped>, fallback: bool, run: string): (r: seq<Piece>)
    ensures forall k | 0 <= k < |r| :: r[k].Keep? ==> r[k].item.resolution.Resolved?
    decreases |items|
  {
    if |items| == 0 then (if run != "" then [Reshape(run)] else [])
    else
      match items[0].resolution
      case Resolved(_) =>
        if fallback then [Reshape(run), Keep(items[0])] + PlanFrom(items[1..], true, "")
        else [Keep(items[0])] + PlanFrom(items[1..], false, run)
      case Unresolved(g) => PlanFrom(items[1..], true, run + g.unicodes)
  }

  function Plan(items: seq<Shaped>): seq<Piece> {
    PlanFrom(items, false, "")
  }

  /** The items kept, in order. */
  function Kept(pieces: seq<Piece>): seq<Shaped> {
    if |pieces| == 0 then []
    else if pieces[0].Keep? then [pieces[0].item] + Kept(pieces[1..])
    else Kept(pieces[1..])
  }

  /** The runs reshaped, joined. */
  function Runs(pieces: seq<Piece>): string {
    if |pieces| == 0 then ""
    else if pieces[0].Reshape? then pieces[0].run + Runs(pieces[1..])
    else Runs(pieces[1..])
  }

  /** The resolved items of a first pass, in order. */
  function ResolvedItems(items: seq<Shaped>): seq<Shaped> {
    if |items| == 0 then []
    else if items[0].resolution.Resolved? then [items[0]] + ResolvedItems(items[1..])
    else ResolvedItems(items[1..])
  }

  /** The characters of the unresolved items of a first pass, joined. */
  function UnresolvedChars(items: seq<Shaped>): string {
    if |items| == 0 then ""
    else if items[0].resolution.Unresolved? then items[0].resolution.input.unicodes + UnresolvedChars(items[1..])
    else UnresolvedChars(items[1..])
  }

  /** The loop keeps exactly the resolved items, in order, and hands every
      character of the unresolved items, in order, to the next font. */
  lemma {:induction false} PlanSplits(items: seq<Shaped>, fallback: bool, run: string)
    ensures Kept(PlanFrom(items, fallback, run)) == ResolvedItems(items)
    ensures Runs(PlanFrom(items, fallback, run)) == run + UnresolvedChars(items)
    decreases |items|
  {
    if |items| == 0 {
      if run != "" {
        assert Runs([Reshape(run)]) == run + Runs([]);
      }
    } else {
      var rest := items[1..];
      match items[0].resolution
      case Resolved(_) =>
        if fallback {
          PlanSplits(rest, true, "");
          var tail := PlanFrom(rest, true, "");
          var ps := [Reshape(run), Keep(items[0])] + tail;
          assert ps[1..] == [Keep(items[0])] + tail;
          assert ([Keep(items[0])] + tail)[1..] == tail;
        } else {
          PlanSplits(rest, false, run);
          var tail := PlanFrom(rest, false, run);
          assert ([Keep(items[0])] + tail)[1..] == tail;
        }
      case Unresolved(g) =>
        PlanSplits(rest, true, run + g.unicodes);
    }
  }

  /** A first pass with nothing unresolved is kept as it is. */
  lemma {:induction false} NothingUnresolved(items: seq<Shaped>)
    requires forall k | 0 <= k < |items| :: items[k].resolution.Resolved?
    ensures PlanFrom(items, false, "") == seq(|items|, k requires 0 <= k < |items| => Keep(items[k]))
    decreases |items|
  {
    if |items| > 0 {
      NothingUnresolved(items[1..]);
    }
  }

  /** The kept pieces of a run of resolved items. */
  function Keeps(items: seq<Shaped>): (r: seq<Piece>)
    ensures |r| == |items| && forall k | 0 <= k < |items| :: r[k] == Keep(items[k])
  {
    seq(|items|, k requires 0 <= k < |items| => Keep(items[k]))
  }

  /** Every kept item directly follows a reshape. */
  predicate KeepsFollowReshape(ps: seq<Piece>) {
    forall k | 0 <= k < |ps| && ps[k].Keep? :: k > 0 && ps[k - 1].Reshape?
  }

  /** Once in fallback mode, every kept item directly follows a reshape. */
  lemma {:induction false} FallbackKeepFollowsReshape(items: seq<Shaped>, run: string)
    ensures KeepsFollowReshape(PlanFrom(items, true, run))
    decreases |items|
  {
    var ps := PlanFrom(items, true, run);
    if |items| == 0 {
      assert ps == if run != "" then [Reshape(run)] else [];
    } else {
      match items[0].resolution
      case Resolved(_) =>
        var rest := PlanFrom(items[1..], true, "");
        FallbackKeepFollowsReshape(items[1..], "");
        assert ps == [Reshape(run), Keep(items[0])] + rest;
        forall k | 0 <= k < |ps| && ps[k].Keep?
          ensures k > 0 && ps[k - 1].Reshape?
        {
          if k >= 2 {
            assert ps[k] == rest[k - 2];
            assert 0 <= k - 2 < |rest| && rest[k - 2].Keep?;
            assert k - 2 > 0 && rest[k - 3].Reshape?;
            assert ps[k - 1] == rest[k - 3];
          }
        }
      case Unresolved(g) =>
        FallbackKeepFollowsReshape(items[1..], run + g.unicodes);
        assert ps == PlanFrom(items[1..], true, run + g.unicodes);
    }
  }

  /** Before the first unresolved item the loop keeps every item; from it on,
      the loop is in fallback mode with that item's characters as the run. */
  lemma {:induction false} PlanBeforeFallback(items: seq<Shaped>, i: nat)
    requires i < |items| && items[i].resolution.Unresolved?
    requires forall j | 0 <= j < i :: items[j].resolution.Resolved?
    ensures Plan(items) == Keeps(items[..i]) + PlanFrom(items[i + 1..], true, items[i].resolution.input.unicodes)
    decreases i
  {
    if i == 0 {
      assert "" + items[0].resolution.input.unicodes == items[0].resolution.input.unicodes;
    } else {
      var tail := items[1..];
      PlanBeforeFallback(tail, i - 1);
      assert tail[i - 1 + 1..] == items[i + 1..];
      assert Keeps(items[..i]) == [Keep(items[0])] + Keeps(tail[..i - 1]);
    }
  }

  /** Once an item is unresolved, every later resolved item is kept only
      right after a reshape: the run gathered since the previous resolved
      item is reshaped first, even when it is empty. The items before the
      first unresolved one are kept as they are. */
  lemma EmptyRunReshaped(items: seq<Shaped>, i: nat)
    requires i < |items| && items[i].resolution.Unresolved?
    requires forall j | 0 <= j < i :: items[j].resolution.Resolved?
    ensures |Plan(items)| >= i && forall j | 0 <= j < i :: Plan(items)[j] == Keep(items[j])
    ensures var ps := Plan(items);
            forall k | i <= k < |ps| && ps[k].Keep? :: k > i && ps[k - 1].Reshape?
  {
    PlanBeforeFallback(items, i);
    var tail := PlanFrom(items[i + 1..], true, items[i].resolution.input.unicodes);
    FallbackKeepFollowsReshape(items[i + 1..], items[i].resolution.input.unicodes);
    var ps := Plan(items);
    assert forall k | i <= k < |ps| :: ps[k] == tail[k - i];
  }

  /** An example: after an unresolved item, two resolved neighbours are
      separated by the reshape of an empty run. */
  lemma EmptyRunExample(g: InputGlyph, a: Shaped, b: Shaped)
    requires a.resolution.Resolved? && b.resolution.Resolved?
    ensures var u := Shaped(Unresolved(g), 0, 0, 0);
            Plan([u, a, b]) == [Reshape(g.unicodes), Keep(a), Reshape(""), Keep(b)]
  {
    var u := Shaped(Unresolved(g), 0, 0, 0);
    assert [u, a, b][1..] == [a, b];
    assert [a, b][1..] == [b];
    assert [b][1..] == [];
    assert PlanFrom([b], true, "") == [Reshape(""), Keep(b)];
    assert PlanFrom([a, b], true, g.unicodes) == [Reshape(g.unicodes), Keep(a)] + PlanFrom([b], true, "");
    assert PlanFrom([u, a, b], false, "") == PlanFrom([a, b], true, "" + g.unicodes);
    assert "" + g.unicodes == g.unicodes;
  }

  /** `shape_into`, returning the items it appends: shape the text with font
      `fontIndex` (`shapeText`, which stands for `LoadedFont::shape_text`:
      GSUB and GPOS, then `GlyphPositions` above), then keep and reshape as
      `Plan` says. The
      index is checked against the number of fonts only by the indexing,
      which panics. */
  function ShapeInto(fontIndex: nat, text: string, fontCount: nat,
                     shapeText: (nat, string) -> Result<seq<Shaped>, ParseError>): (r: Result<seq<Shaped>, FallbackError>)
    ensures fontIndex >= fontCount ==> r == Err(FontIndexOutOfBounds(fontIndex, fontCount))
    ensures r.Ok? ==> forall k | 0 <= k < |r.value| :: r.value[k].resolution.Resolved?
    decreases fontCount - fontIndex, 1, 0
  {
    if fontIndex >= fontCount then Err(FontIndexOutOfBounds(fontIndex, fontCount))
    else
      match shapeText(fontIndex, text)
      case Err(e) => Err(LibraryFailure(e))
      case Ok(first) => Expand(fontIndex, Plan(first), fontCount, shapeText)
  }

  /** The pieces in order: a kept item is appended, a run is shaped with the
      next font. */
  function Expand(fontIndex: nat, pieces: seq<Piece>, fontCount: nat,
                  shapeText: (nat, string) -> Result<seq<Shaped>, ParseError>): (r: Result<seq<Shaped>, FallbackError>)
    requires fontIndex < fontCount
    requires forall k | 0 <= k < |pieces| :: pieces[k].Keep? ==> pieces[k].item.resolution.Resolved?
    ensures r.Ok? ==> forall k | 0 <= k < |r.value| :: r.value[k].resolution.Resolved?
    decreases fontCount - fontIndex, 0, |pieces|
  {
    if |pieces| == 0 then Ok([])
    else
      var head :- match pieces[0]
                  case Keep(item) => Ok([item])
                  case Reshape(run) => ShapeInto(fontIndex + 1, run, fontCount, shapeText);
      var rest :- Expand(fontIndex, pieces[1..], fontCount, shapeText);
      Ok(head + rest)
  }

  /** A kept item is appended as it is. */
  lemma ExpandKeep(fontIndex: nat, item: Shaped, fontCount: nat,
                   shapeText: (nat, string) -> Result<seq<Shaped>, ParseError>)
    requires fontIndex < fontCount && item.resolution.Resolved?
    ensures Expand(fontIndex, [Keep(item)], fontCount, shapeText) == Ok([item])
  {
    ExpandCons(fontIndex, [Keep(item)], fontCount, shapeText);
    assert [Keep(item)][1..] == [];
    assert [item] + [] == [item];
  }

  /** A run is shaped with the next font, with nothing added or dropped. */
  lemma ExpandReshape(fontIndex: nat, run: string, fontCount: nat,
                      shapeText: (nat, string) -> Result<seq<Shaped>, ParseError>)
    requires fontIndex < fontCount
    ensures Expand(fontIndex, [Reshape(run)], fontCount, shapeText) == ShapeInto(fontIndex + 1, run, fontCount, shapeText)
  {
    ExpandCons(fontIndex, [Reshape(run)], fontCount, shapeText);
    assert [Reshape(run)][1..] == [];
    var r := ShapeInto(fontIndex + 1, run, fontCount, shapeText);
    if r.Ok? {
      assert r.value + [] == r.value;
    }
  }

  /** The pieces are worked off in order: the items of `p + q` are those of
      `p` followed by those of `q`, and the first failure decides. */
  lemma {:induction false} ExpandAppend(fontIndex: nat, p: seq<Piece>, q: seq<Piece>, fontCount: nat,
                                        shapeText: (nat, string) -> Result<seq<Shaped>, ParseError>)
    requires fontIndex < fontCount
    requires forall k | 0 <= k < |p| :: p[k].Keep? ==> p[k].item.resolution.Resolved?
    requires forall k | 0 <= k < |q| :: q[k].Keep? ==> q[k].item.resolution.Resolved?
    ensures forall k | 0 <= k < |p + q| :: (p + q)[k].Keep? ==> (p + q)[k].item.resolution.Resolved?
    ensures Expand(fontIndex, p + q, fontCount, shapeText)
            == Combine(Expand(fontIndex, p, fontCount, shapeText), Expand(fontIndex, q, fontCount, shapeText))
    decreases |p|
  {
    assert forall k | 0 <= k < |p + q| :: (p + q)[k] == if k < |p| then p[k] else q[k - |p|];
    if |p| == 0 {
      assert p + q == q;
      var e := Expand(fontIndex, q, fontCount, shapeText);
      if e.Ok? {
        assert [] + e.value == e.value;
      }
    } else {
      var pq := p + q;
      assert pq[0] == p[0];
      assert pq[1..] == p[1..] + q;
      ExpandAppend(fontIndex, p[1..], q, fontCount, shapeText);
      ExpandCons(fontIndex, p, fontCount, shapeText);
      ExpandCons(fontIndex, pq, fontCount, shapeText);
      CombineAssoc(PieceItems(fontIndex, p[0], fontCount, shapeText),
                   Expand(fontIndex, p[1..], fontCount, shapeText), Expand(fontIndex, q, fontCount, shapeText));
    }
  }

  /** What one piece contributes. */
  function PieceItems(fontIndex: nat, piece: Piece, fontCount: nat,
                      shapeText: (nat, string) -> Result<seq<Shaped>, ParseError>): Result<seq<Shaped>, FallbackError>
    requires fontIndex < fontCount
  {
    match piece
    case Keep(item) => Ok([item])
    case Reshape(run) => ShapeInto(fontIndex + 1, run, fontCount, shapeText)
  }

  /** Two results in sequence: the first one's failure, else the second
      one's, else the first one's items followed by the second one's. */
  function Combine(a: Result<seq<Shaped>, FallbackError>, b: Result<seq<Shaped>, FallbackError>): Result<seq<Shaped>, FallbackError> {
    if a.Err? then a else if b.Err? then b else Ok(a.value + b.value)
  }

  lemma CombineAssoc(a: Result<seq<Shaped>, FallbackError>, b: Result<seq<Shaped>, FallbackError>,
                     c: Result<seq<Shaped>, FallbackError>)
    ensures Combine(a, Combine(b, c)) == Combine(Combine(a, b), c)
  {
    if a.Ok? && b.Ok? && c.Ok? {
      assert a.value + (b.value + c.value) == (a.value + b.value) + c.value;
    }
  }

  lemma ExpandCons(fontIndex: nat, pieces: seq<Piece>, fontCount: nat,
                   shapeText: (nat, string) -> Result<seq<Shaped>, ParseError>)
    requires fontIndex < fontCount && |pieces| > 0
    requires forall k | 0 <= k < |pieces| :: pieces[k].Keep? ==> pieces[k].item.resolution.Resolved?
    ensures Expand(fontIndex, pieces, fontCount, shapeText)
            == Combine(PieceItems(fontIndex, pieces[0], fontCount, shapeText), Expand(fontIndex, pieces[1..], fontCount, shapeText))
  {
  }

  /** At the last font there is nothing to fall back on: any reshape, even
      of an empty run, panics, and a pass without one succeeds. */
  lemma {:induction false} LastFontCannotFallBack(fontIndex: nat, pieces: seq<Piece>, fontCount: nat,
                                                 shapeText: (nat, string) -> Result<seq<Shaped>, ParseError>)
    requires fontIndex + 1 == fontCount
    requires forall k | 0 <= k < |pieces| :: pieces[k].Keep? ==> pieces[k].item.resolution.Resolved?
    ensures Expand(fontIndex, pieces, fontCount, shapeText).Err? <==> exists k | 0 <= k < |pieces| :: pieces[k].Reshape?
    ensures Expand(fontIndex, pieces, fontCount, shapeText).Err? ==>
              Expand(fontIndex, pieces, fontCount, shapeText).error == FontIndexOutOfBounds(fontCount, fontCount)
    ensures Expand(fontIndex, pieces, fontCount, shapeText).Ok? ==>
              Expand(fontIndex, pieces, fontCount, shapeText).value == Kept(pieces)
    decreases |pieces|
  {
    if |pieces| > 0 {
      LastFontCannotFallBack(fontIndex, pieces[1..], fontCount, shapeText);
      if pieces[0].Keep? {
        assert forall k | 1 <= k < |pieces| :: pieces[k] == pieces[1..][k - 1];
      }
    }
  }

  /** The whole example: shape with the first font. */
  function Shape(text: string, fontCount: nat,
                 shapeText: (nat, string) -> Result<seq<Shaped>, ParseError>): (r: Result<seq<Shaped>, FallbackError>)
    ensures fontCount == 0 ==> r == Err(FontIndexOutOfBounds(0, 0))
    ensures r.Ok? ==> forall k | 0 <= k < |r.value| :: r.value[k].resolution.Resolved?
  {
    ShapeInto(0, text, fontCount, shapeText)
  }
}

=== FILE: glyph.dfy ===
/** The positioning pass shared by the shaping and drawing tools: one walk
    over the shaped glyph infos that accumulates a pen position, applies
    `Distance` placements and resolves mark attachments by index. The font
    metrics and the upright-character classification are parameters. */
module Glyph {
  import opened Wrappers

  datatype Anchor = Anchor(x: int, y: int)

  /** GPOS placement of a glyph that is not a mark. */
  datatype Placement =
    | NoPlacement
    | Distance(dx: int, dy: int)
    | AnchorPlacement(entry: Anchor, exit: Anchor)

  /** GPOS placement of a mark, referring back to its base by index. */
  datatype MarkPlacement =
    | NotMark
    | MarkAnchor(baseIndex: nat, baseAnchor: Anchor, markAnchor: Anchor)
    | MarkOverprint(baseIndex: nat)

  datatype GlyphOrigin = Char(c: char) | Direct

  datatype RawGlyph = RawGlyph(
    unicodes: seq<char>,
    glyphIndex: u16,
    ligaComponentPos: nat,
    origin: GlyphOrigin,
    smallCaps: bool,
    multiSubstDup: bool,
    isVertAlt: bool,
    fakeBold: bool,
    fakeItalic: bool,
    variation: Option<nat>)

  datatype Info = Info(glyph: RawGlyph, placement: Placement, markPlacement: MarkPlacement, kerning: int)

  /** What the pass asks of the font: the `hmtx`/`vmtx` advances, the `hhea`
      ascender and descender, and the upright classification of characters. */
  datatype Metrics = Metrics(
    hAdvance: u16 -> Option<int>,
    vAdvance: u16 -> Option<int>,
    ascender: int,
    descender: int,
    isUprightChar: char -> bool)

  /** One result tuple: `(advance, x, y)`. */
  datatype Position = Position(advance: int, x: int, y: int)

  /** A returned error, or a panic of the indexing `positions[base_index]`. */
  datatype Failure = NoHorizontalAdvance(glyph: u16) | IndexOutOfBounds(index: nat, len: nat)

  // ---------------------------------------------------------------------
  // Building glyphs from characters

  /** `make`: the glyph for one character, with nothing substituted yet. */
  function Make(ch: char, glyphIndex: u16, variation: Option<nat>): (g: RawGlyph)
    ensures g.unicodes == [ch] && g.origin == Char(ch) && g.glyphIndex == glyphIndex
    ensures g.ligaComponentPos == 0 && g.variation == variation
    ensures !g.smallCaps && !g.multiSubstDup && !g.isVertAlt && !g.fakeBold && !g.fakeItalic
  {
    RawGlyph([ch], glyphIndex, 0, Char(ch), false, false, false, false, false, variation)
  }

  /** `map`: a glyph exactly when the cmap maps the character; a cmap error is passed on. */
  function Map<E>(cmap: char -> Result<Option<u16>, E>, ch: char, variation: Option<nat>): (r: Result<Option<RawGlyph>, E>)
    ensures r.Err? <==> cmap(ch).Err?
    ensures r.Err? ==> r.error == cmap(ch).error
    ensures r.Ok? ==> (r.value.Some? <==> cmap(ch).value.Some?)
    ensures r.Ok? && r.value.Some? ==> r.value.value == Make(ch, cmap(ch).value.value, variation)
  {
    var found :- cmap(ch);
    match found
    case None => Ok(None)
    case Some(gid) => Ok(Some(Make(ch, gid, variation)))
  }

  // ---------------------------------------------------------------------
  // Advances

  /** `is_upright_glyph`: a vertical alternate, or a glyph whose first
      character is upright; a glyph with no characters is not. */
  predicate IsUprightGlyph(m: Metrics, info: Info) {
    info.glyph.isVertAlt || (|info.glyph.unicodes| > 0 && m.isUprightChar(info.glyph.unicodes[0]))
  }

  /** A freshly made glyph is upright exactly when its character is. */
  lemma MadeUpright(m: Metrics, ch: char, gid: u16, variation: Option<nat>, placement: Placement, mark: MarkPlacement, kerning: int)
    ensures IsUprightGlyph(m, Info(Make(ch, gid, variation), placement, mark, kerning)) == m.isUprightChar(ch)
  {
  }

  /** `glyph_advance`: the vertical advance (or ascender minus descender) for
      an upright glyph in vertical text, the horizontal advance otherwise;
      kerning is added to either. Only a missing horizontal advance fails. */
  function GlyphAdvance(m: Metrics, info: Info, vertical: bool): (r: Result<int, Failure>)
    ensures r.Err? <==> !(vertical && IsUprightGlyph(m, info)) && m.hAdvance(info.glyph.glyphIndex).None?
    ensures r.Err? ==> r.error == NoHorizontalAdvance(info.glyph.glyphIndex)
    ensures r.Ok? && vertical && IsUprightGlyph(m, info) ==>
      r.value - info.kerning == m.vAdvance(info.glyph.glyphIndex).GetOr(m.ascender - m.descender)
    ensures r.Ok? && !(vertical && IsUprightGlyph(m, info)) ==>
      r.value - info.kerning == m.hAdvance(info.glyph.glyphIndex).value
  {
    var gid := info.glyph.glyphIndex;
    if vertical && IsUprightGlyph(m, info) then
      Ok(m.vAdvance(gid).GetOr(m.ascender - m.descender) + info.kerning)
    else if m.hAdvance(gid).Some? then
      Ok(m.hAdvance(gid).value + info.kerning)
    else
      Err(NoHorizontalAdvance(gid))
  }

  // ---------------------------------------------------------------------
  // The pass

  /** State after a prefix of the infos: the tuples so far and the pen. */
  datatype Pass = Pass(positions: seq<Position>, x: int, y: int)

  /** The `(dx, dy)` a base glyph's own placement adds to its marks. */
  function BaseOffset(p: Placement): (int, int) {
    match p
    case Distance(dx, dy) => (dx, dy)
    case _ => (0, 0)
  }

  /** The tuple for one info, given the tuples of the infos before it and the pen. */
  function Place(infos: seq<Info>, positions: seq<Position>, x: int, y: int, advance: int, info: Info): Result<Position, Failure> {
    match info.markPlacement
    case NotMark =>
      (match info.placement
       case Distance(dx, dy) => Ok(Position(advance, x + dx, y + dy))
       case _ => Ok(Position(advance, x, y)))
    case MarkAnchor(b, baseAnchor, markAnchor) =>
      if b < |positions| && b < |infos| then
        var (dx, dy) := BaseOffset(infos[b].placement);
        Ok(Position(advance,
                    positions[b].x + baseAnchor.x - markAnchor.x + dx,
                    positions[b].y + baseAnchor.y - markAnchor.y + dy))
      else
        Ok(Position(advance, x, y))
    case MarkOverprint(b) =>
      if b < |positions| then Ok(positions[b]) else Err(IndexOutOfBounds(b, |positions|))
  }

  /** Info `i` can be processed: its advance exists and, if it overprints,
      its base comes before it. */
  predicate Fits(m: Metrics, infos: seq<Info>, vertical: bool, i: nat)
    requires i < |infos|
  {
    GlyphAdvance(m, infos[i], vertical).Ok?
    && (infos[i].markPlacement.MarkOverprint? ==> infos[i].markPlacement.baseIndex < i)
  }

  /** The advance of info `i`, zero where it has none. */
  function AdvanceOf(m: Metrics, infos: seq<Info>, vertical: bool, i: nat): int
    requires i < |infos|
  {
    GlyphAdvance(m, infos[i], vertical).GetOr(0)
  }

  /** The sum of the advances of the first `n` infos. */
  function AdvanceSum(m: Metrics, infos: seq<Info>, vertical: bool, n: nat): int
    requires n <= |infos|
  {
    if n == 0 then 0 else AdvanceSum(m, infos, vertical, n - 1) + AdvanceOf(m, infos, vertical, n - 1)
  }

  /** The pen before info `i`: the advances so far, along y in vertical text, along x otherwise. */
  function PenX(m: Metrics, infos: seq<Info>, vertical: bool, i: nat): int
    requires i <= |infos|
  {
    if vertical then 0 else AdvanceSum(m, infos, vertical, i)
  }

  function PenY(m: Metrics, infos: seq<Info>, vertical: bool, i: nat): int
    requires i <= |infos|
  {
    if vertical then AdvanceSum(m, infos, vertical, i) else 0
  }

  /** Where info `i` must end up, stated with the pen as a sum of advances. */
  predicate PlacedAt(m: Metrics, infos: seq<Info>, vertical: bool, positions: seq<Position>, i: nat)
    requires i < |positions| <= |infos|
  {
    var p := positions[i];
    var info := infos[i];
    var x := PenX(m, infos, vertical, i);
    var y := PenY(m, infos, vertical, i);
    match info.markPlacement
    case NotMark =>
      p.advance == AdvanceOf(m, infos, vertical, i)
      && (if info.placement.Distance? then p.x == x + info.placement.dx && p.y == y + info.placement.dy
          else p.x == x && p.y == y)
    case MarkAnchor(b, baseAnchor, markAnchor) =>
      p.advance == AdvanceOf(m, infos, vertical, i)
      && (if b < i then
            p.x == positions[b].x + baseAnchor.x - markAnchor.x + BaseOffset(infos[b].placement).0
            && p.y == positions[b].y + baseAnchor.y - markAnchor.y + BaseOffset(infos[b].placement).1
          else p.x == x && p.y == y)
    case MarkOverprint(b) =>
      b < i && p == positions[b]
  }

  /** The first `n` steps of `calculate_glyph_positions`. */
  function Run(m: Metrics, infos: seq<Info>, vertical: bool, n: nat): (r: Result<Pass, Failure>)
    requires n <= |infos|
    ensures r.Ok? <==> forall i | 0 <= i < n :: Fits(m, infos, vertical, i)
    ensures r.Ok? ==> |r.value.positions| == n
    decreases n
  {
    if n == 0 then Ok(Pass([], 0, 0))
    else
      var prev := Run(m, infos, vertical, n - 1);
      if prev.Err? then Err(prev.error)
      else
        var p := prev.value;
        var info := infos[n - 1];
        var adv := GlyphAdvance(m, info, vertical);
        if adv.Err? then
          assert !Fits(m, infos, vertical, n - 1);
          Err(adv.error)
        else
        var advance := adv.value;
        var placed := Place(infos, p.positions, p.x, p.y, advance, info);
        if placed.Err? then
          assert !Fits(m, infos, vertical, n - 1);
          Err(placed.error)
        else
        Ok(Pass(p.positions + [placed.value],
                if vertical then p.x else p.x + advance,
                if vertical then p.y + advance else p.y))
  }

  /** After `n` steps the pen is the sum of the advances so far and every
      tuple is where `PlacedAt` puts it. */
  ghost predicate Placed(m: Metrics, infos: seq<Info>, vertical: bool, n: nat)
    requires n <= |infos| && Run(m, infos, vertical, n).Ok?
  {
    var p := Run(m, infos, vertical, n).value;
    p.x == PenX(m, infos, vertical, n) && p.y == PenY(m, infos, vertical, n)
    && forall i | 0 <= i < n :: PlacedAt(m, infos, vertical, p.positions, i)
  }

  lemma RunOkBefore(m: Metrics, infos: seq<Info>, vertical: bool, n: nat)
    requires 0 < n <= |infos| && Run(m, infos, vertical, n).Ok?
    ensures Run(m, infos, vertical, n - 1).Ok?
  {
  }

  lemma {:induction false} RunPlaced(m: Metrics, infos: seq<Info>, vertical: bool, n: nat)
    requires n <= |infos| && Run(m, infos, vertical, n).Ok?
    ensures Placed(m, infos, vertical, n)
    decreases n
  {
    if n > 0 {
      RunOkBefore(m, infos, vertical, n);
      RunPlaced(m, infos, vertical, n - 1);
      RunPlacedStep(m, infos, vertical, n);
    }
  }

  lemma RunPlacedStep(m: Metrics, infos: seq<Info>, vertical: bool, n: nat)
    requires 0 < n <= |infos| && Run(m, infos, vertical, n).Ok?
    requires Run(m, infos, vertical, n - 1).Ok? && Placed(m, infos, vertical, n - 1)
    ensures Placed(m, infos, vertical, n)
  {
    var p := Run(m, infos, vertical, n - 1).value;
    var positions := Run(m, infos, vertical, n).value.positions;
    assert positions == p.positions + [positions[n - 1]];
    forall i | 0 <= i < n - 1
      ensures PlacedAt(m, infos, vertical, positions, i)
    {
      PlacedAtExtends(m, infos, vertical, p.positions, positions, i);
    }
    LastPlaced(m, infos, vertical, n);
  }

  /** Appending tuples leaves the earlier tuples placed. */
  lemma PlacedAtExtends(m: Metrics, infos: seq<Info>, vertical: bool, shorter: seq<Position>, longer: seq<Position>, i: nat)
    requires i < |shorter| <= |longer| <= |infos| && shorter == longer[..|shorter|]
    requires PlacedAt(m, infos, vertical, shorter, i)
    ensures PlacedAt(m, infos, vertical, longer, i)
  {
    assert longer[i] == shorter[i];
    if infos[i].markPlacement.MarkAnchor? || infos[i].markPlacement.MarkOverprint? {
      var b := infos[i].markPlacement.baseIndex;
      if b < i {
        assert longer[b] == shorter[b];
      }
    }
  }

  /** The tuple a step appends is placed. */
  lemma LastPlaced(m: Metrics, infos: seq<Info>, vertical: bool, n: nat)
    requires 0 < n <= |infos| && Run(m, infos, vertical, n).Ok?
    requires Run(m, infos, vertical, n - 1).Ok? && Placed(m, infos, vertical, n - 1)
    ensures PlacedAt(m, infos, vertical, Run(m, infos, vertical, n).value.positions, n - 1)
  {
  }

  /** `calculate_glyph_positions`: one `(advance, x, y)` per info, in order,
      or the failure of the first info that does not fit. */
  function CalculateGlyphPositions(m: Metrics, infos: seq<Info>, vertical: bool): (r: Result<seq<Position>, Failure>)
    ensures r.Ok? <==> forall i | 0 <= i < |infos| :: Fits(m, infos, vertical, i)
    ensures r.Ok? ==> |r.value| == |infos|
    ensures r.Ok? ==> forall i | 0 <= i < |infos| :: PlacedAt(m, infos, vertical, r.value, i)
  {
    var pass :- Run(m, infos, vertical, |infos|);
    RunPlaced(m, infos, vertical, |infos|);
    Ok(pass.positions)
  }

  /** The failure info `i` causes when it is the first that does not fit. */
  function FailureAt(m: Metrics, infos: seq<Info>, vertical: bool, i: nat): Failure
    requires i < |infos|
  {
    if GlyphAdvance(m, infos[i], vertical).Err? then NoHorizontalAdvance(infos[i].glyph.glyphIndex)
    else
      match infos[i].markPlacement
      case MarkOverprint(b) => IndexOutOfBounds(b, i)
      case _ => NoHorizontalAdvance(infos[i].glyph.glyphIndex)
  }

  lemma {:induction false} RunFirstFailure(m: Metrics, infos: seq<Info>, vertical: bool, i: nat, n: nat)
    requires i < n <= |infos|
    requires !Fits(m, infos, vertical, i) && forall k | 0 <= k < i :: Fits(m, infos, vertical, k)
    ensures Run(m, infos, vertical, n) == Err(FailureAt(m, infos, vertical, i))
    decreases n
  {
    if n - 1 > i {
      RunFirstFailure(m, infos, vertical, i, n - 1);
    } else {
      assert Run(m, infos, vertical, i).Ok?;
    }
  }

  /** The whole call fails with the failure of the first info that does not
      fit: the advance lookup before the overprint indexing of that info. */
  lemma FirstFailureDecides(m: Metrics, infos: seq<Info>, vertical: bool, i: nat)
    requires i < |infos|
    requires !Fits(m, infos, vertical, i) && forall k | 0 <= k < i :: Fits(m, infos, vertical, k)
    ensures CalculateGlyphPositions(m, infos, vertical) == Err(FailureAt(m, infos, vertical, i))
  {
    RunFirstFailure(m, infos, vertical, i, |infos|);
  }

  lemma {:induction false} RunOnPrefix(m: Metrics, infos: seq<Info>, vertical: bool, k: nat, n: nat)
    requires n <= k <= |infos|
    ensures Run(m, infos[..k], vertical, n) == Run(m, infos, vertical, n)
    decreases n
  {
    if n > 0 {
      RunOnPrefix(m, infos, vertical, k, n - 1);
      RunOnPrefixStep(m, infos, vertical, k, n);
    }
  }

  lemma RunOnPrefixStep(m: Metrics, infos: seq<Info>, vertical: bool, k: nat, n: nat)
    requires 0 < n <= k <= |infos|
    requires Run(m, infos[..k], vertical, n - 1) == Run(m, infos, vertical, n - 1)
    ensures Run(m, infos[..k], vertical, n) == Run(m, infos, vertical, n)
  {
    var prev := Run(m, infos, vertical, n - 1);
    var info := infos[n - 1];
    assert infos[..k][n - 1] == info;
    if prev.Ok? {
      var adv := GlyphAdvance(m, info, vertical);
      if adv.Ok? {
        PlaceOnPrefix(infos, k, prev.value.positions, prev.value.x, prev.value.y, adv.value, info);
      }
    }
  }

  lemma PlaceOnPrefix(infos: seq<Info>, k: nat, positions: seq<Position>, x: int, y: int, advance: int, info: Info)
    requires |positions| <= k <= |infos|
    ensures Place(infos[..k], positions, x, y, advance, info) == Place(infos, positions, x, y, advance, info)
  {
    if info.markPlacement.MarkAnchor? && info.markPlacement.baseIndex < |positions| {
      assert infos[..k][info.markPlacement.baseIndex] == infos[info.markPlacement.baseIndex];
    }
  }

  /** The tuples for the first `k` infos do not depend on the infos after
      them: positioning a prefix gives a prefix of the positions. */
  lemma PrefixPositions(m: Metrics, infos: seq<Info>, vertical: bool, k: nat)
    requires k <= |infos|
    requires CalculateGlyphPositions(m, infos, vertical).Ok?
    ensures CalculateGlyphPositions(m, infos[..k], vertical).Ok?
    ensures CalculateGlyphPositions(m, infos[..k], vertical).value == CalculateGlyphPositions(m, infos, vertical).value[..k]
  {
    RunOnPrefix(m, infos, vertical, k, k);
    RunPrefixStable(m, infos, vertical, k, |infos|);
  }

  lemma {:induction false} RunPrefixStable(m: Metrics, infos: seq<Info>, vertical: bool, k: nat, n: nat)
    requires k <= n <= |infos|
    requires Run(m, infos, vertical, n).Ok?
    ensures Run(m, infos, vertical, k).Ok?
    ensures Run(m, infos, vertical, k).value.positions == Run(m, infos, vertical, n).value.positions[..k]
    decreases n
  {
    if k < n {
      RunPrefixStable(m, infos, vertical, k, n - 1);
      var shorter := Run(m, infos, vertical, n - 1).value.positions;
      assert Run(m, infos, vertical, n).value.positions[..n - 1] == shorter;
    } else {
      assert Run(m, infos, vertical, n).value.positions[..n] == Run(m, infos, vertical, n).value.positions;
    }
  }
}

=== FILE: layout.dfy ===
/** What both SVG writers share before drawing: pairing each shaped glyph
    with its layout position, visiting the pairs in drawing order (reversed
    for right-to-left scripts), the pen that accumulates the advances, and
    the first-occurrence order in which distinct glyphs become symbols. */
module Layout {
  import opened Wrappers
  import opened Script

  /** A glyph's advance and offset as the layout engine reports them. */
  datatype GlyphPosition = GlyphPosition(horiAdvance: int, vertAdvance: int, xOffset: int, yOffset: int)

  /** `a.iter().zip(b)`: pairs up to the shorter of the two. */
  function Zip<A, B>(a: seq<A>, b: seq<B>): (r: seq<(A, B)>)
    ensures |r| == if |a| <= |b| then |a| else |b|
    ensures forall k | 0 <= k < |r| :: r[k] == (a[k], b[k])
  {
    if |a| == 0 || |b| == 0 then [] else [(a[0], b[0])] + Zip(a[1..], b[1..])
  }

  function Reverse<T>(s: seq<T>): (r: seq<T>)
    ensures |r| == |s|
    ensures forall k | 0 <= k < |s| :: r[k] == s[|s| - 1 - k]
  {
    if |s| == 0 then [] else Reverse(s[1..]) + [s[0]]
  }

  /** The pairs in the order they are drawn: as laid out left to right,
      last pair first for right-to-left text. */
  function DrawOrder<A, B>(a: seq<A>, b: seq<B>, direction: TextDirection): (r: seq<(A, B)>)
    ensures |r| == |Zip(a, b)|
    ensures direction == LeftToRight ==> r == Zip(a, b)
    ensures direction == RightToLeft ==> forall k | 0 <= k < |r| :: r[k] == Zip(a, b)[|r| - 1 - k]
  {
    match direction
    case LeftToRight => Zip(a, b)
    case RightToLeft => Reverse(Zip(a, b))
  }

  /** The pen before pair `k`: the sum of the earlier advances. */
  function PenX<A>(items: seq<(A, GlyphPosition)>, k: nat): int
    requires k <= |items|
  {
    if k == 0 then 0 else PenX(items, k - 1) + items[k - 1].1.horiAdvance
  }

  function PenY<A>(items: seq<(A, GlyphPosition)>, k: nat): int
    requires k <= |items|
  {
    if k == 0 then 0 else PenY(items, k - 1) + items[k - 1].1.vertAdvance
  }

  /** The distinct values of `s` in the order they first appear. */
  function FirstOccurrences(s: seq<u16>): (r: seq<u16>)
    ensures forall x :: x in r <==> x in s
    ensures |r| <= |s|
  {
    if |s| == 0 then []
    else
      var r := FirstOccurrences(s[..|s| - 1]);
      assert forall x :: x in s <==> x in s[..|s| - 1] || x == s[|s| - 1] by {
        assert s == s[..|s| - 1] + [s[|s| - 1]];
      }
      if s[|s| - 1] in r then r else r + [s[|s| - 1]]
  }

  predicate Distinct(s: seq<u16>) {
    forall i, j | 0 <= i < j < |s| :: s[i] != s[j]
  }

  /** Position of the first `x` in `s`. */
  function FirstIndex(s: seq<u16>, x: u16): (i: nat)
    requires x in s
    ensures i < |s| && s[i] == x && x !in s[..i]
  {
    if s[0] == x then 0
    else
      var i := FirstIndex(s[1..], x) + 1;
      assert s[..i] == [s[0]] + s[1..][..i - 1];
      i
  }

  /** No value twice, and ordered by where each value first appears. */
  lemma {:induction false} FirstOccurrencesOrdered(s: seq<u16>)
    ensures Distinct(FirstOccurrences(s))
    ensures forall i, j | 0 <= i < j < |FirstOccurrences(s)| ::
      FirstIndex(s, FirstOccurrences(s)[i]) < FirstIndex(s, FirstOccurrences(s)[j])
  {
    if |s| > 0 {
      var p := s[..|s| - 1];
      var last := s[|s| - 1];
      FirstOccurrencesOrdered(p);
      var r := FirstOccurrences(p);
      assert forall x | x in p :: FirstIndex(s, x) == FirstIndex(p, x) by {
        forall x | x in p ensures FirstIndex(s, x) == FirstIndex(p, x) {
          FirstIndexPrefix(s, p, x);
        }
      }
      if last !in r {
        assert last !in p;
        assert FirstIndex(s, last) == |s| - 1 by {
          FirstIndexLast(s, last);
        }
        assert forall x | x in r :: FirstIndex(p, x) < |p|;
      }
    }
  }

  lemma FirstIndexPrefix(s: seq<u16>, p: seq<u16>, x: u16)
    requires |p| <= |s| && p == s[..|p|] && x in p
    ensures x in s && FirstIndex(s, x) == FirstIndex(p, x)
    decreases |p|
  {
    assert p[0] == s[0];
    if p[0] != x {
      assert x in p[1..];
      assert p[1..] == s[1..][..|p| - 1];
      FirstIndexPrefix(s[1..], p[1..], x);
    }
  }

  lemma FirstIndexLast(s: seq<u16>, x: u16)
    requires |s| > 0 && s[|s| - 1] == x && x !in s[..|s| - 1]
    ensures FirstIndex(s, x) == |s| - 1
  {
  }
}

=== FILE: legacy_subset.dfy ===
/** The older stand-alone subsetting tool: glyph ids from a text, and the
    256-entry Mac Roman cmap (format 0) it hands to the subsetter. The Mac
    Roman encoding and the cmap lookup are parameters; WOFF and WOFF2 input
    is only dumped, and that is not modelled here. */
module LegacySubset {
  import opened Wrappers
  import opened Errors
  import opened Glyph
  import opened Subset

  /** The older library's glyph: its index is optional and it has no
      variation selector. */
  datatype LegacyGlyph = LegacyGlyph(
    unicodes: seq<char>,
    glyphIndex: Option<u16>,
    ligaComponentPos: nat,
    origin: GlyphOrigin,
    smallCaps: bool,
    multiSubstDup: bool,
    isVertAlt: bool,
    fakeBold: bool,
    fakeItalic: bool)

  /** `make_glyph`: the glyph of one mapped character. */
  function MakeGlyph(ch: char, glyphIndex: u16): (g: LegacyGlyph)
    ensures g.unicodes == [ch] && g.glyphIndex == Some(glyphIndex) && g.origin == Char(ch)
    ensures g.ligaComponentPos == 0
    ensures !g.smallCaps && !g.multiSubstDup && !g.isVertAlt && !g.fakeBold && !g.fakeItalic
  {
    LegacyGlyph([ch], Some(glyphIndex), 0, Char(ch), false, false, false, false, false)
  }

  /** `map_glyph`: a glyph exactly when the cmap sub-table maps the character. */
  function MapGlyph(cmap: char -> Result<Option<u16>, ParseError>, ch: char): (r: Result<Option<LegacyGlyph>, ParseError>)
    ensures r.Err? <==> cmap(ch).Err?
    ensures r.Ok? ==> (r.value.Some? <==> cmap(ch).value.Some?)
    ensures r.Ok? && r.value.Some? ==> r.value.value == MakeGlyph(ch, cmap(ch).value.value)
  {
    var found :- cmap(ch);
    match found
    case None => Ok(None)
    case Some(gid) => Ok(Some(MakeGlyph(ch, gid)))
  }

  /** The ids of the glyphs that are present and have an index (`flat_map`). */
  function IndexedIds(glyphs: seq<Option<LegacyGlyph>>): (ids: seq<u16>)
    ensures forall x :: x in ids <==>
              exists k :: 0 <= k < |glyphs| && glyphs[k].Some? && glyphs[k].value.glyphIndex == Some(x)
  {
    if glyphs == [] then []
    else
      var last := glyphs[|glyphs| - 1];
      var init := glyphs[..|glyphs| - 1];
      assert forall k :: 0 <= k < |init| ==> init[k] == glyphs[k];
      IndexedIds(init) + (if last.Some? && last.value.glyphIndex.Some? then [last.value.glyphIndex.value] else [])
  }

  /** The messages of the tool's own errors. */
  datatype LegacyError =
    | Parse(error: ParseError)
    | Message(text: string)

  const TextRequired := "-t TEXT is required"
  const NoGlyphsLeftMessage := "no glyphs left in font"
  const NotMacRoman := "not mac roman compatible"

  /** `is_macroman`: a glyph made from a character Mac Roman can encode. */
  predicate IsMacRoman(macRoman: char -> Option<u8>, glyph: Option<LegacyGlyph>) {
    match glyph
    case Some(g) => g.origin.Char? && macRoman(g.origin.c).Some?
    case None => false
  }

  /** The Mac Roman code of a glyph that passed `is_macroman`. */
  function Code(macRoman: char -> Option<u8>, glyph: Option<LegacyGlyph>): u8
    requires IsMacRoman(macRoman, glyph)
  {
    macRoman(glyph.value.origin.c).value
  }

  /** The Mac Roman codes of glyphs that all passed `is_macroman`, in order. */
  function Codes(macRoman: char -> Option<u8>, glyphs: seq<Option<LegacyGlyph>>): (codes: seq<u8>)
    requires forall k :: 0 <= k < |glyphs| ==> IsMacRoman(macRoman, glyphs[k])
    ensures |codes| == |glyphs| && forall k :: 0 <= k < |glyphs| ==> codes[k] == Code(macRoman, glyphs[k])
  {
    if glyphs == [] then [] else [Code(macRoman, glyphs[0])] + Codes(macRoman, glyphs[1..])
  }

  /** The format 0 array: zero everywhere, then for each code in turn its
      position, as a `u8`, at that code. */
  function Cmap0(codes: seq<u8>): (table: seq<u8>)
    ensures |table| == 256
  {
    if codes == [] then seq(256, _ => 0)
    else Cmap0(codes[..|codes| - 1])[codes[|codes| - 1] := (|codes| - 1) % 256]
  }

  /** A code no glyph has keeps its zero. */
  lemma {:induction false} Cmap0Unused(codes: seq<u8>, b: u8)
    requires b !in codes
    ensures Cmap0(codes)[b] == 0
  {
    if codes != [] {
      assert b !in codes[..|codes| - 1];
      Cmap0Unused(codes[..|codes| - 1], b);
    }
  }

  /** A code holds the position of the LAST glyph with that code, wrapped to
      a byte: later positions overwrite earlier ones. */
  lemma {:induction false} Cmap0Last(codes: seq<u8>, k: nat)
    requires k < |codes| && codes[k] !in codes[k + 1..]
    ensures Cmap0(codes)[codes[k]] == k % 256
  {
    var n := |codes| - 1;
    if k < n {
      var init := codes[..n];
      assert codes[n] in codes[k + 1..];
      assert init[k + 1..] <= codes[k + 1..];
      Cmap0Last(init, k);
    }
  }

  /** `subset_ttf` up to the call into the subsetter: the sorted ids and the
      format 0 cmap, or the first of its two errors. */
  function SubsetTtf(macRoman: char -> Option<u8>, glyphs: seq<Option<LegacyGlyph>>): (r: Result<(seq<u16>, seq<u8>), LegacyError>)
    ensures r.Err? <==> IndexedIds(glyphs) == [] || exists k :: 0 <= k < |glyphs| && !IsMacRoman(macRoman, glyphs[k])
    ensures IndexedIds(glyphs) == [] ==> r == Err(Message(NoGlyphsLeftMessage))
    ensures IndexedIds(glyphs) != [] && r.Err? ==> r == Err(Message(NotMacRoman))
    ensures r.Ok? ==> StrictlyIncreasing(r.value.0) && |r.value.0| > 0
    ensures r.Ok? ==> forall x :: x in r.value.0 <==>
              exists k :: 0 <= k < |glyphs| && glyphs[k].Some? && glyphs[k].value.glyphIndex == Some(x)
    ensures r.Ok? ==> r.value.1 == Cmap0(Codes(macRoman, glyphs))
  {
    var ids := SortDedup(IndexedIds(glyphs));
    if ids == [] then
      assert forall x :: x !in IndexedIds(glyphs);
      Err(Message(NoGlyphsLeftMessage))
    else if forall k :: 0 <= k < |glyphs| ==> IsMacRoman(macRoman, glyphs[k]) then
      Ok((ids, Cmap0(Codes(macRoman, glyphs))))
    else
      Err(Message(NotMacRoman))
  }

  /** Text is always mapped in full before either check, so a character the
      cmap does not know fails the Mac Roman check unless no character
      is mapped at all. */
  lemma UnmappedIsNotMacRoman(macRoman: char -> Option<u8>, cmap: char -> Result<Option<u16>, ParseError>, text: string, k: nat)
    requires k < |text| && cmap(text[k]) == Ok(None)
    requires Collect(ch => MapGlyph(cmap, ch), text).Ok?
    ensures var glyphs := Collect(ch => MapGlyph(cmap, ch), text).value;
            SubsetTtf(macRoman, glyphs).Err?
  {
    var glyphs := Collect(ch => MapGlyph(cmap, ch), text).value;
    assert !IsMacRoman(macRoman, glyphs[k]);
  }

  // ---------------------------------------------------------------------
  // Arguments

  datatype Invocation =
    | Usage
    | Failed(error: LegacyError)
    | Subset(text: string, input: string, output: string)

  /** `main`'s argument checks, in order: help, a missing `-t`, fewer than
      two free arguments. */
  function Arguments(help: bool, text: Option<string>, free: seq<string>): (r: Invocation)
    ensures help ==> r == Usage
    ensures !help && text.None? ==> r == Failed(Message(TextRequired))
    ensures !help && text.Some? && |free| < 2 ==> r == Usage
    ensures r.Subset? <==> !help && text.Some? && |free| >= 2
    ensures r.Subset? ==> r.text == text.value && r.input == free[0] && r.output == free[1]
  {
    if help then Usage
    else if text.None? then Failed(Message(TextRequired))
    else if |free| < 2 then Usage
    else Subset(text.value, free[0], free[1])
  }

  /** The invocation read back as the arguments that give it: a text and
      two free arguments name the text, the input and the output, and free
      arguments after the second are ignored. */
  lemma ArgumentsRoundTrip(text: string, input: string, output: string, extra: seq<string>)
    ensures Arguments(false, Some(text), [input, output] + extra) == Subset(text, input, output)
  {
    assert ([input, output] + extra)[0] == input && ([input, output] + extra)[1] == output;
  }

  /** The checks are ordered: `-h` hides a missing `-t`, and a missing `-t`
      is reported even when the free arguments are missing too. */
  lemma ArgumentChecksOrdered(free: seq<string>)
    ensures Arguments(true, None, free) == Usage
    ensures |free| < 2 ==> Arguments(false, None, free) == Failed(Message(TextRequired))
  {
  }
}

=== FILE: legacy_writer.dfy ===
/** The older SVG writer, used by the text-rendering-test tool: the same
    loop as the current writer, but a symbol holds only a glyph name and a
    path, every id is `<testcase>.<glyph name>`, and the sink writes every
    command as it comes (no truncation, no dropped line-to). Its loop is
    shown to run in lock step with the current writer's loop in a plain view
    mode, so everything proved there carries over. */
module LegacyWriter {
  import opened Wrappers
  import opened Layout
  import opened Outline
  import opened Style
  import opened Script
  import opened Writer
  import opened SvgDocument

  datatype LegacySymbol = LegacySymbol(glyphName: string, path: string)

  datatype LegacyBuilder = LegacyBuilder(
    symbols: seq<LegacySymbol>,
    symbolMap: map<u16, nat>,
    usage: seq<Usage>,
    x: int,
    y: int)

  /** One iteration of the older loop: a new glyph gets a symbol whose path
      is its outline, every glyph gets a use, and the pen moves. */
  function LegacyStep<E>(t: Point -> Point, naming: u16 -> Option<string>, visit: u16 -> Result<seq<OutlineCmd>, E>,
                         b: LegacyBuilder, item: Item): (r: Result<LegacyBuilder, E>)
    ensures r.Ok? <==> item.0.glyph.glyphIndex in b.symbolMap || visit(item.0.glyph.glyphIndex).Ok?
  {
    var (info, pos) := item;
    var gid := info.glyph.glyphIndex;
    var point := UsePoint(t, b.x, b.y, pos);
    if gid in b.symbolMap then
      Ok(b.(usage := b.usage + [Usage(b.symbolMap[gid], point)], x := b.x + pos.horiAdvance, y := b.y + pos.vertAdvance))
    else
      match visit(gid)
      case Err(e) => Err(e)
      case Ok(cmds) =>
        var index := |b.symbols|;
        var symbol := LegacySymbol(GlyphName(naming, gid), LegacyFeed(Number, t, "", cmds));
        Ok(LegacyBuilder(b.symbols + [symbol], b.symbolMap[gid := index], b.usage + [Usage(index, point)],
                         b.x + pos.horiAdvance, b.y + pos.vertAdvance))
  }

  function LegacyBuild<E>(t: Point -> Point, naming: u16 -> Option<string>, visit: u16 -> Result<seq<OutlineCmd>, E>,
                          items: seq<Item>, n: nat): Result<LegacyBuilder, E>
    requires n <= |items|
  {
    if n == 0 then Ok(LegacyBuilder([], map[], [], 0, 0))
    else
      var b :- LegacyBuild(t, naming, visit, items, n - 1);
      LegacyStep(t, naming, visit, b, items[n - 1])
  }

  /** The view mode that draws nothing but the glyphs. */
  const Plain: SvgMode := View(false, Margin(0.0, 0.0, 0.0, 0.0), None, None)

  /** The older state mirrors the current one: the same names and paths,
      map, uses and pen. */
  ghost predicate Mirrors(lb: LegacyBuilder, b: Builder) {
    && |lb.symbols| == |b.symbols|
    && (forall j | 0 <= j < |b.symbols| :: lb.symbols[j] == LegacySymbol(b.symbols[j].glyphName, b.symbols[j].path))
    && lb.symbolMap == b.symbolMap && lb.usage == b.usage && lb.x == b.x && lb.y == b.y
  }

  lemma StepMirrors<E>(t: Point -> Point, naming: u16 -> Option<string>, visit: u16 -> Result<seq<OutlineCmd>, E>,
                       lb: LegacyBuilder, b: Builder, item: Item)
    requires Mirrors(lb, b)
    ensures LegacyStep(t, naming, visit, lb, item).Ok? == Step(Plain, t, naming, visit, b, item).Ok?
    ensures LegacyStep(t, naming, visit, lb, item).Ok? ==>
              Mirrors(LegacyStep(t, naming, visit, lb, item).value, Step(Plain, t, naming, visit, b, item).value)
  {
    var gid := item.0.glyph.glyphIndex;
    var l := LegacyStep(t, naming, visit, lb, item);
    var r := Step(Plain, t, naming, visit, b, item);
    if r.Ok? {
      StepShape(Plain, t, naming, visit, b, item);
      if gid !in b.symbolMap {
        LegacyIsView(Number, t, b.tracker, "", visit(gid).value);
        assert forall j | 0 <= j < |b.symbols| :: r.value.symbols[j] == b.symbols[j] by {
          assert forall j | 0 <= j < |b.symbols| :: r.value.symbols[..|b.symbols|][j] == r.value.symbols[j];
        }
      }
    }
  }

  /** After `n` items both loops have failed, or both hold mirroring states. */
  ghost predicate InLockStep<E>(t: Point -> Point, naming: u16 -> Option<string>,
                                visit: u16 -> Result<seq<OutlineCmd>, E>, items: seq<Item>, n: nat)
    requires n <= |items|
  {
    var (l, r) := (LegacyBuild(t, naming, visit, items, n), Build(Plain, t, naming, visit, items, n));
    l.Ok? == r.Ok? && (l.Ok? ==> Mirrors(l.value, r.value))
  }

  /** The two loops run in lock step. */
  lemma {:induction false} BuildMirrors<E>(t: Point -> Point, naming: u16 -> Option<string>,
                                           visit: u16 -> Result<seq<OutlineCmd>, E>, items: seq<Item>, n: nat)
    requires n <= |items|
    ensures InLockStep(t, naming, visit, items, n)
  {
    if n == 0 {
      assert Build(Plain, t, naming, visit, items, n).value == Start;
    } else {
      BuildMirrors(t, naming, visit, items, n - 1);
      BuildMirrorsStep(t, naming, visit, items, n);
    }
  }

  /** One more item keeps the two loops in lock step. */
  lemma BuildMirrorsStep<E>(t: Point -> Point, naming: u16 -> Option<string>,
                            visit: u16 -> Result<seq<OutlineCmd>, E>, items: seq<Item>, n: nat)
    requires 0 < n <= |items| && InLockStep(t, naming, visit, items, n - 1)
    ensures InLockStep(t, naming, visit, items, n)
  {
    var l := LegacyBuild(t, naming, visit, items, n - 1);
    var r := Build(Plain, t, naming, visit, items, n - 1);
    if r.Ok? {
      BuildUnfold(Plain, t, naming, visit, items, n);
      LegacyBuildUnfold(t, naming, visit, items, n);
      StepMirrors(t, naming, visit, l.value, r.value, items[n - 1]);
    } else {
      BuildErr(Plain, t, naming, visit, items, n);
      LegacyBuildErr(t, naming, visit, items, n);
    }
  }

  lemma LegacyBuildUnfold<E>(t: Point -> Point, naming: u16 -> Option<string>,
                             visit: u16 -> Result<seq<OutlineCmd>, E>, items: seq<Item>, n: nat)
    requires 0 < n <= |items| && LegacyBuild(t, naming, visit, items, n - 1).Ok?
    ensures LegacyBuild(t, naming, visit, items, n)
         == LegacyStep(t, naming, visit, LegacyBuild(t, naming, visit, items, n - 1).value, items[n - 1])
  {
  }

  lemma LegacyBuildErr<E>(t: Point -> Point, naming: u16 -> Option<string>,
                          visit: u16 -> Result<seq<OutlineCmd>, E>, items: seq<Item>, n: nat)
    requires 0 < n <= |items| && LegacyBuild(t, naming, visit, items, n - 1).Err?
    ensures LegacyBuild(t, naming, visit, items, n).Err?
  {
  }

  /** `end`: the symbols, then the uses; ids and hrefs are formatted
      separately in the source but always agree. */
  function LegacyEnd(testcase: string, symbols: seq<LegacySymbol>, usage: seq<Usage>): (doc: Document)
    requires forall k | 0 <= k < |usage| :: usage[k].symbolIndex < |symbols|
    ensures doc.background.None? && |doc.symbols| == |symbols| && |doc.uses| == |usage|
    ensures forall j | 0 <= j < |symbols| ::
      && doc.symbols[j].id == Id(TextRenderingTests(testcase), symbols[j].glyphName)
      && doc.symbols[j].path == symbols[j].path
      && doc.symbols[j].data == map[] && doc.symbols[j].fill.None? && doc.symbols[j].crosshair.None?
    ensures forall k | 0 <= k < |usage| ::
      && doc.uses[k].href == "#" + doc.symbols[usage[k].symbolIndex].id
      && doc.uses[k].at == usage[k].point
  {
    var elements := seq(|symbols|, j requires 0 <= j < |symbols| =>
      SymbolElement(testcase + "." + symbols[j].glyphName, map[], symbols[j].path, None, None));
    var uses := seq(|usage|, k requires 0 <= k < |usage| =>
      UseElement("#" + testcase + "." + symbols[usage[k].symbolIndex].glyphName, usage[k].point));
    assert forall k | 0 <= k < |usage| :: uses[k].href == "#" + elements[usage[k].symbolIndex].id by {
      forall k | 0 <= k < |usage|
        ensures uses[k].href == "#" + elements[usage[k].symbolIndex].id
      {
        var name := symbols[usage[k].symbolIndex].glyphName;
        assert "#" + testcase + "." + name == "#" + (testcase + "." + name);
      }
    }
    Document(None, elements, uses)
  }

  /** The older `glyphs_to_svg`. */
  function LegacyGlyphsToSvg<L, E>(testcase: string, t: Point -> Point, naming: u16 -> Option<string>,
                                   visit: u16 -> Result<seq<OutlineCmd>, E>, infos: seq<Info>,
                                   positions: Result<seq<GlyphPosition>, L>, direction: TextDirection)
    : (r: Result<Document, SvgError<L, E>>)
    ensures positions.Err? ==> r == Err(LayoutFailed(positions.error))
    ensures r.Err? && positions.Ok? ==> r.error.BuildingSvg?
  {
    match positions
    case Err(l) => Err(LayoutFailed(l))
    case Ok(ps) =>
      var items := DrawOrder(infos, ps, direction);
      match LegacyBuild(t, naming, visit, items, |items|)
      case Err(e) => Err(BuildingSvg(e))
      case Ok(b) =>
        BuildMirrors(t, naming, visit, items, |items|);
        BuildIndexed(Plain, t, naming, visit, items, |items|);
        Ok(LegacyEnd(testcase, b.symbols, b.usage))
  }

  /** The older writer fails exactly when the current one fails. */
  lemma LegacySucceeds<L, E>(testcase: string, t: Point -> Point, naming: u16 -> Option<string>,
                             visit: u16 -> Result<seq<OutlineCmd>, E>, infos: seq<Info>,
                             positions: Result<seq<GlyphPosition>, L>, direction: TextDirection)
    requires positions.Ok?
    ensures var items := DrawOrder(infos, positions.value, direction);
      LegacyGlyphsToSvg(testcase, t, naming, visit, infos, positions, direction).Ok?
      <==> forall k | 0 <= k < |items| :: visit(items[k].0.glyph.glyphIndex).Ok?
  {
    var items := DrawOrder(infos, positions.value, direction);
    BuildMirrors(t, naming, visit, items, |items|);
    BuildSucceeds(Plain, t, naming, visit, items, |items|);
  }

  /** One use per drawn glyph, in drawing order, pointing at
      `#<testcase>.<glyph name>` and placed at the pen plus the offset. */
  lemma LegacyUses<L, E>(testcase: string, t: Point -> Point, naming: u16 -> Option<string>,
                         visit: u16 -> Result<seq<OutlineCmd>, E>, infos: seq<Info>,
                         positions: Result<seq<GlyphPosition>, L>, direction: TextDirection)
    requires LegacyGlyphsToSvg(testcase, t, naming, visit, infos, positions, direction).Ok?
    ensures positions.Ok?
    ensures var doc, items := LegacyGlyphsToSvg(testcase, t, naming, visit, infos, positions, direction).value,
                              DrawOrder(infos, positions.value, direction);
      && |doc.uses| == |items|
      && forall k | 0 <= k < |items| ::
           && doc.uses[k].href == "#" + testcase + "." + GlyphName(naming, items[k].0.glyph.glyphIndex)
           && doc.uses[k].at == UsePoint(t, PenX(items, k), PenY(items, k), items[k].1)
  {
    var items := DrawOrder(infos, positions.value, direction);
    BuildMirrors(t, naming, visit, items, |items|);
    BuildIndexed(Plain, t, naming, visit, items, |items|);
    BuildDrawn(Plain, t, naming, visit, items, |items|);
    BuildPoints(Plain, t, naming, visit, items, |items|);
    assert Gids(items)[..|items|] == Gids(items);
    var b := Build(Plain, t, naming, visit, items, |items|).value;
    var lb := LegacyBuild(t, naming, visit, items, |items|).value;
    var doc := LegacyEnd(testcase, lb.symbols, lb.usage);
    forall k | 0 <= k < |items|
      ensures doc.uses[k].href == "#" + testcase + "." + GlyphName(naming, items[k].0.glyph.glyphIndex)
    {
      var i := b.usage[k].symbolIndex;
      var name := lb.symbols[i].glyphName;
      assert name == GlyphName(naming, items[k].0.glyph.glyphIndex);
      assert doc.uses[k].href == "#" + (testcase + "." + name);
      assert "#" + (testcase + "." + name) == "#" + testcase + "." + name;
    }
  }

  /** One symbol per distinct drawn glyph, in first-occurrence order, with
      id `<testcase>.<glyph name>` and the untouched text of its outline. */
  lemma LegacySymbols<L, E>(testcase: string, t: Point -> Point, naming: u16 -> Option<string>,
                            visit: u16 -> Result<seq<OutlineCmd>, E>, infos: seq<Info>,
                            positions: Result<seq<GlyphPosition>, L>, direction: TextDirection)
    requires LegacyGlyphsToSvg(testcase, t, naming, visit, infos, positions, direction).Ok?
    ensures positions.Ok?
    ensures var doc, items := LegacyGlyphsToSvg(testcase, t, naming, visit, infos, positions, direction).value,
                              DrawOrder(infos, positions.value, direction);
      var gids := FirstOccurrences(Gids(items));
      && |doc.symbols| == |gids|
      && forall j | 0 <= j < |gids| ::
           && doc.symbols[j].id == testcase + "." + GlyphName(naming, gids[j])
           && visit(gids[j]).Ok? && doc.symbols[j].path == PathText(Number, t, visit(gids[j]).value)
  {
    var items := DrawOrder(infos, positions.value, direction);
    BuildMirrors(t, naming, visit, items, |items|);
    BuildIndexed(Plain, t, naming, visit, items, |items|);
    BuildDrawn(Plain, t, naming, visit, items, |items|);
    assert Gids(items)[..|items|] == Gids(items);
  }
}

=== FILE: name_table.dfy ===
/** What the dump tools print for each record of an OpenType `name` table:
    a heading naming the record's Name ID, and the string decoded by the
    record's platform and encoding. The `dump` subcommand, the older `dump`
    tool and `dump_woff` carry identical copies of these helpers, so one
    definition serves all three. The UTF-16BE and Mac Roman decoders belong
    to an encoding library and are parameters. */
module NameTable {
  import opened Wrappers
  import opened Text

  /** `get_name_meaning`: the label of a predefined Name ID. ID 15 is
      reserved and IDs from 26 on are unassigned. */
  function Meaning(nameId: u16): (r: Option<string>)
    ensures r.None? <==> nameId == 15 || nameId >= 26
  {
    match nameId
    case 0 => Some("Copyright")
    case 1 => Some("Font Family")
    case 2 => Some("Font Subfamily")
    case 3 => Some("Unique Identifier")
    case 4 => Some("Full Font Name")
    case 5 => Some("Version")
    case 6 => Some("PostScript Name")
    case 7 => Some("Trademark")
    case 8 => Some("Manufacturer")
    case 9 => Some("Designer")
    case 10 => Some("Description")
    case 11 => Some("URL Vendor")
    case 12 => Some("URL Designer")
    case 13 => Some("License Description")
    case 14 => Some("License Info URL")
    case 15 => None
    case 16 => Some("Typographic Family")
    case 17 => Some("Typographic Subfamily")
    case 18 => Some("Compatible Full")
    case 19 => Some("Sample Text")
    case 20 => Some("PostScript CID findfont")
    case 21 => Some("WWS Family Name")
    case 22 => Some("WWS Subfamily Name")
    case 23 => Some("Light Background Palette")
    case 24 => Some("Dark Background Palette")
    case 25 => Some("Variations PostScript Name Prefix")
    case _ => None
  }

  /** The heading printed above a record: the label, or `name <id>`. */
  function Heading(nameId: u16): (r: string)
    ensures Meaning(nameId).Some? ==> r == Meaning(nameId).value
    ensures Meaning(nameId).None? ==> r == "name " + Decimal(nameId)
  {
    match Meaning(nameId)
    case Some(meaning) => meaning
    case None => "name " + Decimal(nameId)
  }

  /** The number a numbered heading `name <id>` stands for; `None` for
      anything else, in particular for every label. */
  function NumberOfHeading(h: string): Option<nat> {
    if |h| > 5 && h[0] == 'n' && h[1] == 'a' && h[2] == 'm' && h[3] == 'e' && h[4] == ' ' then
      ParseUnsigned(h[5..], 10, 0x1_0000)
    else None
  }

  /** No label starts with `n`, so none can be taken for a numbered heading. */
  lemma LabelsStartOtherwise(nameId: u16)
    requires Meaning(nameId).Some?
    ensures |Meaning(nameId).value| > 0 && Meaning(nameId).value[0] != 'n'
  {
  }

  /** The numbered heading of a record without a predefined meaning reads
      back as its Name ID. */
  lemma NumberedHeadingReadsBack(nameId: u16)
    requires Meaning(nameId).None?
    ensures NumberOfHeading(Heading(nameId)) == Some(nameId as nat)
  {
    NumberRead(nameId);
  }

  lemma NumberRead(n: u16)
    ensures NumberOfHeading("name " + Decimal(n)) == Some(n as nat)
  {
    var h := "name " + Decimal(n);
    ParseDecimal(n, 0x1_0000);
    assert h[5..] == Decimal(n);
  }

  /** The heading of a record with a predefined meaning is not a numbered
      heading, so a heading tells the two kinds of record apart. */
  lemma LabelHeadingIsNotNumbered(nameId: u16)
    requires Meaning(nameId).Some?
    ensures NumberOfHeading(Heading(nameId)) == None
  {
    LabelsStartOtherwise(nameId);
  }

  /** The decoder a record's platform and encoding select. */
  datatype Decoder = Utf16Be | MacRoman | Unknown

  /** The decoder choice: the Unicode platform with any encoding, and the
      Windows platform with the Symbol, Unicode BMP or Unicode full
      encodings, are UTF-16BE; Macintosh with the Roman encoding is Mac
      Roman; every other pair is unknown. The language never matters. */
  function DecoderFor(platform: u16, encoding: u16): (d: Decoder)
    ensures d == Utf16Be <==> platform == 0 || (platform == 3 && (encoding == 0 || encoding == 1 || encoding == 10))
    ensures d == MacRoman <==> platform == 1 && encoding == 0
  {
    match (platform, encoding)
    case (0, _) => Utf16Be
    case (1, 0) => MacRoman
    case (3, 0) => Utf16Be
    case (3, 1) => Utf16Be
    case (3, 10) => Utf16Be
    case _ => Unknown
  }

  /** The text printed in place of a string no decoder is chosen for. */
  function Placeholder(platform: u16, encoding: u16, language: u16): string {
    "(unknown platform=" + Decimal(platform) + " encoding=" + Decimal(encoding)
      + " language=" + Decimal(language) + ")"
  }

  /** The string printed for a record whose stored bytes are `data`. */
  function NameText(utf16: seq<u8> -> string, macRoman: seq<u8> -> string,
                    platform: u16, encoding: u16, language: u16, data: seq<u8>): (r: string)
    ensures DecoderFor(platform, encoding) == Utf16Be ==> r == utf16(data)
    ensures DecoderFor(platform, encoding) == MacRoman ==> r == macRoman(data)
    ensures DecoderFor(platform, encoding) == Unknown ==> r == Placeholder(platform, encoding, language)
  {
    match DecoderFor(platform, encoding)
    case Utf16Be => utf16(data)
    case MacRoman => macRoman(data)
    case Unknown => Placeholder(platform, encoding, language)
  }

  /** A reader for the placeholder: the three numbers after the `=` signs. */
  function ReadPlaceholder(s: string): Option<(nat, nat, nat)> {
    var parts := Split(s, '=');
    if |parts| != 4 || |parts[3]| == 0 then None
    else
      var p := ParseUnsigned(Before(parts[1], ' '), 10, 0x1_0000);
      var e := ParseUnsigned(Before(parts[2], ' '), 10, 0x1_0000);
      var l := ParseUnsigned(parts[3][..|parts[3]| - 1], 10, 0x1_0000);
      if p.Some? && e.Some? && l.Some? then Some((p.value, e.value, l.value)) else None
  }

  /** The placeholder keeps the record's platform, encoding and language:
      they read back from it. */
  lemma PlaceholderReadsBack(platform: u16, encoding: u16, language: u16)
    ensures ReadPlaceholder(Placeholder(platform, encoding, language))
            == Some((platform as nat, encoding as nat, language as nat))
  {
    var p := Decimal(platform);
    var e := Decimal(encoding);
    var l := Decimal(language);
    PlaceholderParts(p, e, l);
    ParseDecimal(platform, 0x1_0000);
    ParseDecimal(encoding, 0x1_0000);
    ParseDecimal(language, 0x1_0000);
    PartsRead(p, e, l);
    ReadParts(Placeholder(platform, encoding, language), p, e, l, platform, encoding, language);
  }

  /** The placeholder around three numerals splits at its `=` signs into
      four parts. */
  lemma PlaceholderParts(p: string, e: string, l: string)
    requires AllDigits(p, 10) && AllDigits(e, 10) && AllDigits(l, 10)
    ensures Split("(unknown platform=" + p + " encoding=" + e + " language=" + l + ")", '=')
            == ["(unknown platform", p + " encoding", e + " language", l + ")"]
  {
    var parts := ["(unknown platform", p + " encoding", e + " language", l + ")"];
    PlaceholderJoined(p, e, l);
    NotADigit(p, 10, '=');
    NotADigit(e, 10, '=');
    NotADigit(l, 10, '=');
    SplitJoin(parts, '=');
  }

  /** The placeholder is its four parts joined by `=`. */
  lemma PlaceholderJoined(p: string, e: string, l: string)
    ensures "(unknown platform=" + p + " encoding=" + e + " language=" + l + ")"
            == Join(["(unknown platform", p + " encoding", e + " language", l + ")"], '=')
  {
    JoinFour("(unknown platform", p + " encoding", e + " language", l + ")", '=');
  }

  /** The reader on a string with the placeholder's four parts. */
  lemma ReadParts(s: string, p: string, e: string, l: string, pv: nat, ev: nat, lv: nat)
    requires Split(s, '=') == ["(unknown platform", p + " encoding", e + " language", l + ")"]
    requires Before(p + " encoding", ' ') == p && Before(e + " language", ' ') == e
    requires (l + ")")[..|l + ")"| - 1] == l
    requires ParseUnsigned(p, 10, 0x1_0000) == Some(pv)
    requires ParseUnsigned(e, 10, 0x1_0000) == Some(ev)
    requires ParseUnsigned(l, 10, 0x1_0000) == Some(lv)
    ensures ReadPlaceholder(s) == Some((pv, ev, lv))
  {
  }

  /** The numbers inside the parts between the `=` signs. */
  lemma PartsRead(p: string, e: string, l: string)
    requires AllDigits(p, 10) && AllDigits(e, 10)
    ensures Before(p + " encoding", ' ') == p
    ensures Before(e + " language", ' ') == e
    ensures (l + ")")[..|l + ")"| - 1] == l
  {
    NotADigit(p, 10, ' ');
    NotADigit(e, 10, ' ');
    assert p + " encoding" == p + [' '] + "encoding";
    assert e + " language" == e + [' '] + "language";
    BeforeJoin(p, ' ', "encoding");
    BeforeJoin(e, ' ', "language");
  }

  /** Four parts joined by a separator. */
  lemma JoinFour(a: string, b: string, c: string, d: string, sep: char)
    ensures Join([a, b, c, d], sep) == a + [sep] + b + [sep] + c + [sep] + d
  {
    assert [c, d][1..] == [d];
    assert Join([d], sep) == d;
    var cd := Join([c, d], sep);
    assert cd == c + [sep] + d;
    assert [b, c, d][1..] == [c, d];
    var bcd := Join([b, c, d], sep);
    assert bcd == b + [sep] + cd;
    assert [a, b, c, d][1..] == [b, c, d];
    assert Join([a, b, c, d], sep) == a + [sep] + bcd;
  }
}

=== FILE: outline.dfy ===
/** SVG path data (the `M`, `L`, `Q`, `C` and `Z` commands of section 8.3 of
    SVG 1.1) as the two writers' outline sinks produce it. Points reach the
    sink in font units and are mapped by the writer's transform, which is a
    parameter here and yields integer coordinates. */
module Outline {
  import opened Wrappers
  import opened Text

  datatype Point = Point(x: int, y: int)

  /** The calls an outline visitor makes on a sink, in order. */
  datatype OutlineCmd =
    | MoveTo(to: Point)
    | LineTo(to: Point)
    | QuadTo(control: Point, to: Point)
    | CubicTo(control1: Point, control2: Point, to: Point)
    | Close

  /** How a coordinate is printed: `{}` of the integer, with a minus sign for
      negative values. The sink functions take the number formatting as the
      parameter `num` so that proofs about paths need not unfold it; the
      writers pass `Number`. */
  function Number(i: int): (s: string)
    ensures 'L' !in s
  {
    var d := if i < 0 then Decimal(-i) else Decimal(i);
    assert forall k | 0 <= k < |d| :: DigitValue(d[k], 10).Some?;
    SignedDecimal(i)
  }

  /** A number formatting that never prints the letter `L`, as `Number` does. */
  ghost predicate NoLetterL(num: int -> string) {
    forall i :: 'L' !in num(i)
  }

  lemma NumberHasNoLetterL()
    ensures NoLetterL(Number)
  {
  }

  /** `{x},{y}` */
  function Coord(num: int -> string, p: Point): (s: string)
    ensures NoLetterL(num) ==> 'L' !in s
  {
    num(p.x) + "," + num(p.y)
  }

  /** The text one command appends: a space, the command letter and the
      transformed points. */
  function CommandText(num: int -> string, t: Point -> Point, cmd: OutlineCmd): string {
    match cmd
    case MoveTo(p) => " M" + Coord(num, t(p))
    case LineTo(p) => " L" + Coord(num, t(p))
    case QuadTo(c, p) => " Q" + Coord(num, t(c)) + " " + Coord(num, t(p))
    case CubicTo(c1, c2, p) => " C" + Coord(num, t(c1)) + " " + Coord(num, t(c2)) + " " + Coord(num, t(p))
    case Close => " Z"
  }

  /** All commands' texts one after the other. */
  function PathText(num: int -> string, t: Point -> Point, cmds: seq<OutlineCmd>): string {
    if |cmds| == 0 then "" else PathText(num, t, cmds[..|cmds| - 1]) + CommandText(num, t, cmds[|cmds| - 1])
  }

  /** A ` L` starts at index `i` of `s`. */
  predicate LineAt(s: string, i: int) {
    0 <= i && i + 1 < |s| && s[i] == ' ' && s[i + 1] == 'L'
  }

  /** `str::rfind(" L")`: where the last ` L` starts. */
  function LastLineStart(s: string): (r: Option<nat>)
    ensures r.Some? ==> r.value + 2 <= |s|
  {
    if |s| < 2 then None
    else if LineAt(s, |s| - 2) then Some(|s| - 2)
    else LastLineStart(s[..|s| - 1])
  }

  /** The index found starts a ` L` and none starts after it; no index is
      found only when there is no ` L` at all. */
  lemma {:induction false} LastLineStartFinds(s: string)
    ensures var r := LastLineStart(s);
      && (r.Some? ==> LineAt(s, r.value) && forall i | r.value < i :: !LineAt(s, i))
      && (r.None? ==> forall i :: !LineAt(s, i))
  {
    if |s| >= 2 && !LineAt(s, |s| - 2) {
      LastLineStartFinds(s[..|s| - 1]);
      assert forall i | i < |s| - 2 :: LineAt(s, i) == LineAt(s[..|s| - 1], i);
    }
  }

  /** Text without an `L` after a fresh ` L`: the fresh one is the last. */
  lemma {:induction false} LastLineIsAppended(path: string, rest: string)
    requires 'L' !in rest
    ensures LastLineStart(path + " L" + rest) == Some(|path|)
    decreases |rest|
  {
    var s := path + " L" + rest;
    if |rest| == 0 {
      assert LineAt(s, |s| - 2);
    } else {
      assert s[|s| - 1] == rest[|rest| - 1];
      assert !LineAt(s, |s| - 2);
      assert s[..|s| - 1] == path + " L" + rest[..|rest| - 1];
      LastLineIsAppended(path, rest[..|rest| - 1]);
    }
  }

  // ---------------------------------------------------------------------
  // The sink of the current writer

  /** The sink's memory in text-rendering-test mode: where the current
      contour started and the last line-to point, if the last drawing command
      was a line. */
  datatype Tracker = Tracker(initialMoveTo: Point, lastLineTo: Option<Point>)

  /** One sink call on the current path. `truncating` is text-rendering-test
      mode: the tracker is kept up to date and `close` drops a final line back
      to the contour's start (by cutting the path at its last ` L`); in view
      mode the tracker is left alone and every command is appended. */
  function SinkStep(truncating: bool, num: int -> string, t: Point -> Point, tracker: Tracker, path: string, cmd: OutlineCmd): (r: (Tracker, string))
  {
    var text := CommandText(num, t, cmd);
    if !truncating then (tracker, path + text)
    else
      match cmd
      case MoveTo(p) => (Tracker(t(p), None), path + text)
      case LineTo(p) => (tracker.(lastLineTo := Some(t(p))), path + text)
      case QuadTo(_, _) => (tracker.(lastLineTo := None), path + text)
      case CubicTo(_, _, _) => (tracker.(lastLineTo := None), path + text)
      case Close =>
        var kept :=
          if tracker.lastLineTo == Some(tracker.initialMoveTo) then
            match LastLineStart(path)
            case Some(i) => path[..i]
            case None => path
          else path;
        (tracker, kept + " Z")
  }

  /** A sequence of sink calls. */
  function Feed(truncating: bool, num: int -> string, t: Point -> Point, tracker: Tracker, path: string, cmds: seq<OutlineCmd>): (Tracker, string)
    decreases |cmds|
  {
    if |cmds| == 0 then (tracker, path)
    else
      var next := SinkStep(truncating, num, t, tracker, path, cmds[0]);
      Feed(truncating, num, t, next.0, next.1, cmds[1..])
  }

  lemma ViewStep(num: int -> string, t: Point -> Point, tracker: Tracker, path: string, cmd: OutlineCmd)
    ensures SinkStep(false, num, t, tracker, path, cmd) == (tracker, path + CommandText(num, t, cmd))
  {
  }

  /** In text-rendering-test mode every command but `close` appends its text,
      and only `move_to` changes where the contour started. */
  lemma TruncatingStep(num: int -> string, t: Point -> Point, tracker: Tracker, path: string, cmd: OutlineCmd)
    requires cmd != Close
    ensures SinkStep(true, num, t, tracker, path, cmd).1 == path + CommandText(num, t, cmd)
    ensures !cmd.MoveTo? ==> SinkStep(true, num, t, tracker, path, cmd).0.initialMoveTo == tracker.initialMoveTo
  {
  }

  /** In view mode the path is every command's text, in order. */
  lemma {:induction false} ViewFeed(num: int -> string, t: Point -> Point, tracker: Tracker, path: string, cmds: seq<OutlineCmd>)
    ensures Feed(false, num, t, tracker, path, cmds) == (tracker, path + PathText(num, t, cmds))
    decreases |cmds|
  {
    if |cmds| > 0 {
      ViewFeed(num, t, tracker, path + CommandText(num, t, cmds[0]), cmds[1..]);
      ViewFeedStep(num, t, tracker, path, cmds);
    } else {
      assert path + PathText(num, t, cmds) == path;
    }
  }

  /** The inductive step of `ViewFeed`: the first command's text, then the rest's. */
  lemma ViewFeedStep(num: int -> string, t: Point -> Point, tracker: Tracker, path: string, cmds: seq<OutlineCmd>)
    requires |cmds| > 0
    requires var first := CommandText(num, t, cmds[0]);
      Feed(false, num, t, tracker, path + first, cmds[1..]) == (tracker, (path + first) + PathText(num, t, cmds[1..]))
    ensures Feed(false, num, t, tracker, path, cmds) == (tracker, path + PathText(num, t, cmds))
  {
    var first, rest := CommandText(num, t, cmds[0]), cmds[1..];
    ViewFront(num, t, tracker, path, cmds);
    AppendAssoc(path, first, PathText(num, t, rest));
    PathTextFront(num, t, cmds);
  }

  /** In view mode the first command only appends its text. */
  lemma ViewFront(num: int -> string, t: Point -> Point, tracker: Tracker, path: string, cmds: seq<OutlineCmd>)
    requires |cmds| > 0
    ensures Feed(false, num, t, tracker, path, cmds) == Feed(false, num, t, tracker, path + CommandText(num, t, cmds[0]), cmds[1..])
  {
    FeedFront(false, num, t, tracker, path, cmds);
    ViewStep(num, t, tracker, path, cmds[0]);
  }

  /** Feeding is the first step, then feeding the rest. */
  lemma FeedFront(truncating: bool, num: int -> string, t: Point -> Point, tracker: Tracker, path: string, cmds: seq<OutlineCmd>)
    requires |cmds| > 0
    ensures var step := SinkStep(truncating, num, t, tracker, path, cmds[0]);
      Feed(truncating, num, t, tracker, path, cmds) == Feed(truncating, num, t, step.0, step.1, cmds[1..])
  {
  }

  lemma {:induction false} PathTextFront(num: int -> string, t: Point -> Point, cmds: seq<OutlineCmd>)
    requires |cmds| > 0
    ensures PathText(num, t, cmds) == CommandText(num, t, cmds[0]) + PathText(num, t, cmds[1..])
    decreases |cmds|
  {
    if |cmds| > 1 {
      PathTextFront(num, t, cmds[..|cmds| - 1]);
      assert cmds[..|cmds| - 1][1..] == cmds[1..][..|cmds[1..]| - 1];
      assert cmds[..|cmds| - 1][0] == cmds[0];
    } else {
      assert cmds[..0] == [];
    }
  }

  /** Feeding two commands is two steps. */
  lemma FeedTwo(truncating: bool, num: int -> string, t: Point -> Point, tracker: Tracker, path: string, a: OutlineCmd, b: OutlineCmd)
    ensures var first := SinkStep(truncating, num, t, tracker, path, a);
      Feed(truncating, num, t, tracker, path, [a, b]) == SinkStep(truncating, num, t, first.0, first.1, b)
  {
    var first := SinkStep(truncating, num, t, tracker, path, a);
    assert [a, b][1..] == [b];
    assert [b][1..] == [];
    var second := SinkStep(truncating, num, t, first.0, first.1, b);
    assert Feed(truncating, num, t, first.0, first.1, [b]) == Feed(truncating, num, t, second.0, second.1, []);
  }

  /** Text-rendering-test mode: a line back to where the contour started,
      followed by `close`, leaves no line in the path, only the ` Z`. */
  lemma DropsLineBackToStart(num: int -> string, t: Point -> Point, tracker: Tracker, path: string, p: Point)
    requires NoLetterL(num)
    requires t(p) == tracker.initialMoveTo
    ensures Feed(true, num, t, tracker, path, [LineTo(p), Close]).1 == path + " Z"
  {
    FeedTwo(true, num, t, tracker, path, LineTo(p), Close);
    var withLine := path + CommandText(num, t, LineTo(p));
    assert SinkStep(true, num, t, tracker, path, LineTo(p)) == (tracker.(lastLineTo := Some(t(p))), withLine);
    assert withLine == path + " L" + Coord(num, t(p));
    LastLineIsAppended(path, Coord(num, t(p)));
    assert withLine[..|path|] == path;
  }

  /** A line anywhere else is kept before the ` Z`. */
  lemma KeepsOtherLine(num: int -> string, t: Point -> Point, tracker: Tracker, path: string, p: Point)
    requires t(p) != tracker.initialMoveTo
    ensures Feed(true, num, t, tracker, path, [LineTo(p), Close]).1 == path + CommandText(num, t, LineTo(p)) + " Z"
  {
    FeedTwo(true, num, t, tracker, path, LineTo(p), Close);
    var withLine := path + CommandText(num, t, LineTo(p));
    assert SinkStep(true, num, t, tracker, path, LineTo(p)) == (tracker.(lastLineTo := Some(t(p))), withLine);
  }

  /** A curve as the last drawing command is never cut. */
  lemma KeepsCurve(num: int -> string, t: Point -> Point, tracker: Tracker, path: string, cmd: OutlineCmd)
    requires cmd.QuadTo? || cmd.CubicTo?
    ensures Feed(true, num, t, tracker, path, [cmd, Close]).1 == path + CommandText(num, t, cmd) + " Z"
  {
    FeedTwo(true, num, t, tracker, path, cmd, Close);
    var withCurve := path + CommandText(num, t, cmd);
    assert SinkStep(true, num, t, tracker, path, cmd) == (tracker.(lastLineTo := None), withCurve);
  }

  /** `move_to` starts a contour: the point becomes its start and no line is pending. */
  lemma MoveToStartsContour(num: int -> string, t: Point -> Point, tracker: Tracker, path: string, p: Point)
    ensures SinkStep(true, num, t, tracker, path, MoveTo(p)).0 == Tracker(t(p), None)
  {
  }

  /** Whole contour: `M a`, drawing commands, a line back to `a` and `close`
      produce the same path as leaving the final line out. */
  lemma {:induction false} ClosedContour(num: int -> string, t: Point -> Point, tracker: Tracker, path: string, a: Point, mids: seq<OutlineCmd>, b: Point)
    requires NoLetterL(num)
    requires forall k | 0 <= k < |mids| :: !mids[k].MoveTo? && !mids[k].Close?
    requires t(b) == t(a)
    ensures Feed(true, num, t, tracker, path, [MoveTo(a)] + mids + [LineTo(b), Close]).1
         == Feed(true, num, t, tracker, path, [MoveTo(a)] + mids).1 + " Z"
  {
    var start := SinkStep(true, num, t, tracker, path, MoveTo(a));
    var (head, tail) := ([MoveTo(a)], [LineTo(b), Close]);
    var mid := Feed(true, num, t, start.0, start.1, mids);
    assert Feed(true, num, t, tracker, path, head + mids + tail) == Feed(true, num, t, mid.0, mid.1, tail) by {
      AppendAssoc(head, mids, tail);
      TailOfAppend(head, mids + tail);
      FeedFront(true, num, t, tracker, path, head + (mids + tail));
      FeedKeepsStart(num, t, start.0, start.1, mids, tail);
    }
    assert Feed(true, num, t, tracker, path, head + mids) == mid by {
      TailOfAppend(head, mids);
      FeedFront(true, num, t, tracker, path, head + mids);
    }
    assert mid.0.initialMoveTo == t(a) by {
      FeedKeepsStart(num, t, start.0, start.1, mids, tail);
    }
    DropsLineBackToStart(num, t, mid.0, mid.1, b);
  }

  /** Drawing commands other than `move_to` and `close` keep the contour's
      start, and feeding more commands continues from where `mids` left off. */
  lemma {:induction false} FeedKeepsStart(num: int -> string, t: Point -> Point, tracker: Tracker, path: string, mids: seq<OutlineCmd>, more: seq<OutlineCmd>)
    requires forall k | 0 <= k < |mids| :: !mids[k].MoveTo? && !mids[k].Close?
    ensures Feed(true, num, t, tracker, path, mids).0.initialMoveTo == tracker.initialMoveTo
    ensures var mid := Feed(true, num, t, tracker, path, mids);
      Feed(true, num, t, tracker, path, mids + more) == Feed(true, num, t, mid.0, mid.1, more)
    decreases |mids|
  {
    if |mids| > 0 {
      var step := SinkStep(true, num, t, tracker, path, mids[0]);
      var mid := Feed(true, num, t, tracker, path, mids);
      assert mid == Feed(true, num, t, step.0, step.1, mids[1..]) by {
        FeedFront(true, num, t, tracker, path, mids);
      }
      assert Feed(true, num, t, tracker, path, mids + more) == Feed(true, num, t, step.0, step.1, mids[1..] + more) by {
        FeedFront(true, num, t, tracker, path, mids + more);
        TailOfAppend(mids, more);
      }
      assert step.0.initialMoveTo == tracker.initialMoveTo by {
        TruncatingStep(num, t, tracker, path, mids[0]);
      }
      FeedKeepsStart(num, t, step.0, step.1, mids[1..], more);
    } else {
      assert mids + more == more;
    }
  }

  // ---------------------------------------------------------------------
  // The sink of the older writer

  /** The older writer's sink: every command, `close` included, only appends. */
  function LegacyStep(num: int -> string, t: Point -> Point, path: string, cmd: OutlineCmd): (r: string)
    ensures |r| > |path| && r[..|path|] == path
  {
    path + CommandText(num, t, cmd)
  }

  function LegacyFeed(num: int -> string, t: Point -> Point, path: string, cmds: seq<OutlineCmd>): string
    decreases |cmds|
  {
    if |cmds| == 0 then path else LegacyFeed(num, t, LegacyStep(num, t, path, cmds[0]), cmds[1..])
  }

  /** The older sink draws exactly what the current one draws in view mode. */
  lemma {:induction false} LegacyIsView(num: int -> string, t: Point -> Point, tracker: Tracker, path: string, cmds: seq<OutlineCmd>)
    ensures LegacyFeed(num, t, path, cmds) == Feed(false, num, t, tracker, path, cmds).1
    ensures LegacyFeed(num, t, path, cmds) == path + PathText(num, t, cmds)
    decreases |cmds|
  {
    ViewFeed(num, t, tracker, path, cmds);
    if |cmds| > 0 {
      LegacyIsView(num, t, tracker, LegacyStep(num, t, path, cmds[0]), cmds[1..]);
      PathTextFront(num, t, cmds);
    }
  }
}

=== FILE: script.dfy ===
/** The rudimentary script-to-direction table used to order glyphs when
    drawing: a fixed list of right-to-left OpenType script tags. */
module Script {
  import opened Wrappers
  import opened Tags

  datatype TextDirection = LeftToRight | RightToLeft

  /** The right-to-left script tags, as numbers. */
  const RtlTags: seq<u32> := [
    0x61726162, // arab, Arabic
    0x68656272, // hebr, Hebrew
    0x73797263, // syrc, Syriac
    0x74686161, // thaa, Thaana
    0x63707274, // cprt, Cypriot Syllabary
    0x6b686172, // khar, Kharosthi
    0x70686e78, // phnx, Phoenician
    0x6e6b6f20, // "nko ", N'Ko
    0x6c796469, // lydi, Lydian
    0x61767374, // avst, Avestan
    0x61726d69, // armi, Imperial Aramaic
    0x70686c69, // phli, Inscriptional Pahlavi
    0x70727469, // prti, Inscriptional Parthian
    0x73617262, // sarb, Old South Arabian
    0x6f726b68, // orkh, Old Turkic
    0x73616d72, // samr, Samaritan
    0x6d616e64, // mand, Mandaic
    0x6d657263, // merc, Meroitic Cursive
    0x6d65726f, // mero, Meroitic Hieroglyphs
    0x6d616e69, // mani, Manichaean
    0x6d656e64, // mend, Mende Kikakui
    0x6e626174, // nbat, Nabataean
    0x6e617262, // narb, Old North Arabian
    0x70616c6d, // palm, Palmyrene
    0x70686c70  // phlp, Psalter Pahlavi
  ]

  /** The same scripts by name, as `DisplayTag` prints them. */
  const RtlNames: seq<string> := [
    "arab", "hebr", "syrc", "thaa", "cprt", "khar", "phnx", "nko ", "lydi",
    "avst", "armi", "phli", "prti", "sarb", "orkh", "samr", "mand", "merc",
    "mero", "mani", "mend", "nbat", "narb", "palm", "phlp"
  ]

  /** Scripts added in Unicode 7.0, all right-to-left. */
  const Unicode7Names: seq<string> := ["mani", "mend", "nbat", "narb", "palm", "phlp"]

  /** `direction`: total, right-to-left exactly for the listed tags. */
  function Direction(script: u32): (d: TextDirection)
    ensures d == RightToLeft <==> DisplayTag(script) in RtlNames
  {
    RtlByName(script);
    InTable(script);
    match script
    case 0x61726162 | 0x68656272 | 0x73797263 | 0x74686161 | 0x63707274
       | 0x6b686172 | 0x70686e78 | 0x6e6b6f20 | 0x6c796469 | 0x61767374
       | 0x61726d69 | 0x70686c69 | 0x70727469 | 0x73617262 | 0x6f726b68
       | 0x73616d72 | 0x6d616e64 | 0x6d657263 | 0x6d65726f | 0x6d616e69
       | 0x6d656e64 | 0x6e626174 | 0x6e617262 | 0x70616c6d | 0x70686c70 => RightToLeft
    case _ => LeftToRight
  }

  /** The tags the match lists are exactly those of the table. */
  predicate Listed(t: u32) {
    t == 0x61726162 || t == 0x68656272 || t == 0x73797263 || t == 0x74686161 || t == 0x63707274
    || t == 0x6b686172 || t == 0x70686e78 || t == 0x6e6b6f20 || t == 0x6c796469 || t == 0x61767374
    || t == 0x61726d69 || t == 0x70686c69 || t == 0x70727469 || t == 0x73617262 || t == 0x6f726b68
    || t == 0x73616d72 || t == 0x6d616e64 || t == 0x6d657263 || t == 0x6d65726f || t == 0x6d616e69
    || t == 0x6d656e64 || t == 0x6e626174 || t == 0x6e617262 || t == 0x70616c6d || t == 0x70686c70
  }

  lemma InTable(t: u32)
    ensures t in RtlTags <==> Listed(t)
  {
    if t in RtlTags {
      var i :| 0 <= i < |RtlTags| && RtlTags[i] == t;
    }
  }

  lemma NamesArePrintable()
    ensures forall i | 0 <= i < |RtlNames| :: |RtlNames[i]| == 4 && AllPrintable(RtlNames[i])
  {
  }

  lemma NamesAreTags()
    ensures forall i | 0 <= i < |RtlNames| :: |RtlNames[i]| == 4 && AllPrintable(RtlNames[i])
    ensures |RtlTags| == |RtlNames|
    ensures forall i | 0 <= i < |RtlNames| :: TagOf(RtlNames[i]) == RtlTags[i]
  {
    NamesArePrintable();
  }

  /** A tag is in the table exactly when it displays as one of the listed names. */
  lemma RtlByName(t: u32)
    ensures t in RtlTags <==> DisplayTag(t) in RtlNames
  {
    NamesAreTags();
    if t in RtlTags {
      var i :| 0 <= i < |RtlTags| && t == RtlTags[i];
      DisplayTagOf(RtlNames[i]);
    }
    if DisplayTag(t) in RtlNames {
      var i :| 0 <= i < |RtlNames| && DisplayTag(t) == RtlNames[i];
      DisplayTagOf(RtlNames[i]);
      DisplayTagInjective(t, TagOf(RtlNames[i]));
      assert t == RtlTags[i];
    }
  }

  /** N'Ko is listed with its padding space: the padded tag is right-to-left,
      the three letters alone are not a tag in the table. */
  lemma NkoNeedsPadding()
    ensures Direction(TagOf("nko ")) == RightToLeft
    ensures Direction(0x006e6b6f) == LeftToRight
  {
    NamesAreTags();
    assert TagOf(RtlNames[7]) == RtlTags[7];
    assert 0x006e6b6f !in RtlTags;
  }

  /** The Unicode 7.0 scripts are right-to-left. */
  lemma Unicode7RightToLeft(name: string)
    requires name in Unicode7Names
    ensures |name| == 4 && AllPrintable(name) && Direction(TagOf(name)) == RightToLeft
  {
    NamesAreTags();
    DisplayTagOf(name);
  }
}

=== FILE: shape_command.dfy ===
/** The `shape` subcommand: read the script and language tags, load the
    font, shape the text and print every glyph with its advance and
    position. Parsing the tags, reading the font file, mapping the
    characters and GSUB/GPOS shaping belong to the font library; their
    results are parameters. The positions come from
    `Glyph.CalculateGlyphPositions`, whose code this command carries a
    private copy of. */
module ShapeCommand {
  import opened Wrappers
  import opened Glyph

  /** Where a run stops with an error: a tag, the font, the shaper, or the
      positioning pass. */
  datatype Error<E> =
    | TagFailed(error: E)
    | FontFailed(error: E)
    | ShapingFailed(error: E)
    | PositioningFailed(failure: Failure)

  /** A run that returns normally: either the font has no usable cmap
      sub-table (exit code 1), or one printed line per shaped glyph, each
      with its advance and position (exit code 0). */
  datatype Outcome = NoSuitableCmap | Printed(lines: seq<(Info, Position)>)

  function ExitCode(o: Outcome): (code: int)
    ensures code == 1 <==> o.NoSuitableCmap?
    ensures code == 0 <==> o.Printed?
  {
    if o.NoSuitableCmap? then 1 else 0
  }

  /** `infos` and `positions` side by side, as the printing loop zips them. */
  function Zip(infos: seq<Info>, positions: seq<Position>): (lines: seq<(Info, Position)>)
    requires |infos| == |positions|
    ensures |lines| == |infos|
    ensures forall i | 0 <= i < |lines| :: lines[i].0 == infos[i] && lines[i].1 == positions[i]
  {
    seq(|infos|, i requires 0 <= i < |infos| => (infos[i], positions[i]))
  }

  /** `main`. `font` is what `Font::new` returns: an error, no usable cmap
      sub-table, or the font's metrics; `shape` shapes the text's glyphs for
      a script and a language. */
  function Main<E>(script: Result<u32, E>, lang: Result<u32, E>, font: Result<Option<Metrics>, E>,
                   shape: (u32, u32) -> Result<seq<Info>, E>, vertical: bool): (r: Result<Outcome, Error<E>>)
    ensures script.Err? ==> r == Err(TagFailed(script.error))
    ensures script.Ok? && lang.Err? ==> r == Err(TagFailed(lang.error))
    ensures script.Ok? && lang.Ok? && font.Err? ==> r == Err(FontFailed(font.error))
    ensures script.Ok? && lang.Ok? && font == Ok(None) ==> r == Ok(NoSuitableCmap)
    ensures r.Ok? && r.value.Printed? ==>
              && script.Ok? && lang.Ok? && font.Ok? && font.value.Some?
              && shape(script.value, lang.value).Ok?
              && var infos := shape(script.value, lang.value).value;
                 |r.value.lines| == |infos|
                 && forall i | 0 <= i < |infos| :: r.value.lines[i].0 == infos[i]
  {
    match (script, lang, font)
    case (Err(e), _, _) => Err(TagFailed(e))
    case (_, Err(e), _) => Err(TagFailed(e))
    case (_, _, Err(e)) => Err(FontFailed(e))
    case (Ok(_), Ok(_), Ok(None)) => Ok(NoSuitableCmap)
    case (Ok(s), Ok(l), Ok(Some(m))) =>
      match shape(s, l)
      case Err(e) => Err(ShapingFailed(e))
      case Ok(infos) =>
        match CalculateGlyphPositions(m, infos, vertical)
        case Err(f) => Err(PositioningFailed(f))
        case Ok(positions) => Ok(Printed(Zip(infos, positions)))
  }

  /** Once the font has a usable cmap, the run fails exactly when shaping
      fails or some shaped glyph does not fit the positioning pass, and
      otherwise each printed line carries the position the pass gives its
      glyph. */
  lemma PrintedPositions<E>(script: u32, lang: u32, m: Metrics, shape: (u32, u32) -> Result<seq<Info>, E>, vertical: bool)
    ensures var r := Main(Ok(script), Ok(lang), Ok(Some(m)), shape, vertical);
      && (r.Ok? <==> shape(script, lang).Ok? &&
                     forall i | 0 <= i < |shape(script, lang).value| :: Fits(m, shape(script, lang).value, vertical, i))
      && (r.Ok? ==> r.value.Printed?)
      && (shape(script, lang).Err? ==> r == Err(ShapingFailed(shape(script, lang).error)))
  {
  }

  /** Every printed line is placed as the positioning pass promises. */
  lemma PrintedLinesPlaced<E>(script: u32, lang: u32, m: Metrics, shape: (u32, u32) -> Result<seq<Info>, E>, vertical: bool)
    requires Main(Ok(script), Ok(lang), Ok(Some(m)), shape, vertical).Ok?
    ensures var lines := Main(Ok(script), Ok(lang), Ok(Some(m)), shape, vertical).value.lines;
      var infos := shape(script, lang).value;
      var positions := seq(|lines|, i requires 0 <= i < |lines| => lines[i].1);
      |positions| == |infos| && forall i | 0 <= i < |infos| :: PlacedAt(m, infos, vertical, positions, i)
  {
    var infos := shape(script, lang).value;
    var ps := CalculateGlyphPositions(m, infos, vertical).value;
    var lines := Main(Ok(script), Ok(lang), Ok(Some(m)), shape, vertical).value.lines;
    assert lines == Zip(infos, ps);
    assert seq(|lines|, i requires 0 <= i < |lines| => lines[i].1) == ps;
  }

  /** The exit code is 1 exactly when the font has no usable cmap sub-table. */
  lemma ExitCodeOne<E>(script: Result<u32, E>, lang: Result<u32, E>, font: Result<Option<Metrics>, E>,
                       shape: (u32, u32) -> Result<seq<Info>, E>, vertical: bool)
    requires Main(script, lang, font, shape, vertical).Ok?
    ensures ExitCode(Main(script, lang, font, shape, vertical).value) == 1 <==> font == Ok(None)
  {
  }
}

=== FILE: shape_tool.dfy ===
/** The stand-alone `shape` tool: four arguments (font, script, language,
    text), the script and language tags read from text, and the text mapped
    to glyphs through the font's cmap sub-table before GSUB is applied.
    Characters the sub-table does not map are dropped without a word. A
    collection shapes each of its fonts in turn. Reading the file, the cmap,
    GSUB and GDEF tables and applying GSUB belong to the font library; their
    outcomes are inputs. The tags are read with the corrected
    `Tags.TagFromString` (the tool's own copy never returns for a name
    shorter than four characters; see `Tags.TagFromStringAsWritten`). */
module ShapeTool {
  import opened Wrappers
  import opened Errors
  import opened Glyph
  import opened Tags

  /** The older library's glyph, as the tool builds it. */
  datatype ShapeGlyph = ShapeGlyph(
    unicodes: seq<char>,
    glyphIndex: Option<u16>,
    ligaComponentPos: nat,
    origin: GlyphOrigin,
    smallCaps: bool,
    multiSubstDup: bool,
    isVertAlt: bool)

  /** The cmap sub-table's lookup: a glyph index, none, or a read error. */
  type Lookup = char -> Result<Option<u16>, ParseError>

  /** `map_glyph`: the glyph of a character the sub-table maps. */
  function MapGlyph(cmap: Lookup, ch: char): (r: Result<Option<ShapeGlyph>, ParseError>)
    ensures r.Err? <==> cmap(ch).Err?
    ensures r.Ok? ==> (r.value.Some? <==> cmap(ch).value.Some?)
    ensures r.Ok? && r.value.Some? ==>
              var g := r.value.value;
              g.unicodes == [ch] && g.origin == Char(ch) && g.glyphIndex == Some(cmap(ch).value.value)
              && g.ligaComponentPos == 0 && !g.smallCaps && !g.multiSubstDup && !g.isVertAlt
  {
    var found :- cmap(ch);
    match found
    case None => Ok(None)
    case Some(gid) => Ok(Some(ShapeGlyph([ch], Some(gid), 0, Char(ch), false, false, false)))
  }

  /** `flatten`: the present values, in order. */
  function Present<T>(xs: seq<Option<T>>): (r: seq<T>)
    ensures |r| <= |xs|
  {
    if |xs| == 0 then []
    else if xs[0].Some? then [xs[0].value] + Present(xs[1..])
    else Present(xs[1..])
  }

  /** The glyphs handed to GSUB: every character mapped in order (the first
      lookup error aborts), then the unmapped ones dropped. */
  function TextGlyphs(cmap: Lookup, text: string): (r: Result<seq<ShapeGlyph>, ParseError>)
    ensures r.Ok? <==> forall k | 0 <= k < |text| :: cmap(text[k]).Ok?
    ensures r.Err? ==> exists k | 0 <= k < |text| ::
              cmap(text[k]) == Err(r.error) && forall j | 0 <= j < k :: cmap(text[j]).Ok?
  {
    var glyphs :- Collect(ch => MapGlyph(cmap, ch), text);
    Ok(Present(glyphs))
  }

  /** The characters the sub-table maps, in text order. */
  function Mapped(cmap: Lookup, text: string): (r: string)
    requires forall k | 0 <= k < |text| :: cmap(text[k]).Ok?
    ensures forall k | 0 <= k < |r| :: cmap(r[k]).Ok? && cmap(r[k]).value.Some?
  {
    if |text| == 0 then ""
    else if cmap(text[0]).value.Some? then [text[0]] + Mapped(cmap, text[1..])
    else Mapped(cmap, text[1..])
  }

  /** Nothing but the dropping happens: the glyphs stand one for one for the
      mapped characters, in text order, each with the sub-table's index for
      its character. */
  lemma {:induction false} TextGlyphsAreMappedChars(cmap: Lookup, text: string)
    requires forall k | 0 <= k < |text| :: cmap(text[k]).Ok?
    ensures TextGlyphs(cmap, text).Ok?
    ensures var glyphs := TextGlyphs(cmap, text).value;
            |glyphs| == |Mapped(cmap, text)|
            && forall k | 0 <= k < |glyphs| ::
                 glyphs[k].unicodes == [Mapped(cmap, text)[k]]
                 && glyphs[k].origin == Char(Mapped(cmap, text)[k])
                 && glyphs[k].glyphIndex == cmap(Mapped(cmap, text)[k]).value
    decreases |text|
  {
    var f := ch => MapGlyph(cmap, ch);
    if |text| > 0 {
      TextGlyphsAreMappedChars(cmap, text[1..]);
      var all := Collect(f, text).value;
      var rest := Collect(f, text[1..]).value;
      assert all == [f(text[0]).value] + rest by {
        assert |all| == 1 + |rest|;
        forall k | 0 <= k < |all| ensures all[k] == ([f(text[0]).value] + rest)[k] {
          if k > 0 {
            assert text[1..][k - 1] == text[k];
          }
        }
      }
      if f(text[0]).value.Some? {
        assert Present(all) == [f(text[0]).value.value] + Present(rest) by {
          assert all[1..] == rest;
        }
      } else {
        assert all[1..] == rest;
      }
    }
  }

  /** A character the sub-table does not map leaves no trace. */
  lemma UnmappedDropped(cmap: Lookup, text: string, ch: char)
    requires forall k | 0 <= k < |text| :: cmap(text[k]).Ok?
    requires cmap(ch) == Ok(None)
    ensures forall k | 0 <= k < |text| :: cmap((text + [ch])[k]).Ok?
    ensures TextGlyphs(cmap, text + [ch]) == TextGlyphs(cmap, text)
  {
    var f := ch => MapGlyph(cmap, ch);
    var t := text + [ch];
    assert forall k | 0 <= k < |t| :: cmap(t[k]).Ok? by {
      forall k | 0 <= k < |t| ensures cmap(t[k]).Ok? {
        if k < |text| { assert t[k] == text[k]; }
      }
    }
    var all := Collect(f, t).value;
    var front := Collect(f, text).value;
    assert all == front + [None] by {
      forall k | 0 <= k < |all| ensures all[k] == (front + [None])[k] {
        if k < |text| { assert t[k] == text[k]; }
      }
    }
    PresentAppendNone(front);
  }

  lemma {:induction false} PresentAppendNone<T>(xs: seq<Option<T>>)
    ensures Present(xs + [None]) == Present(xs)
    decreases |xs|
  {
    if |xs| == 0 {
      var one: seq<Option<T>> := [None];
      assert one[1..] == [];
    } else {
      assert (xs + [None])[1..] == xs[1..] + [None];
      PresentAppendNone(xs[1..]);
    }
  }

  /** `gsub_apply_default` over the glyphs: whether any substitution was
      made, with the glyphs afterwards, or a shaping error. */
  type Apply = seq<ShapeGlyph> -> Result<(bool, seq<ShapeGlyph>), ParseError>

  /** One font of the file as the library reads it. `cmap` is the outcome of
      `load_table`, `read::<Cmap>` and `read_cmap_subtable`: a read error, no
      cmap table, no suitable sub-table, or the sub-table's lookup. `gsub` is
      `None` when the font has no GSUB table, else the outcome of reading the
      GSUB table and then the optional GDEF table, giving the substitution to
      apply. */
  datatype Ttf = Ttf(
    cmap: Result<Option<Option<Lookup>>, ParseError>,
    gsub: Option<Result<Apply, ParseError>>)

  /** What `shape_ttf` reports for one font. */
  datatype FontOutcome =
    | NoCmapTable
    | NoSuitableSubtable
    | NoGsubTable(before: seq<ShapeGlyph>)
    | Substituted(before: seq<ShapeGlyph>, applied: bool, after: seq<ShapeGlyph>)

  /** `shape_ttf`: the cmap sub-table, the text's glyphs, then GSUB. The
      script and language only reach the substitution, which `font.gsub`
      stands for. */
  function ShapeTtf(font: Ttf, text: string): (r: Result<FontOutcome, ParseError>)
    ensures font.cmap.Err? ==> r == Err(font.cmap.error)
    ensures font.cmap.Ok? && font.cmap.value.None? ==> r == Ok(NoCmapTable)
    ensures font.cmap.Ok? && font.cmap.value == Some(None) ==> r == Ok(NoSuitableSubtable)
    ensures font.cmap.Ok? && font.cmap.value.Some? && font.cmap.value.value.Some? ==>
              var glyphs := TextGlyphs(font.cmap.value.value.value, text);
              && (glyphs.Err? ==> r == Err(glyphs.error))
              && (glyphs.Ok? && font.gsub.None? ==> r == Ok(NoGsubTable(glyphs.value)))
              && (glyphs.Ok? && font.gsub.Some? && font.gsub.value.Err? ==> r == Err(font.gsub.value.error))
              && (glyphs.Ok? && font.gsub.Some? && font.gsub.value.Ok? ==>
                    var applied := font.gsub.value.value(glyphs.value);
                    && (applied.Err? ==> r == Err(applied.error))
                    && (applied.Ok? ==> r == Ok(Substituted(glyphs.value, applied.value.0, applied.value.1))))
    ensures r.Ok? <==>
              && font.cmap.Ok?
              && (font.cmap.value.Some? && font.cmap.value.value.Some? ==>
                    && (forall k | 0 <= k < |text| :: font.cmap.value.value.value(text[k]).Ok?)
                    && (font.gsub.Some? ==>
                          && font.gsub.value.Ok?
                          && font.gsub.value.value(TextGlyphs(font.cmap.value.value.value, text).value).Ok?))
  {
    var table :- font.cmap;
    match table
    case None => Ok(NoCmapTable)
    case Some(None) => Ok(NoSuitableSubtable)
    case Some(Some(lookup)) =>
      var glyphs :- TextGlyphs(lookup, text);
      match font.gsub
      case None => Ok(NoGsubTable(glyphs))
      case Some(read) =>
        var apply :- read;
        var (applied, after) :- apply(glyphs);
        Ok(Substituted(glyphs, applied, after))
  }

  /** The glyphs GSUB starts from stand one for one for the characters the
      sub-table maps, in text order. */
  lemma GsubGetsMappedChars(font: Ttf, text: string)
    requires ShapeTtf(font, text).Ok?
    requires ShapeTtf(font, text).value.NoGsubTable? || ShapeTtf(font, text).value.Substituted?
    ensures font.cmap.Ok? && font.cmap.value.Some? && font.cmap.value.value.Some?
    ensures var lookup := font.cmap.value.value.value;
            && (forall k | 0 <= k < |text| :: lookup(text[k]).Ok?)
            && var before := ShapeTtf(font, text).value.before;
               |before| == |Mapped(lookup, text)|
               && forall k | 0 <= k < |before| ::
                    before[k].unicodes == [Mapped(lookup, text)[k]]
                    && before[k].glyphIndex == lookup(Mapped(lookup, text)[k]).value
  {
    TextGlyphsAreMappedChars(font.cmap.value.value.value, text);
  }

  /** One entry of a collection: its offset table is read, then the font is
      shaped. */
  function ShapeEntry(entry: Result<Ttf, ParseError>, text: string): (r: Result<FontOutcome, ParseError>)
    ensures entry.Err? ==> r == Err(entry.error)
    ensures entry.Ok? ==> r == ShapeTtf(entry.value, text)
  {
    var font :- entry;
    ShapeTtf(font, text)
  }

  /** `shape_ttc`: every font of the collection in order, stopping at the
      first one that fails. */
  function ShapeTtc(fonts: seq<Result<Ttf, ParseError>>, text: string): (r: Result<seq<FontOutcome>, ParseError>)
    ensures r.Ok? <==> forall k | 0 <= k < |fonts| :: ShapeEntry(fonts[k], text).Ok?
    ensures r.Ok? ==> |r.value| == |fonts| && forall k | 0 <= k < |fonts| :: r.value[k] == ShapeEntry(fonts[k], text).value
    ensures r.Err? ==> exists k | 0 <= k < |fonts| ::
              (forall j | 0 <= j < k :: ShapeEntry(fonts[j], text).Ok?) && ShapeEntry(fonts[k], text) == Err(r.error)
  {
    Collect(entry => ShapeEntry(entry, text), fonts)
  }

  /** The font file: one font, or a collection whose entries each either
      read or fail. */
  datatype FontFile = Single(font: Ttf) | Collection(fonts: seq<Result<Ttf, ParseError>>)

  /** What a run of the tool comes to: the usage, or the tags and what each
      font reported. */
  datatype Outcome =
    | Usage
    | Ran(script: u32, lang: u32, fonts: seq<FontOutcome>)

  /** `main`: exactly four arguments after the program name, else the usage;
      the script and language tags; then the font file, whose reading and
      parsing is `file`; then every font in it. */
  function Main(args: seq<string>, file: Result<FontFile, ParseError>): (r: Result<Outcome, ParseError>)
    ensures |args| != 5 ==> r == Ok(Usage)
    ensures |args| == 5 && TagFromString(args[2]).Err? ==> r == Err(BadValue)
    ensures |args| == 5 && TagFromString(args[2]).Ok? && TagFromString(args[3]).Err? ==> r == Err(BadValue)
    ensures r.Ok? && r.value.Ran? ==>
              |args| == 5 && TagFromString(args[2]) == Ok(r.value.script) && TagFromString(args[3]) == Ok(r.value.lang)
    ensures |args| == 5 && TagFromString(args[2]).Ok? && TagFromString(args[3]).Ok? ==>
              && (file.Err? ==> r == Err(file.error))
              && (file.Ok? && file.value.Single? ==>
                    var one := ShapeTtf(file.value.font, args[4]);
                    && (r.Ok? <==> one.Ok?)
                    && (r.Ok? ==> r.value.Ran? && r.value.fonts == [one.value])
                    && (r.Err? ==> r.error == one.error))
              && (file.Ok? && file.value.Collection? ==>
                    var all := ShapeTtc(file.value.fonts, args[4]);
                    && (r.Ok? <==> all.Ok?)
                    && (r.Ok? ==> r.value.Ran? && r.value.fonts == all.value)
                    && (r.Err? ==> r.error == all.error))
  {
    if |args| != 5 then Ok(Usage)
    else
      var script :- TagFromString(args[2]);
      var lang :- TagFromString(args[3]);
      var f :- file;
      match f
      case Single(font) =>
        var one :- ShapeTtf(font, args[4]);
        Ok(Ran(script, lang, [one]))
      case Collection(fonts) =>
        var all :- ShapeTtc(fonts, args[4]);
        Ok(Ran(script, lang, all))
  }

  /** A single font and a collection holding only that font give the same
      run. */
  lemma SingleAsCollection(args: seq<string>, font: Ttf)
    ensures Main(args, Ok(Single(font))) == Main(args, Ok(Collection([Ok(font)])))
  {
    if |args| == 5 && TagFromString(args[2]).Ok? && TagFromString(args[3]).Ok? {
      var fonts: seq<Result<Ttf, ParseError>> := [Ok(font)];
      var one := ShapeTtf(font, args[4]);
      var all := ShapeTtc(fonts, args[4]);
      assert ShapeEntry(fonts[0], args[4]) == one;
      if one.Ok? {
        assert all.Ok? && all.value == [one.value];
      } else {
        assert all.Err? && all.error == one.error;
      }
    }
  }

  /** A collection stops at its first failing font: fonts after it are never
      consulted. */
  lemma CollectionStopsAtFailure(args: seq<string>, fonts: seq<Result<Ttf, ParseError>>, k: nat, later: seq<Result<Ttf, ParseError>>)
    requires |args| == 5 && k < |fonts|
    requires ShapeEntry(fonts[k], args[4]).Err?
    ensures Main(args, Ok(Collection(fonts[..k + 1] + later))).Err?
    ensures Main(args, Ok(Collection(fonts[..k + 1] + later))) == Main(args, Ok(Collection(fonts[..k + 1])))
  {
    var text := args[4];
    var f := entry => ShapeEntry(entry, text);
    var head := fonts[..k + 1];
    if TagFromString(args[2]).Ok? && TagFromString(args[3]).Ok? {
      CollectPrefix(f, head, later);
    }
  }

  /** Once some item of `xs` fails, what follows it does not matter. */
  lemma {:induction false} CollectPrefix<A, G, E>(f: A -> Result<G, E>, xs: seq<A>, ys: seq<A>)
    requires exists k | 0 <= k < |xs| :: f(xs[k]).Err?
    ensures Collect(f, xs + ys) == Collect(f, xs)
    decreases |xs|
  {
    if f(xs[0]).Err? {
    } else {
      assert (xs + ys)[1..] == xs[1..] + ys;
      var k :| 0 <= k < |xs| && f(xs[k]).Err?;
      assert xs[1..][k - 1] == xs[k];
      CollectPrefix(f, xs[1..], ys);
    }
  }
}

=== FILE: style.dfy ===
/** The two option parsers of the drawing tool: `--margin` (one number for
    all sides, or four numbers in CSS order) and the `RRGGBBAA` colours, with
    the `#rrggbb` form colours are written out in. */
module Style {
  import opened Wrappers
  import opened Text

  // ---------------------------------------------------------------------
  // Margin

  /** Top, right, bottom and left, as in CSS. The numbers are whatever the
      number parser returns for each part. */
  datatype Margin = Margin(top: real, right: real, bottom: real, left: real)

  datatype MarginError = NotANumber(part: string) | WrongCount(count: nat)

  /** Parse every part in order, stopping at the first that is not a number. */
  function ParseAll(parts: seq<string>, parse: string -> Option<real>): (r: Result<seq<real>, MarginError>)
    ensures r.Ok? <==> forall k | 0 <= k < |parts| :: parse(parts[k]).Some?
    ensures r.Ok? ==> |r.value| == |parts| && forall k | 0 <= k < |parts| :: r.value[k] == parse(parts[k]).value
    ensures r.Err? ==> exists k | 0 <= k < |parts| ::
      r.error == NotANumber(parts[k]) && parse(parts[k]).None? && forall j | 0 <= j < k :: parse(parts[j]).Some?
  {
    if |parts| == 0 then Ok([])
    else
      match parse(parts[0])
      case None => Err(NotANumber(parts[0]))
      case Some(v) =>
        var rest := ParseAll(parts[1..], parse);
        if rest.Err? then
          var k :| 0 <= k < |parts[1..]| && rest.error == NotANumber(parts[1..][k])
            && parse(parts[1..][k]).None? && forall j | 0 <= j < k :: parse(parts[1..][j]).Some?;
          assert parts[1..][k] == parts[k + 1];
          Err(rest.error)
        else
          Ok([v] + rest.value)
  }

  /** `Margin::from_str`: the comma-separated parts must all be numbers, and
      there must be one of them (all four sides) or four (top, right, bottom,
      left); any other count is an error naming the count. */
  function MarginFromStr(s: string, parse: string -> Option<real>): (r: Result<Margin, MarginError>)
    ensures var parts := Split(s, ',');
      r.Ok? <==> (|parts| == 1 || |parts| == 4) && forall k | 0 <= k < |parts| :: parse(parts[k]).Some?
    ensures var parts := Split(s, ',');
      r.Ok? && |parts| == 4 ==>
        r.value == Margin(parse(parts[0]).value, parse(parts[1]).value, parse(parts[2]).value, parse(parts[3]).value)
    ensures var parts := Split(s, ',');
      r.Ok? && |parts| == 1 ==>
        var v := parse(s).value; r.value == Margin(v, v, v, v)
    ensures r.Err? && r.error.WrongCount? ==> r.error.count == Count(s, ',') + 1
  {
    var parts := Split(s, ',');
    var values :- ParseAll(parts, parse);
    if |values| == 1 then
      assert Join(parts, ',') == parts[0];
      Ok(Margin(values[0], values[0], values[0], values[0]))
    else if |values| == 4 then
      Ok(Margin(values[0], values[1], values[2], values[3]))
    else
      Err(WrongCount(|values|))
  }

  /** Four numbers written with commas between them read back as the four sides, in order. */
  lemma MarginRoundTrip(top: string, right: string, bottom: string, left: string, parse: string -> Option<real>)
    requires ',' !in top && ',' !in right && ',' !in bottom && ',' !in left
    requires parse(top).Some? && parse(right).Some? && parse(bottom).Some? && parse(left).Some?
    ensures MarginFromStr(Join([top, right, bottom, left], ','), parse)
         == Ok(Margin(parse(top).value, parse(right).value, parse(bottom).value, parse(left).value))
  {
    SplitJoin([top, right, bottom, left], ',');
  }

  /** One number sets every side. */
  lemma MarginSingle(num: string, parse: string -> Option<real>)
    requires ',' !in num && parse(num).Some?
    ensures MarginFromStr(num, parse) == Ok(Margin(parse(num).value, parse(num).value, parse(num).value, parse(num).value))
  {
    SplitNoSeparator(num, ',');
  }

  // ---------------------------------------------------------------------
  // Colour

  datatype Colour = Colour(r: u8, g: u8, b: u8, a: u8)

  datatype ColourError =
    | WrongLength        // not eight bytes
    | NotHex(text: string)
    | InvalidUtf8        // a byte pair that is not UTF-8 text
    | Panic              // `unwrap` on such a pair

  /** `std::str::from_utf8` on a two-byte chunk: two ASCII bytes, or one
      two-byte character; anything else is not UTF-8. */
  function DecodePair(pair: seq<u8>): (r: Option<string>)
    requires |pair| == 2
    ensures r.Some? ==> Utf8(r.value) == pair
  {
    var b0: int := pair[0];
    var b1: int := pair[1];
    if b0 < 0x80 && b1 < 0x80 then
      assert Utf8([b0 as char, b1 as char]) == [b0] + Utf8([b1 as char]);
      Some([b0 as char, b1 as char])
    else if 0xC2 <= b0 <= 0xDF && 0x80 <= b1 <= 0xBF then
      var v: int := (b0 - 0xC0) * 0x40 + (b1 - 0x80);
      assert Utf8([v as char]) == Utf8Char(v as char);
      Some([v as char])
    else None
  }

  /** `u8::from_str_radix(text, 16)`. */
  function HexByte(text: string): (r: Option<u8>)
    ensures r.Some? <==> ParseUnsigned(text, 16, 0x100).Some?
    ensures r.Some? ==> r.value == ParseUnsigned(text, 16, 0x100).value
  {
    match ParseUnsigned(text, 16, 0x100)
    case Some(v) => Some(v)
    case None => None
  }

  function Pair(bytes: seq<u8>, k: nat): (pair: seq<u8>)
    requires |bytes| == 8 && k < 4
    ensures |pair| == 2 && pair == bytes[2 * k..2 * k + 2]
  {
    bytes[2 * k..2 * k + 2]
  }

  /** The value of pair `k`, or the failure it causes. `panics` selects the
      code as written, which unwraps the UTF-8 conversion. */
  function PairResult(bytes: seq<u8>, k: nat, panics: bool): (r: Result<u8, ColourError>)
    requires |bytes| == 8 && k < 4
    ensures r.Err? && r.error == Panic <==> panics && DecodePair(Pair(bytes, k)).None?
    ensures r.Err? && r.error == InvalidUtf8 <==> !panics && DecodePair(Pair(bytes, k)).None?
    ensures r.Ok? <==> DecodePair(Pair(bytes, k)).Some? && HexByte(DecodePair(Pair(bytes, k)).value).Some?
  {
    match DecodePair(Pair(bytes, k))
    case None => Err(if panics then Panic else InvalidUtf8)
    case Some(text) =>
      match HexByte(text)
      case None => Err(NotHex(text))
      case Some(v) => Ok(v)
  }

  /** The shared body of both versions: eight bytes, four pairs, the first
      failing pair decides the error. */
  function ParseColour(s: string, panics: bool): (r: Result<Colour, ColourError>)
    ensures r.Err? && r.error.WrongLength? <==> Utf8Len(s) != 8
    ensures r.Ok? <==> (Utf8Len(s) == 8
      && PairResult(Utf8(s), 0, panics).Ok? && PairResult(Utf8(s), 1, panics).Ok?
      && PairResult(Utf8(s), 2, panics).Ok? && PairResult(Utf8(s), 3, panics).Ok?)
    ensures r.Ok? ==> r.value == Colour(PairResult(Utf8(s), 0, panics).value, PairResult(Utf8(s), 1, panics).value,
                                         PairResult(Utf8(s), 2, panics).value, PairResult(Utf8(s), 3, panics).value)
  {
    var bytes := Utf8(s);
    if |bytes| != 8 then Err(WrongLength)
    else
      var p0 := PairResult(bytes, 0, panics);
      var p1 := PairResult(bytes, 1, panics);
      var p2 := PairResult(bytes, 2, panics);
      var p3 := PairResult(bytes, 3, panics);
      if p0.Err? then Err(p0.error)
      else if p1.Err? then Err(p1.error)
      else if p2.Err? then Err(p2.error)
      else if p3.Err? then Err(p3.error)
      else Ok(Colour(p0.value, p1.value, p2.value, p3.value))
  }

  /** `Colour::from_str` as written: a chunk that is not UTF-8 panics. */
  function ColourFromStrAsWritten(s: string): (r: Result<Colour, ColourError>)
    ensures r.Err? && r.error == Panic ==> Utf8Len(s) == 8
    ensures r.Err? && r.error == InvalidUtf8 ==> false
  {
    ParseColour(s, true)
  }

  /** `Colour::from_str` returning an error for such a chunk instead. */
  function ColourFromStr(s: string): (r: Result<Colour, ColourError>)
    ensures r.Err? ==> r.error != Panic
    ensures r.Err? && r.error.WrongLength? <==> Utf8Len(s) != 8
    ensures ColourFromStrAsWritten(s).Err? && ColourFromStrAsWritten(s).error == Panic ==> r == Err(InvalidUtf8)
    ensures !(ColourFromStrAsWritten(s).Err? && ColourFromStrAsWritten(s).error == Panic) ==> r == ColourFromStrAsWritten(s)
  {
    ParseColour(s, false)
  }

  /** Eight bytes of which the first pair splits a two-byte character: the
      code as written panics where an error was evidently meant. */
  lemma AsWrittenPanicsOnSplitCharacter()
    ensures Utf8Len("aéééb") == 8
    ensures ColourFromStrAsWritten("aéééb") == Err(Panic)
    ensures ColourFromStr("aéééb") == Err(InvalidUtf8)
  {
    var s := "aéééb";
    assert Utf8(s) == [0x61, 0xC3, 0xA9, 0xC3, 0xA9, 0xC3, 0xA9, 0x62];
  }

  /** `{:02x}`: two lower-case hex digits. */
  function Hex2(v: u8): (h: string)
    ensures |h| == 2 && IsAscii(h)
  {
    TwoHexDigits(v);
    Hex(v, 2, false)
  }

  lemma TwoHexDigits(v: u8)
    ensures |Hex(v, 2, false)| == 2 && IsAscii(Hex(v, 2, false))
  {
    assert Pow(16, 2) == 0x100 by {
      assert Pow(16, 1) == 16;
    }
    HexWidth(v, 2, false);
    DigitsAscii(Hex(v, 2, false), 16);
  }

  /** The two digits read back as the byte. */
  lemma Hex2RoundTrip(v: u8)
    ensures HexByte(Hex2(v)) == Some(v)
  {
    ParseHex(v, 2, false, 0x100);
  }

  /** `Colour`'s `Display`: `#` and the red, green and blue bytes as two
      hex digits each; alpha is not written. */
  function ColourText(c: Colour): (s: string)
    ensures |s| == 7 && s[0] == '#'
    ensures s[1..3] == Hex2(c.r) && s[3..5] == Hex2(c.g) && s[5..7] == Hex2(c.b)
  {
    var (hr, hg, hb) := (Hex2(c.r), Hex2(c.g), Hex2(c.b));
    ThreePairs(hr, hg, hb);
    "#" + hr + hg + hb
  }

  lemma ThreePairs(a: string, b: string, c: string)
    requires |a| == 2 && |b| == 2 && |c| == 2
    ensures var s := "#" + a + b + c;
      |s| == 7 && s[0] == '#' && s[1..3] == a && s[3..5] == b && s[5..7] == c
  {
    var s := "#" + a + b + c;
    assert s[1..3] == a && s[3..5] == b && s[5..7] == c;
  }

  /** Each digit pair of the written colour reads back as its channel. */
  lemma ColourTextChannels(c: Colour)
    ensures HexByte(ColourText(c)[1..3]) == Some(c.r)
    ensures HexByte(ColourText(c)[3..5]) == Some(c.g)
    ensures HexByte(ColourText(c)[5..7]) == Some(c.b)
  {
    Hex2RoundTrip(c.r);
    Hex2RoundTrip(c.g);
    Hex2RoundTrip(c.b);
  }

  /** In an ASCII string of eight bytes each pair of bytes is two characters. */
  lemma AsciiPair(s: string, k: nat)
    requires |s| == 8 && IsAscii(s) && k < 4
    ensures Utf8Len(s) == 8
    ensures DecodePair(Pair(Utf8(s), k)) == Some(s[2 * k..2 * k + 2])
  {
    AsciiUtf8(s);
    assert Pair(Utf8(s), k) == [s[2 * k] as int, s[2 * k + 1] as int];
    assert s[2 * k..2 * k + 2] == [s[2 * k], s[2 * k + 1]];
  }

  /** Eight ASCII characters whose pairs are hex bytes parse as those bytes. */
  lemma ParseAsciiColour(s: string, c: Colour)
    requires |s| == 8 && IsAscii(s)
    requires HexByte(s[0..2]) == Some(c.r) && HexByte(s[2..4]) == Some(c.g)
    requires HexByte(s[4..6]) == Some(c.b) && HexByte(s[6..8]) == Some(c.a)
    ensures ColourFromStr(s) == Ok(c)
  {
    AsciiPair(s, 0);
    AsciiPair(s, 1);
    AsciiPair(s, 2);
    AsciiPair(s, 3);
  }

  lemma AsciiConcat(a: string, b: string)
    requires IsAscii(a) && IsAscii(b)
    ensures IsAscii(a + b)
  {
    assert forall i | |a| <= i < |a + b| :: (a + b)[i] == b[i - |a|];
  }

  /** Four two-character strings put together, and their pairs taken apart again. */
  lemma Quarters(q0: string, q1: string, q2: string, q3: string)
    requires |q0| == 2 && |q1| == 2 && |q2| == 2 && |q3| == 2
    ensures var s := q0 + q1 + q2 + q3;
      |s| == 8 && s[0..2] == q0 && s[2..4] == q1 && s[4..6] == q2 && s[6..8] == q3
  {
  }

  /** Eight lower-case hex digits parse back to the colour they spell. */
  lemma HexRoundTrip(c: Colour)
    ensures ColourFromStr(Hex2(c.r) + Hex2(c.g) + Hex2(c.b) + Hex2(c.a)) == Ok(c)
  {
    var (hr, hg, hb, ha) := (Hex2(c.r), Hex2(c.g), Hex2(c.b), Hex2(c.a));
    AsciiConcat(hr, hg);
    AsciiConcat(hr + hg, hb);
    AsciiConcat(hr + hg + hb, ha);
    Quarters(hr, hg, hb, ha);
    Hex2RoundTrip(c.r);
    Hex2RoundTrip(c.g);
    Hex2RoundTrip(c.b);
    Hex2RoundTrip(c.a);
    ParseAsciiColour(hr + hg + hb + ha, c);
  }

  lemma Thirds(t: string)
    requires |t| == 7
    ensures t[1..] == t[1..3] + t[3..5] + t[5..7]
  {
  }

  /** The written colour followed by the alpha digits parses back to the colour. */
  lemma ColourRoundTrip(c: Colour)
    ensures ColourFromStr(ColourText(c)[1..] + Hex2(c.a)) == Ok(c)
  {
    var t := ColourText(c);
    Thirds(t);
    HexRoundTrip(c);
  }

  /** `from_str_radix` takes a leading `+`, so a colour may be spelled with
      one in front of each single digit. */
  lemma SignedDigitsAccepted()
    ensures ColourFromStr("+f+f+f+f") == Ok(Colour(15, 15, 15, 15))
  {
    var s := "+f+f+f+f";
    assert HexByte("+f") == Some(15) by {
      assert "+f"[1..] == "f" && "f"[..0] == [];
      assert DigitValue('f', 16) == Some(15);
      assert DigitsValue("f", 16) == 15;
    }
    Quarters("+f", "+f", "+f", "+f");
    assert IsAscii(s);
    ParseAsciiColour(s, Colour(15, 15, 15, 15));
  }
}

=== FILE: subset.dfy ===
/** The `subset` subcommand's choice of glyphs: the characters of a text
    mapped through the font's cmap, `.notdef` added, sorted and
    deduplicated; or every glyph of the font. Writing the subset font is
    the font library's business and is not modelled. */
module Subset {
  import opened Wrappers
  import opened Glyph

  // ---------------------------------------------------------------------
  // Sorting and deduplicating glyph ids

  predicate Sorted(s: seq<u16>) {
    forall i, j :: 0 <= i < j < |s| ==> s[i] <= s[j]
  }

  predicate StrictlyIncreasing(s: seq<u16>) {
    forall i, j :: 0 <= i < j < |s| ==> s[i] < s[j]
  }

  /** `x` put in its place in a sorted sequence. */
  function Insert(x: u16, s: seq<u16>): (r: seq<u16>)
    requires Sorted(s)
    ensures Sorted(r) && multiset(r) == multiset(s) + multiset{x}
  {
    if s == [] || x <= s[0] then
      SortedCons(x, s);
      [x] + s
    else
      var rest := Insert(x, s[1..]);
      assert s == [s[0]] + s[1..];
      assert forall k :: 0 <= k < |rest| ==> s[0] <= rest[k] by {
        forall k | 0 <= k < |rest|
          ensures s[0] <= rest[k]
        {
          assert rest[k] in multiset(rest);
        }
      }
      SortedCons(s[0], rest);
      [s[0]] + rest
  }

  /** A sorted sequence stays sorted with an element no greater than any of it in front. */
  lemma SortedCons(x: u16, s: seq<u16>)
    requires Sorted(s) && forall k :: 0 <= k < |s| ==> x <= s[k]
    ensures Sorted([x] + s)
  {
    var r := [x] + s;
    forall i, j | 0 <= i < j < |r|
      ensures r[i] <= r[j]
    {
      if i > 0 {
        assert r[i] == s[i - 1] && r[j] == s[j - 1];
      } else {
        assert r[j] == s[j - 1];
      }
    }
  }

  /** `slice::sort`: the same ids in ascending order. */
  function Sort(s: seq<u16>): (r: seq<u16>)
    ensures Sorted(r) && multiset(r) == multiset(s)
  {
    if s == [] then []
    else
      assert s == s[..|s| - 1] + [s[|s| - 1]];
      Insert(s[|s| - 1], Sort(s[..|s| - 1]))
  }

  /** `Vec::dedup`: runs of equal ids collapsed into one. */
  function Dedup(s: seq<u16>): (r: seq<u16>)
    ensures forall x :: x in r <==> x in s
    ensures |s| > 0 ==> |r| > 0 && r[0] == s[0]
    ensures Sorted(s) ==> StrictlyIncreasing(r)
  {
    if |s| <= 1 then s
    else if s[0] == s[1] then Dedup(s[1..])
    else
      var rest := Dedup(s[1..]);
      assert Sorted(s) ==> forall k :: 0 <= k < |rest| ==> s[0] < rest[k] by {
        if Sorted(s) {
          forall k | 0 <= k < |rest|
            ensures s[0] < rest[k]
          {
            assert rest[k] in s[1..];
          }
        }
      }
      [s[0]] + rest
  }

  /** Sorting then deduplicating gives a strictly increasing sequence of
      exactly the ids given. */
  function SortDedup(s: seq<u16>): (r: seq<u16>)
    ensures StrictlyIncreasing(r)
    ensures forall x :: x in r <==> x in s
  {
    var sorted := Sort(s);
    assert forall x :: x in sorted <==> x in s by {
      forall x
        ensures x in sorted <==> x in s
      {
        assert x in sorted <==> x in multiset(sorted);
        assert x in s <==> x in multiset(s);
      }
    }
    Dedup(sorted)
  }

  /** A strictly increasing sequence is determined by its elements: so the
      result of sorting and deduplicating does not depend on how it is
      computed, nor on the order of the input. */
  lemma {:induction false} IncreasingUnique(a: seq<u16>, b: seq<u16>)
    requires StrictlyIncreasing(a) && StrictlyIncreasing(b)
    requires forall x :: x in a <==> x in b
    ensures a == b
  {
    EmptyTogether(a, b);
    if a != [] {
      FirstIsLeast(a, b[0]);
      FirstIsLeast(b, a[0]);
      forall x
        ensures x in a[1..] <==> x in b[1..]
      {
        if x in a[1..] {
          assert x > a[0] && x in b;
        }
        if x in b[1..] {
          assert x > b[0] && x in a;
        }
      }
      IncreasingUnique(a[1..], b[1..]);
      assert a == [a[0]] + a[1..] && b == [b[0]] + b[1..];
    }
  }

  /** Two sequences with the same elements are empty together. */
  lemma EmptyTogether(a: seq<u16>, b: seq<u16>)
    requires forall x :: x in a <==> x in b
    ensures a == [] <==> b == []
  {
    if a != [] {
      assert a[0] in b;
    }
    if b != [] {
      assert b[0] in a;
    }
  }

  /** The first element of an increasing sequence is its least. */
  lemma FirstIsLeast(s: seq<u16>, x: u16)
    requires StrictlyIncreasing(s) && x in s
    ensures s[0] <= x
  {
    var i :| 0 <= i < |s| && s[i] == x;
    if i > 0 {
      assert s[0] < s[i];
    }
  }

  /** The order of the input makes no difference. */
  lemma SortDedupPermutation(s: seq<u16>, t: seq<u16>)
    requires multiset(s) == multiset(t)
    ensures SortDedup(s) == SortDedup(t)
  {
    forall x
      ensures x in SortDedup(s) <==> x in SortDedup(t)
    {
      assert x in s <==> x in multiset(s);
      assert x in t <==> x in multiset(t);
    }
    IncreasingUnique(SortDedup(s), SortDedup(t));
  }

  // ---------------------------------------------------------------------
  // Characters to glyphs

  /** Why `subset` stops before the subsetter: a character the cmap
      sub-table cannot read, no usable cmap sub-table ("no suitable cmap
      sub-table found"), no glyph left to keep, or a font without a `maxp`
      table, which is a panic (`expect("no maxp table")`). */
  datatype SubsetError<E> = CmapFailed(error: E) | NoSuitableSubtable | NoGlyphsLeft | NoMaxpPanic

  /** `chars_to_glyphs`: `glyph::map` applied to every character, with no
      variation selector, through the cmap sub-table `read_cmap_subtable`
      picked; `None` when it found none. */
  function CharsToGlyphs<E>(subtable: Option<char -> Result<Option<u16>, E>>, text: string)
    : (r: Result<seq<Option<RawGlyph>>, SubsetError<E>>)
    ensures subtable.None? ==> r == Err(NoSuitableSubtable)
    ensures subtable.Some? ==> (r.Ok? <==> forall k :: 0 <= k < |text| ==> subtable.value(text[k]).Ok?)
    ensures r.Ok? ==> subtable.Some? && |r.value| == |text|
    ensures r.Ok? ==> forall k :: 0 <= k < |text| ==>
                        (r.value[k].Some? <==> subtable.value(text[k]).value.Some?) &&
                        (r.value[k].Some? ==> r.value[k].value == Make(text[k], subtable.value(text[k]).value.value, None))
    ensures subtable.Some? && r.Err? ==>
              exists k :: 0 <= k < |text| && (forall j :: 0 <= j < k ==> subtable.value(text[j]).Ok?)
                          && subtable.value(text[k]).Err? && r == Err(CmapFailed(subtable.value(text[k]).error))
  {
    match subtable
    case None => Err(NoSuitableSubtable)
    case Some(cmap) =>
      match Collect(ch => Map(cmap, ch, None), text)
      case Err(e) => Err(CmapFailed(e))
      case Ok(glyphs) => Ok(glyphs)
  }

  // ---------------------------------------------------------------------
  // Choosing the ids

  /** The glyph the subset always keeps: `.notdef`, glyph 0. */
  const Notdef := RawGlyph([], 0, 0, Direct, false, false, false, false, false, None)

  /** The ids of the glyphs that are present, in order (`flatten` then `map`). */
  function PresentIds(glyphs: seq<Option<RawGlyph>>): (ids: seq<u16>)
    ensures forall x :: x in ids <==> exists k :: 0 <= k < |glyphs| && glyphs[k].Some? && glyphs[k].value.glyphIndex == x
  {
    if glyphs == [] then []
    else
      var last := glyphs[|glyphs| - 1];
      var init := glyphs[..|glyphs| - 1];
      var ids := PresentIds(init) + (if last.Some? then [last.value.glyphIndex] else []);
      assert forall k :: 0 <= k < |init| ==> init[k] == glyphs[k];
      ids
  }

  /** Putting `.notdef` first adds glyph 0 to the present ids. */
  lemma PresentWithNotdef(glyphs: seq<Option<RawGlyph>>)
    ensures forall x :: x in PresentIds([Some(Notdef)] + glyphs) <==>
              x == 0 || exists k :: 0 <= k < |glyphs| && glyphs[k].Some? && glyphs[k].value.glyphIndex == x
  {
    var all := [Some(Notdef)] + glyphs;
    assert all[0] == Some(Notdef);
    assert forall k :: 0 <= k < |glyphs| ==> all[k + 1] == glyphs[k];
    forall x | x in PresentIds(all) && x != 0
      ensures exists k :: 0 <= k < |glyphs| && glyphs[k].Some? && glyphs[k].value.glyphIndex == x
    {
      var k :| 0 <= k < |all| && all[k].Some? && all[k].value.glyphIndex == x;
      assert glyphs[k - 1] == all[k];
    }
  }

  /** The smallest id leads a strictly increasing sequence that holds it. */
  lemma ZeroFirst(ids: seq<u16>)
    requires StrictlyIncreasing(ids) && 0 in ids
    ensures ids[0] == 0
  {
    FirstIsLeast(ids, 0);
  }

  /** `subset_text`'s glyph ids for the mapped characters: `.notdef` and every
      mapped glyph, ascending, without repeats. The empty case, reported as
      "no glyphs left in font", cannot happen. */
  function TextIds<E>(glyphs: seq<Option<RawGlyph>>): (r: Result<seq<u16>, SubsetError<E>>)
    ensures r.Ok?
    ensures r.Ok? ==> StrictlyIncreasing(r.value) && |r.value| > 0 && r.value[0] == 0
    ensures r.Ok? ==> forall x :: x in r.value <==>
              x == 0 || exists k :: 0 <= k < |glyphs| && glyphs[k].Some? && glyphs[k].value.glyphIndex == x
  {
    var ids := SortDedup(PresentIds([Some(Notdef)] + glyphs));
    PresentWithNotdef(glyphs);
    assert 0 in ids;
    if ids == [] then Err(NoGlyphsLeft)
    else
      ZeroFirst(ids);
      Ok(ids)
  }

  /** `subset_text` up to the call into the subsetter. */
  function SubsetText<E>(subtable: Option<char -> Result<Option<u16>, E>>, text: string)
    : (r: Result<seq<u16>, SubsetError<E>>)
    ensures subtable.None? ==> r == Err(NoSuitableSubtable)
    ensures subtable.Some? ==> (r.Ok? <==> forall k :: 0 <= k < |text| ==> subtable.value(text[k]).Ok?)
    ensures subtable.Some? && r.Err? ==>
              exists k :: 0 <= k < |text| && (forall j :: 0 <= j < k ==> subtable.value(text[j]).Ok?)
                          && subtable.value(text[k]).Err? && r == Err(CmapFailed(subtable.value(text[k]).error))
    ensures r.Ok? ==> subtable.Some? && StrictlyIncreasing(r.value) && |r.value| > 0 && r.value[0] == 0
    ensures r.Ok? ==> forall x :: x in r.value <==>
              x == 0 || exists k :: 0 <= k < |text| && subtable.value(text[k]) == Ok(Some(x))
  {
    match CharsToGlyphs(subtable, text)
    case Err(e) => Err(e)
    case Ok(glyphs) =>
      var cmap := subtable.value;
      var r := TextIds(glyphs);
      assert forall x :: (exists k :: 0 <= k < |glyphs| && glyphs[k].Some? && glyphs[k].value.glyphIndex == x)
                         <==> (exists k :: 0 <= k < |text| && cmap(text[k]) == Ok(Some(x))) by {
        forall x
          ensures (exists k :: 0 <= k < |glyphs| && glyphs[k].Some? && glyphs[k].value.glyphIndex == x)
                  <==> (exists k :: 0 <= k < |text| && cmap(text[k]) == Ok(Some(x)))
        {
          if exists k :: 0 <= k < |text| && cmap(text[k]) == Ok(Some(x)) {
            var k :| 0 <= k < |text| && cmap(text[k]) == Ok(Some(x));
            assert glyphs[k].Some? && glyphs[k].value.glyphIndex == x;
          }
        }
      }
      r
  }

  /** `subset_all`: every glyph of the font, `0..num_glyphs`. */
  function AllIds(numGlyphs: u16): (ids: seq<u16>)
    ensures |ids| == numGlyphs && forall k :: 0 <= k < numGlyphs ==> ids[k] == k
  {
    if numGlyphs == 0 then [] else AllIds(numGlyphs - 1) + [numGlyphs - 1]
  }

  /** The full range is already in the form `subset_text` produces. */
  lemma AllIdsCanonical(numGlyphs: u16)
    ensures StrictlyIncreasing(AllIds(numGlyphs))
    ensures SortDedup(AllIds(numGlyphs)) == AllIds(numGlyphs)
  {
    IncreasingUnique(SortDedup(AllIds(numGlyphs)), AllIds(numGlyphs));
  }

  // ---------------------------------------------------------------------
  // The command

  datatype Selection = TextSelection(text: string) | AllSelection

  /** The option check in `main`: `--text` wins over `--all`; with neither
      there is nothing to subset and the exit code is 1. */
  function Select(text: Option<string>, all: bool): (r: Option<Selection>)
    ensures r.None? <==> text.None? && !all
    ensures text.Some? ==> r == Some(TextSelection(text.value))
    ensures text.None? && all ==> r == Some(AllSelection)
  {
    if text.None? && !all then None
    else if text.Some? then Some(TextSelection(text.value))
    else Some(AllSelection)
  }

  /** The exit code of `main` when the font reads and subsets without error. */
  function ExitCode(text: Option<string>, all: bool): (code: int)
    ensures code == 1 <==> Select(text, all).None?
    ensures code == 0 || code == 1
  {
    if Select(text, all).None? then 1 else 0
  }

  /** `main` once the font is read: the exit code, and the glyph ids handed
      to the subsetter when a selection was made. `subtable` is the cmap
      sub-table a text is read through, and `numGlyphs` the `maxp` count
      that `--all` keeps; each is `None` when the font lacks it, and each is
      consulted only on its own path. */
  function Main<E>(subtable: Option<char -> Result<Option<u16>, E>>, numGlyphs: Option<u16>, text: Option<string>, all: bool)
    : (r: Result<(int, Option<seq<u16>>), SubsetError<E>>)
    ensures r.Ok? ==> (r.value.0 == 1 <==> r.value.1.None?) && (r.value.0 == 0 <==> r.value.1.Some?)
    ensures r.Ok? ==> r.value.0 == ExitCode(text, all)
    ensures text.Some? ==> (r.Err? <==> subtable.None? || exists k :: 0 <= k < |text.value| && subtable.value(text.value[k]).Err?)
    ensures text.Some? && r.Err? ==> r == Err(SubsetText(subtable, text.value).error)
    ensures text.None? ==> (r.Err? <==> all && numGlyphs.None?)
    ensures text.None? && r.Err? ==> r == Err(NoMaxpPanic)
  {
    match Select(text, all)
    case None => Ok((1, None))
    case Some(TextSelection(t)) =>
      var ids :- SubsetText(subtable, t);
      Ok((0, Some(ids)))
    case Some(AllSelection) =>
      match numGlyphs
      case None => Err(NoMaxpPanic)
      case Some(n) => Ok((0, Some(AllIds(n))))
  }

  /** Whatever was selected, the subsetter gets ids ascending without
      repeats; for a text they start with `.notdef`, and for `--all` they
      are every glyph of the font. */
  lemma SelectedIdsCanonical<E>(subtable: Option<char -> Result<Option<u16>, E>>, numGlyphs: Option<u16>,
                                text: Option<string>, all: bool)
    requires Main(subtable, numGlyphs, text, all).Ok? && Main(subtable, numGlyphs, text, all).value.1.Some?
    ensures var ids := Main(subtable, numGlyphs, text, all).value.1.value;
            StrictlyIncreasing(ids)
            && (text.Some? ==> |ids| > 0 && ids[0] == 0)
            && (text.None? ==> numGlyphs.Some? && ids == AllIds(numGlyphs.value) && |ids| == numGlyphs.value as int)
  {
    if text.None? {
      AllIdsCanonical(numGlyphs.value);
    }
  }

  /** `--text` wins: adding `--all` to it changes nothing. */
  lemma TextWinsOverAll<E>(subtable: Option<char -> Result<Option<u16>, E>>, numGlyphs: Option<u16>, text: string)
    ensures Main(subtable, numGlyphs, Some(text), true) == Main(subtable, numGlyphs, Some(text), false)
  {
  }

  /** Exit code 1 exactly when neither option is given; then nothing is
      subset. */
  lemma NothingSelected<E>(subtable: Option<char -> Result<Option<u16>, E>>, numGlyphs: Option<u16>,
                           text: Option<string>, all: bool)
    ensures Main(subtable, numGlyphs, text, all) == Ok((1, None)) <==> text.None? && !all
  {
  }

  /** Each input is consulted only on its own path: a text never needs the
      `maxp` count, and `--all` never needs the cmap. */
  lemma InputsOnTheirOwnPaths<E>(subtable: Option<char -> Result<Option<u16>, E>>, other: Option<char -> Result<Option<u16>, E>>,
                                 numGlyphs: Option<u16>, otherCount: Option<u16>, text: Option<string>, all: bool)
    ensures text.Some? ==> Main(subtable, numGlyphs, text, all) == Main(subtable, otherCount, text, all)
    ensures text.None? ==> Main(subtable, numGlyphs, text, all) == Main(other, numGlyphs, text, all)
  {
  }
}

=== FILE: svg_document.dfy ===
/** What the current SVG writer emits once the loop is done: an optional
    background, one `<symbol>` element per symbol and then one `<use>`
    element per use, each naming its symbol by id. Attribute order, the
    XML text itself, the view box and opacities (floating point) are not
    modelled; colours appear as their `#rrggbb` text. */
module SvgDocument {
  import opened Wrappers
  import opened Text
  import Glyph
  import opened Script
  import opened Layout
  import opened Outline
  import opened Style
  import opened Writer

  /** A symbol's id: its glyph name, behind the testcase name and a dot in
      text-rendering-test mode. */
  function Id(mode: SvgMode, glyphName: string): (id: string)
    ensures mode.View? ==> id == glyphName
    ensures mode.TextRenderingTests? ==>
      && |id| == |mode.prefix| + 1 + |glyphName|
      && id[..|mode.prefix|] == mode.prefix && id[|mode.prefix|] == '.'
      && id[|mode.prefix| + 1..] == glyphName
  {
    match mode
    case TextRenderingTests(prefix) => prefix + "." + glyphName
    case View(_, _, _, _) => glyphName
  }

  /** Within one mode, distinct glyph names give distinct ids. */
  lemma IdInjective(mode: SvgMode, a: string, b: string)
    requires Id(mode, a) == Id(mode, b)
    ensures a == b
  {
    if mode.TextRenderingTests? {
      var n := |mode.prefix| + 1;
      assert a == Id(mode, a)[n..] && b == Id(mode, b)[n..];
    }
  }

  /** The glyph attributes a symbol carries in view mode. */
  datatype DataKey =
    | MarkKey | GlyphIndexKey | LigaComponentPosKey | GlyphOriginKey
    | SmallCapsKey | MultiSubstDupKey | IsVertAltKey | FakeBoldKey | FakeItalicKey

  /** The attribute name written for a key. */
  function AttributeName(k: DataKey): (name: string)
    ensures |name| > 5 && name[..5] == "data-"
  {
    match k
    case MarkKey => "data-mark"
    case GlyphIndexKey => "data-glyph-index"
    case LigaComponentPosKey => "data-liga-component-pos"
    case GlyphOriginKey => "data-glyph-origin"
    case SmallCapsKey => "data-small-caps"
    case MultiSubstDupKey => "data-multi-subst-dup"
    case IsVertAltKey => "data-is-vert-alt"
    case FakeBoldKey => "data-fake-bold"
    case FakeItalicKey => "data-fake-italic"
  }

  /** No two keys share an attribute name, so no attribute is written twice. */
  lemma AttributeNamesDistinct(a: DataKey, b: DataKey)
    requires a != b
    ensures AttributeName(a) != AttributeName(b)
  {
    var (x, y) := (AttributeName(a), AttributeName(b));
    if |x| == |y| {
      // the names of equal length differ at the sixth or seventh character
      assert x[5] != y[5] || x[6] != y[6];
    }
  }

  predicate IsMark(p: Placement) {
    p.MarkAnchor? || p.MarkOverprint?
  }

  function OriginText(origin: Glyph.GlyphOrigin): string {
    match origin
    case Char(_) => "char"
    case Direct => "direct"
  }

  /** Whether the glyph flag a key reports is set; false for the other keys. */
  predicate FlagSet(g: Glyph.RawGlyph, k: DataKey) {
    match k
    case SmallCapsKey => g.smallCaps
    case MultiSubstDupKey => g.multiSubstDup
    case IsVertAltKey => g.isVertAlt
    case FakeBoldKey => g.fakeBold
    case FakeItalicKey => g.fakeItalic
    case _ => false
  }

  const FlagKeys: set<DataKey> := {SmallCapsKey, MultiSubstDupKey, IsVertAltKey, FakeBoldKey, FakeItalicKey}

  const ValueKeys: set<DataKey> := {GlyphIndexKey, LigaComponentPosKey, GlyphOriginKey}

  /** The attributes every view-mode symbol has. */
  function ValueAttributes(g: Glyph.RawGlyph): (v: map<DataKey, string>)
    ensures v.Keys == ValueKeys
    ensures v[GlyphIndexKey] == Decimal(g.glyphIndex)
    ensures v[LigaComponentPosKey] == Decimal(g.ligaComponentPos)
    ensures v[GlyphOriginKey] == OriginText(g.origin)
  {
    map[GlyphIndexKey := Decimal(g.glyphIndex),
        LigaComponentPosKey := Decimal(g.ligaComponentPos),
        GlyphOriginKey := OriginText(g.origin)]
  }

  /** One `true` attribute per set glyph flag. */
  function FlagAttributes(g: Glyph.RawGlyph): (f: map<DataKey, string>)
    ensures forall k :: k in f <==> FlagSet(g, k)
    ensures forall k | k in f :: f[k] == "true"
  {
    map k | k in FlagKeys && FlagSet(g, k) :: "true"
  }

  /** The `data-` attributes of a symbol: none in text-rendering-test mode;
      in view mode the glyph index, ligature component position and origin,
      `data-mark` for marks and one attribute per set glyph flag. */
  function Data(mode: SvgMode, info: Info): (d: map<DataKey, string>)
    ensures mode.TextRenderingTests? ==> d == map[]
    ensures mode.View? ==> forall k :: k in d <==>
              k in ValueKeys || (k == MarkKey && IsMark(info.placement)) || FlagSet(info.glyph, k)
    ensures mode.View? ==>
      && GlyphIndexKey in d && d[GlyphIndexKey] == Decimal(info.glyph.glyphIndex)
      && LigaComponentPosKey in d && d[LigaComponentPosKey] == Decimal(info.glyph.ligaComponentPos)
      && GlyphOriginKey in d && d[GlyphOriginKey] == OriginText(info.glyph.origin)
    ensures forall k | k in d && k !in ValueKeys :: d[k] == "true"
  {
    match mode
    case TextRenderingTests(_) => map[]
    case View(_, _, _, _) =>
      var g := info.glyph;
      var mark := if IsMark(info.placement) then map[MarkKey := "true"] else map[];
      mark + ValueAttributes(g) + FlagAttributes(g)
  }

  /** The view-mode values read back as the glyph's index, its ligature
      component position and its origin kind. */
  lemma DataValues(mode: SvgMode, info: Info)
    requires mode.View?
    ensures var d := Data(mode, info);
      && ParseUnsigned(d[GlyphIndexKey], 10, 0x1_0000) == Some(info.glyph.glyphIndex)
      && ParseUnsigned(d[LigaComponentPosKey], 10, info.glyph.ligaComponentPos + 1)
         == Some(info.glyph.ligaComponentPos)
      && (d[GlyphOriginKey] == "char" <==> info.glyph.origin.Char?)
      && (d[GlyphOriginKey] == "direct" <==> info.glyph.origin.Direct?)
  {
    var g := info.glyph;
    ParseDecimal(g.glyphIndex, 0x1_0000);
    ParseDecimal(g.ligaComponentPos, g.ligaComponentPos + 1);
    assert "char" != "direct";
  }

  datatype SymbolElement = SymbolElement(
    id: string,
    data: map<DataKey, string>,
    path: string,
    fill: Option<string>,
    crosshair: Option<Point>)

  datatype UseElement = UseElement(href: string, at: Point)

  datatype Document = Document(background: Option<string>, symbols: seq<SymbolElement>, uses: seq<UseElement>)

  function Foreground(mode: SvgMode): Option<Colour> {
    if mode.View? then mode.fg else None
  }

  function Background(mode: SvgMode): Option<Colour> {
    if mode.View? then mode.bg else None
  }

  function ColourAttribute(c: Option<Colour>): (r: Option<string>)
    ensures r.Some? <==> c.Some?
  {
    match c
    case Some(colour) => Some(ColourText(colour))
    case None => None
  }

  function Element(mode: SvgMode, s: Symbol): SymbolElement {
    SymbolElement(Id(mode, s.glyphName), Data(mode, s.info), s.path, ColourAttribute(Foreground(mode)), s.origin)
  }

  /** `end`: all symbols first, then the uses in usage order, each use
      pointing at its symbol's id. Indexing a symbol that does not exist
      would panic; the loop never records such a use (`BuildIndexed`). */
  function End(mode: SvgMode, symbols: seq<Symbol>, usage: seq<Usage>): (doc: Document)
    requires forall k | 0 <= k < |usage| :: usage[k].symbolIndex < |symbols|
    ensures |doc.symbols| == |symbols| && |doc.uses| == |usage|
    ensures forall j | 0 <= j < |symbols| ::
      && doc.symbols[j].id == Id(mode, symbols[j].glyphName)
      && doc.symbols[j].path == symbols[j].path
      && doc.symbols[j].data == Data(mode, symbols[j].info)
    ensures forall k | 0 <= k < |usage| ::
      && doc.uses[k].href == "#" + doc.symbols[usage[k].symbolIndex].id
      && doc.uses[k].at == usage[k].point
    ensures mode.TextRenderingTests? ==> doc.background.None? && forall j | 0 <= j < |symbols| :: doc.symbols[j].fill.None?
  {
    var elements := seq(|symbols|, j requires 0 <= j < |symbols| => Element(mode, symbols[j]));
    var uses := seq(|usage|, k requires 0 <= k < |usage| =>
      UseElement("#" + Id(mode, symbols[usage[k].symbolIndex].glyphName), usage[k].point));
    Document(ColourAttribute(Background(mode)), elements, uses)
  }

  /** Every `href` names a symbol element of the document. */
  lemma HrefsResolve(mode: SvgMode, symbols: seq<Symbol>, usage: seq<Usage>)
    requires forall k | 0 <= k < |usage| :: usage[k].symbolIndex < |symbols|
    ensures var doc := End(mode, symbols, usage);
      forall k | 0 <= k < |doc.uses| ::
        |doc.uses[k].href| >= 1 && doc.uses[k].href[0] == '#'
        && exists j | 0 <= j < |doc.symbols| :: doc.uses[k].href[1..] == doc.symbols[j].id
  {
    var doc := End(mode, symbols, usage);
    forall k | 0 <= k < |doc.uses|
      ensures |doc.uses[k].href| >= 1 && doc.uses[k].href[0] == '#'
      ensures exists j | 0 <= j < |doc.symbols| :: doc.uses[k].href[1..] == doc.symbols[j].id
    {
      var j := usage[k].symbolIndex;
      assert doc.uses[k].href[1..] == doc.symbols[j].id;
    }
  }

  datatype SvgError<L, E> = LayoutFailed(layout: L) | BuildingSvg(error: E)

  /** `glyphs_to_svg`: lay out the glyphs, visit them in drawing order and
      emit the document; a failed visit is reported as an error building
      the SVG. The layout engine's positions are a parameter. */
  function GlyphsToSvg<L, E>(mode: SvgMode, t: Point -> Point, naming: u16 -> Option<string>,
                             visit: u16 -> Result<seq<OutlineCmd>, E>, infos: seq<Info>,
                             positions: Result<seq<GlyphPosition>, L>, direction: TextDirection)
    : (r: Result<Document, SvgError<L, E>>)
    ensures positions.Err? ==> r == Err(LayoutFailed(positions.error))
    ensures r.Err? && positions.Ok? ==> r.error.BuildingSvg?
  {
    match positions
    case Err(l) => Err(LayoutFailed(l))
    case Ok(ps) =>
      var items := DrawOrder(infos, ps, direction);
      match Build(mode, t, naming, visit, items, |items|)
      case Err(e) => Err(BuildingSvg(e))
      case Ok(b) =>
        BuildIndexed(mode, t, naming, visit, items, |items|);
        Ok(End(mode, b.symbols, b.usage))
  }


  /** Drawing fails exactly when the layout fails or visiting the outline of
      some drawn glyph fails. */
  lemma GlyphsToSvgSucceeds<L, E>(mode: SvgMode, t: Point -> Point, naming: u16 -> Option<string>,
                                  visit: u16 -> Result<seq<OutlineCmd>, E>, infos: seq<Info>,
                                  positions: Result<seq<GlyphPosition>, L>, direction: TextDirection)
    requires positions.Ok?
    ensures var items := DrawOrder(infos, positions.value, direction);
      GlyphsToSvg(mode, t, naming, visit, infos, positions, direction).Ok?
      <==> forall k | 0 <= k < |items| :: visit(items[k].0.glyph.glyphIndex).Ok?
  {
    var items := DrawOrder(infos, positions.value, direction);
    BuildSucceeds(mode, t, naming, visit, items, |items|);
  }

  /** One use per drawn glyph, in drawing order, naming that glyph's symbol
      and placed at the pen plus the glyph's offset. */
  lemma GlyphsToSvgUses<L, E>(mode: SvgMode, t: Point -> Point, naming: u16 -> Option<string>,
                              visit: u16 -> Result<seq<OutlineCmd>, E>, infos: seq<Info>,
                              positions: Result<seq<GlyphPosition>, L>, direction: TextDirection)
    requires GlyphsToSvg(mode, t, naming, visit, infos, positions, direction).Ok?
    ensures positions.Ok?
    ensures var doc, items := GlyphsToSvg(mode, t, naming, visit, infos, positions, direction).value,
                              DrawOrder(infos, positions.value, direction);
      && |doc.uses| == |items|
      && forall k | 0 <= k < |items| ::
           && doc.uses[k].href == "#" + Id(mode, GlyphName(naming, items[k].0.glyph.glyphIndex))
           && doc.uses[k].at == UsePoint(t, PenX(items, k), PenY(items, k), items[k].1)
  {
    var items := DrawOrder(infos, positions.value, direction);
    var b := Build(mode, t, naming, visit, items, |items|).value;
    BuildIndexed(mode, t, naming, visit, items, |items|);
    BuildDrawn(mode, t, naming, visit, items, |items|);
    BuildPoints(mode, t, naming, visit, items, |items|);
    assert Gids(items)[..|items|] == Gids(items);
    var doc := End(mode, b.symbols, b.usage);
    assert GlyphsToSvg(mode, t, naming, visit, infos, positions, direction).value == doc;
    forall k | 0 <= k < |items|
      ensures doc.uses[k].href == "#" + Id(mode, GlyphName(naming, items[k].0.glyph.glyphIndex))
      ensures doc.uses[k].at == UsePoint(t, PenX(items, k), PenY(items, k), items[k].1)
    {
      var j := b.usage[k].symbolIndex;
      assert SymbolGid(b.symbols[j]) == Gids(items)[k];
    }
  }

  /** One symbol per distinct drawn glyph, in first-occurrence order, named
      after it, with the data attributes of the glyph's first occurrence
      and the path of the glyph's outline: in view mode its plain text, in
      text-rendering-test mode the truncating sink's output. */
  lemma GlyphsToSvgSymbols<L, E>(mode: SvgMode, t: Point -> Point, naming: u16 -> Option<string>,
                                 visit: u16 -> Result<seq<OutlineCmd>, E>, infos: seq<Info>,
                                 positions: Result<seq<GlyphPosition>, L>, direction: TextDirection)
    requires GlyphsToSvg(mode, t, naming, visit, infos, positions, direction).Ok?
    ensures positions.Ok?
    ensures var doc, items := GlyphsToSvg(mode, t, naming, visit, infos, positions, direction).value,
                              DrawOrder(infos, positions.value, direction);
      var gids := FirstOccurrences(Gids(items));
      && |doc.symbols| == |gids|
      && forall j | 0 <= j < |gids| ::
           && doc.symbols[j].id == Id(mode, GlyphName(naming, gids[j]))
           && doc.symbols[j].data == Data(mode, items[FirstIndex(Gids(items), gids[j])].0)
           && visit(gids[j]).Ok?
           && (mode.View? ==> doc.symbols[j].path == PathText(Number, t, visit(gids[j]).value))
           && (mode.TextRenderingTests? ==> TruncatedPath(t, visit(gids[j]).value, doc.symbols[j].path))
  {
    var items := DrawOrder(infos, positions.value, direction);
    var b := Build(mode, t, naming, visit, items, |items|).value;
    BuildIndexed(mode, t, naming, visit, items, |items|);
    BuildDrawn(mode, t, naming, visit, items, |items|);
    BuildFirstInfos(mode, t, naming, visit, items, |items|);
    assert Gids(items)[..|items|] == Gids(items);
    assert GlyphsToSvg(mode, t, naming, visit, infos, positions, direction).value == End(mode, b.symbols, b.usage);
    EndSymbols(mode, t, naming, visit, items, b);
  }

  /** The symbol elements `end` writes for a finished loop. */
  lemma EndSymbols<E>(mode: SvgMode, t: Point -> Point, naming: u16 -> Option<string>,
                      visit: u16 -> Result<seq<OutlineCmd>, E>, items: seq<Item>, b: Builder)
    requires Indexed(Gids(items), b) && Drawn(mode, t, naming, visit, b.symbols)
    requires FirstInfos(items, |items|, b.symbols)
    ensures var doc, gids := End(mode, b.symbols, b.usage), FirstOccurrences(Gids(items));
      && |doc.symbols| == |gids|
      && forall j | 0 <= j < |gids| ::
           && doc.symbols[j].id == Id(mode, GlyphName(naming, gids[j]))
           && doc.symbols[j].data == Data(mode, items[FirstIndex(Gids(items), gids[j])].0)
           && visit(gids[j]).Ok?
           && (mode.View? ==> doc.symbols[j].path == PathText(Number, t, visit(gids[j]).value))
           && (mode.TextRenderingTests? ==> TruncatedPath(t, visit(gids[j]).value, doc.symbols[j].path))
  {
    assert Gids(items)[..|items|] == Gids(items);
    var doc, gids := End(mode, b.symbols, b.usage), FirstOccurrences(Gids(items));
    forall j | 0 <= j < |gids|
      ensures doc.symbols[j].id == Id(mode, GlyphName(naming, gids[j]))
      ensures doc.symbols[j].data == Data(mode, items[FirstIndex(Gids(items), gids[j])].0)
      ensures visit(gids[j]).Ok?
      ensures mode.View? ==> doc.symbols[j].path == PathText(Number, t, visit(gids[j]).value)
      ensures mode.TextRenderingTests? ==> TruncatedPath(t, visit(gids[j]).value, doc.symbols[j].path)
    {
      assert SymbolGid(b.symbols[j]) == gids[j];
      assert doc.symbols[j].path == b.symbols[j].path;
    }
  }
}

=== FILE: svg_tool.dfy ===
/** The `svg` subcommand's own logic: the script and language a Unicode
    text-rendering testcase name selects, and where glyph names come from. */
module SvgTool {
  import opened Wrappers
  import opened Errors
  import opened Tags
  import opened Script
  import Text
  import Writer

  predicate StartsWith(s: string, prefix: string) {
    |prefix| <= |s| && s[..|prefix|] == prefix
  }

  /** `script_and_lang_from_testcase`: the first matching prefix decides.
      For `SHLANA` the script is `THA ` and the language `lana`, in that
      order, as the code has it. */
  function ScriptAndLang(testcase: string): (r: (u32, u32))
    ensures StartsWith(testcase, "SHARAN") ==>
      DisplayTag(r.0) == "arab" && DisplayTag(r.1) == "URD "
    ensures !StartsWith(testcase, "SHARAN") && StartsWith(testcase, "SHBALI") ==>
      DisplayTag(r.0) == "bali" && DisplayTag(r.1) == "BAN "
    ensures !StartsWith(testcase, "SHARAN") && !StartsWith(testcase, "SHBALI") && StartsWith(testcase, "SHKNDA") ==>
      DisplayTag(r.0) == "knda" && DisplayTag(r.1) == "KAN "
    ensures (!StartsWith(testcase, "SHARAN") && !StartsWith(testcase, "SHBALI") && !StartsWith(testcase, "SHKNDA")
             && StartsWith(testcase, "SHLANA")) ==>
      DisplayTag(r.0) == "THA " && DisplayTag(r.1) == "lana"
    ensures (!StartsWith(testcase, "SHARAN") && !StartsWith(testcase, "SHBALI") && !StartsWith(testcase, "SHKNDA")
             && !StartsWith(testcase, "SHLANA")) ==>
      DisplayTag(r.0) == "latn" && DisplayTag(r.1) == "ENG "
  {
    if StartsWith(testcase, "SHARAN") then TagPair("arab", "URD ")
    else if StartsWith(testcase, "SHBALI") then TagPair("bali", "BAN ")
    else if StartsWith(testcase, "SHKNDA") then TagPair("knda", "KAN ")
    else if StartsWith(testcase, "SHLANA") then TagPair("THA ", "lana")
    else TagPair("latn", "ENG ")
  }

  /** The tags a script name and a language name spell. */
  function TagPair(script: string, lang: string): (r: (u32, u32))
    requires |script| == 4 && AllPrintable(script) && |lang| == 4 && AllPrintable(lang)
    ensures DisplayTag(r.0) == script && DisplayTag(r.1) == lang
  {
    DisplayTagOf(script);
    DisplayTagOf(lang);
    (TagOf(script), TagOf(lang))
  }

  /** Only the Arabic testcases are shaped right to left. */
  lemma TestcaseDirection(testcase: string)
    ensures Direction(ScriptAndLang(testcase).0) == RightToLeft <==> StartsWith(testcase, "SHARAN")
  {
    ScriptNumber(testcase);
  }

  /** The script tags of the testcases as numbers. */
  lemma ScriptNumber(testcase: string)
    ensures ScriptAndLang(testcase).0 ==
      if StartsWith(testcase, "SHARAN") then 0x61726162
      else if StartsWith(testcase, "SHBALI") then 0x62616c69
      else if StartsWith(testcase, "SHKNDA") then 0x6b6e6461
      else if StartsWith(testcase, "SHLANA") then 0x54484120
      else 0x6c61746e
  {
  }

  // ---------------------------------------------------------------------
  // Glyph names

  /** The parts of a CFF font that naming reads: whether it is CID-keyed and
      its charset, which maps a glyph to a string id. */
  datatype CffFont = CffFont(cidKeyed: bool, charset: u16 -> Option<nat>)

  /** The fonts of a CFF table and its string INDEX lookup. */
  datatype Cff = Cff(fonts: seq<CffFont>, readString: nat -> Result<string, ParseError>)

  /** `gid_to_glyph_name` for CFF: the first font's charset string, and no
      name for a table without fonts, a CID-keyed font, a glyph without a
      string id or a string that cannot be read. */
  function CffGlyphName(cff: Cff, gid: u16): (r: Option<string>)
    ensures r.Some? <==> |cff.fonts| > 0 && !cff.fonts[0].cidKeyed && cff.fonts[0].charset(gid).Some?
                         && cff.readString(cff.fonts[0].charset(gid).value).Ok?
    ensures r.Some? ==> r.value == cff.readString(cff.fonts[0].charset(gid).value).value
  {
    if |cff.fonts| == 0 then None
    else
      var font := cff.fonts[0];
      if font.cidKeyed then None
      else
        var sid :- font.charset(gid);
        match cff.readString(sid)
        case Ok(name) => Some(name)
        case Err(_) => None
  }

  /** A `post` table's glyph naming: it may fail, or know no name. */
  datatype Post = Post(glyphName: u16 -> Result<Option<string>, ParseError>)

  /** `gid_to_glyph_name` for TrueType outlines: the `post` table's name when
      there is a table, the lookup succeeds and it has a name. */
  function PostGlyphName(post: Option<Post>, gid: u16): (r: Option<string>)
    ensures r.Some? <==> post.Some? && post.value.glyphName(gid).Ok? && post.value.glyphName(gid).value.Some?
    ensures r.Some? ==> r.value == post.value.glyphName(gid).value.value
  {
    match post
    case None => None
    case Some(p) =>
      match p.glyphName(gid)
      case Ok(name) => name
      case Err(_) => None
  }

  /** The symbol a CFF glyph gets: the first font's charset string when it
      can be read, otherwise `gid` and the index. */
  lemma CffSymbolName(cff: Cff, gid: u16)
    ensures var named := |cff.fonts| > 0 && !cff.fonts[0].cidKeyed && cff.fonts[0].charset(gid).Some?
                         && cff.readString(cff.fonts[0].charset(gid).value).Ok?;
            Writer.GlyphName((g: u16) => CffGlyphName(cff, g), gid)
            == if named then cff.readString(cff.fonts[0].charset(gid).value).value else "gid" + Text.Decimal(gid)
  {
  }

  /** Fonts after the first never lend a name. */
  lemma CffFirstFontOnly(font: CffFont, rest: seq<CffFont>, readString: nat -> Result<string, ParseError>, gid: u16)
    ensures CffGlyphName(Cff([font] + rest, readString), gid) == CffGlyphName(Cff([font], readString), gid)
  {
  }

  /** Every glyph of a CID-keyed font is drawn as a symbol whose name reads
      back as its index. */
  lemma CidKeyedNamedByIndex(cff: Cff, gid: u16)
    requires |cff.fonts| > 0 && cff.fonts[0].cidKeyed
    ensures var name := Writer.GlyphName((g: u16) => CffGlyphName(cff, g), gid);
            |name| > 3 && name[..3] == "gid" && Text.ParseUnsigned(name[3..], 10, 0x1_0000) == Some(gid as nat)
  {
    Writer.FallbackName((g: u16) => CffGlyphName(cff, g), gid);
  }

  /** The symbol a TrueType glyph gets: the `post` name when there is one;
      a missing table, a failed lookup and a missing name all give `gid`
      and the index. */
  lemma PostSymbolName(post: Option<Post>, gid: u16)
    ensures var named := post.Some? && post.value.glyphName(gid).Ok? && post.value.glyphName(gid).value.Some?;
            Writer.GlyphName((g: u16) => PostGlyphName(post, g), gid)
            == if named then post.value.glyphName(gid).value.value else "gid" + Text.Decimal(gid)
  {
  }

  /** A failed `post` lookup is treated like a missing table. */
  lemma PostFailureIsAbsence(p: Post, gid: u16)
    requires p.glyphName(gid).Err?
    ensures PostGlyphName(Some(p), gid) == PostGlyphName(None, gid)
  {
  }
}

=== FILE: tags.dfy ===
/** OpenType tags: four bytes packed big-endian into a `u32`. Covers the
    `DisplayTag` formatter the dump and subset tools share and the shaping
    tool's `tag_from_string`. */
module Tags {
  import opened Wrappers
  import opened Errors
  import opened Text

  const TwoTo32: nat := 0x1_0000_0000

  /** Byte `k` of a tag, `k == 0` being the most significant (`tag >> 24`). */
  function TagByte(t: u32, k: nat): (b: u8)
    requires k < 4
  {
    if k == 0 then t / 0x100_0000
    else if k == 1 then (t / 0x1_0000) % 0x100
    else if k == 2 then (t / 0x100) % 0x100
    else t % 0x100
  }

  /** Four bytes packed big-endian. */
  function Pack(b0: u8, b1: u8, b2: u8, b3: u8): (t: u32)
    ensures TagByte(t, 0) == b0 && TagByte(t, 1) == b1
    ensures TagByte(t, 2) == b2 && TagByte(t, 3) == b3
  {
    var t := b0 * 0x100_0000 + b1 * 0x1_0000 + b2 * 0x100 + b3;
    DivMod(b0, b1 * 0x1_0000 + b2 * 0x100 + b3, 0x100_0000);
    DivMod(b0 * 0x100 + b1, b2 * 0x100 + b3, 0x1_0000);
    DivMod(b0, b1, 0x100);
    DivMod(b0 * 0x1_0000 + b1 * 0x100 + b2, b3, 0x100);
    DivMod(b0 * 0x100 + b1, b2, 0x100);
    t
  }

  /** Splitting a tag into its bytes and packing them again gives the tag back. */
  lemma PackBytes(t: u32)
    ensures Pack(TagByte(t, 0), TagByte(t, 1), TagByte(t, 2), TagByte(t, 3)) == t
  {
    var q1 := t / 0x100;
    var q2 := q1 / 0x100;
    DivModSplit(t, 0x100);
    DivModSplit(q1, 0x100);
    DivModSplit(q2, 0x100);
    DropByteThen(t, 0x100);
    DropByteThen(q1, 0x100);
    DropByteThen(t, 0x1_0000);
  }

  /** Dropping one byte and then `b` more is dropping both at once. */
  lemma DropByteThen(x: nat, b: nat)
    requires b == 0x100 || b == 0x1_0000
    ensures x / 0x100 / b == x / (0x100 * b)
  {
    var q, r := x / 0x100, x % 0x100;
    var q2, r2 := q / b, q % b;
    assert x == q * 0x100 + r;
    assert q == q2 * b + r2;
    if b == 0x100 {
      assert x == q2 * 0x1_0000 + (r2 * 0x100 + r);
      DivMod(q2, r2 * 0x100 + r, 0x1_0000);
    } else {
      assert x == q2 * 0x100_0000 + (r2 * 0x100 + r);
      DivMod(q2, r2 * 0x100 + r, 0x100_0000);
    }
  }

  /** Neither beyond ASCII nor an ASCII control character: `0x20..=0x7E`. */
  predicate Printable(b: int) {
    0x20 <= b < 0x7F
  }

  predicate AllPrintable(s: string) {
    forall i | 0 <= i < |s| :: Printable(s[i] as int)
  }

  /** The four bytes of a tag as characters, U+0000 to U+00FF. */
  function TagChars(t: u32): (s: string)
    ensures |s| == 4
    ensures forall k | 0 <= k < 4 :: s[k] as int == TagByte(t, k)
  {
    [TagByte(t, 0) as char, TagByte(t, 1) as char, TagByte(t, 2) as char, TagByte(t, 3) as char]
  }

  /** `DisplayTag`: the four characters when every byte is printable ASCII,
      otherwise `0x` followed by eight lower-case hex digits. */
  function DisplayTag(t: u32): (r: string)
    ensures AllPrintable(TagChars(t)) ==> r == TagChars(t)
    ensures !AllPrintable(TagChars(t)) ==>
      |r| == 10 && r[..2] == "0x" && AllDigits(r[2..], 16) && DigitsValue(r[2..], 16) == t
  {
    if AllPrintable(TagChars(t)) then TagChars(t) else HexName(t)
  }

  /** `0x` and the tag as eight lower-case hex digits. */
  function HexName(t: u32): (r: string)
    ensures |r| == 10 && r[..2] == "0x" && AllDigits(r[2..], 16) && DigitsValue(r[2..], 16) == t
  {
    var h := Hex(t, 8, false);
    EightHexDigits();
    HexWidth(t, 8, false);
    assert ("0x" + h)[2..] == h;
    "0x" + h
  }

  /** Eight hex digits hold any `u32`. */
  lemma EightHexDigits()
    ensures Pow(16, 8) == TwoTo32
  {
    assert Pow(16, 2) == 0x100 by {
      assert Pow(16, 1) == 16;
    }
    assert Pow(16, 4) == 0x1_0000 by {
      assert Pow(16, 3) == 16 * Pow(16, 2);
    }
    assert Pow(16, 6) == 0x100_0000 by {
      assert Pow(16, 5) == 16 * Pow(16, 4);
    }
    assert Pow(16, 7) == 16 * Pow(16, 6);
  }

  /** Distinct tags display differently. */
  lemma DisplayTagInjective(s: u32, t: u32)
    requires DisplayTag(s) == DisplayTag(t)
    ensures s == t
  {
    if AllPrintable(TagChars(s)) && AllPrintable(TagChars(t)) {
      PackBytes(s);
      PackBytes(t);
      assert forall k | 0 <= k < 4 :: TagByte(s, k) == TagByte(t, k);
    }
  }

  /** The tag a printable four-character string spells. */
  function TagOf(s: string): (t: u32)
    requires |s| == 4 && AllPrintable(s)
    ensures TagChars(t) == s
  {
    Pack(s[0] as int, s[1] as int, s[2] as int, s[3] as int)
  }

  /** Every printable four-character string displays as itself. */
  lemma DisplayTagOf(s: string)
    requires |s| == 4 && AllPrintable(s)
    ensures DisplayTag(TagOf(s)) == s
  {
  }

  // ---------------------------------------------------------------------
  // tag_from_string

  /** `tag << 8` on a `u32`: bits shifted past the top are lost. */
  function Shl8(t: u32): u32 {
    (t * 0x100) % TwoTo32
  }

  /** The character loop of `tag_from_string` over `s`: `Err(BadValue)` at a
      character that is not printable ASCII, otherwise the accumulated tag and
      the number of characters. Each step ORs the code into the low byte,
      which the shift has just cleared, so OR and addition agree. */
  function Accumulate(s: string): (r: Result<(u32, nat), ParseError>)
    ensures r.Ok? <==> AllPrintable(s)
    ensures r.Ok? ==> r.value.1 == |s|
    ensures r.Err? ==> r.error == BadValue
  {
    if |s| == 0 then Ok((0, 0))
    else
      var (tag, count) :- Accumulate(s[..|s| - 1]);
      var c := s[|s| - 1] as int;
      assert AllPrintable(s) <==> AllPrintable(s[..|s| - 1]) && Printable(c) by {
        assert forall i | 0 <= i < |s| - 1 :: s[..|s| - 1][i] == s[i];
      }
      if !Printable(c) then Err(BadValue) else Ok((Shl8(tag) + c, count + 1))
  }

  /** The padding loop as it is written: `count` is never incremented, so it
      only stops when `count` already is 4 or more. `fuel` bounds the number
      of iterations; `None` means it has not finished. */
  function PadAsWritten(tag: u32, count: nat, fuel: nat): (r: Option<u32>)
    decreases fuel
  {
    if count >= 4 then Some(tag)
    else if fuel == 0 then None
    else PadAsWritten(Shl8(tag) + 0x20, count, fuel - 1)
  }

  /** `tag_from_string` as written: `Ok(None)` means the call has not returned
      after `fuel` iterations of the padding loop. */
  function TagFromStringAsWritten(s: string, fuel: nat): (r: Result<Option<u32>, ParseError>)
    ensures r.Err? <==> Utf8Len(s) > 4 || !AllPrintable(s)
  {
    if Utf8Len(s) > 4 then Err(BadValue)
    else
      var (tag, count) :- Accumulate(s);
      Ok(PadAsWritten(tag, count, fuel))
  }

  lemma {:induction false} PadAsWrittenNeverStops(tag: u32, count: nat, fuel: nat)
    requires count < 4
    ensures PadAsWritten(tag, count, fuel) == None
    decreases fuel
  {
    if fuel > 0 {
      PadAsWrittenNeverStops(Shl8(tag) + 0x20, count, fuel - 1);
    }
  }

  /** A valid name shorter than four characters never gets a result, however
      many iterations are allowed: the padding loop does not terminate. */
  lemma AsWrittenDivergesWhenShort(s: string, fuel: nat)
    requires |s| < 4 && AllPrintable(s)
    ensures TagFromStringAsWritten(s, fuel) == Ok(None)
  {
    AsciiUtf8(s);
    PadAsWrittenNeverStops(Accumulate(s).value.0, |s|, fuel);
  }

  /** The smallest input that shows it: the empty string. */
  lemma AsWrittenDivergesOnEmpty()
    ensures forall fuel: nat :: TagFromStringAsWritten("", fuel) == Ok(None)
  {
    forall fuel: nat ensures TagFromStringAsWritten("", fuel) == Ok(None) {
      AsWrittenDivergesWhenShort("", fuel);
    }
  }

  /** The padding loop with the missing `count += 1`. */
  function Pad(tag: u32, count: nat): u32
    decreases 4 - count
  {
    if count >= 4 then tag else Pad(Shl8(tag) + 0x20, count + 1)
  }

  /** `tag_from_string` with the padding loop corrected: a name of at most four
      printable ASCII characters becomes the tag of the name padded with
      spaces; anything longer or containing another character is `BadValue`. */
  function TagFromString(s: string): (r: Result<u32, ParseError>)
    ensures r.Ok? <==> |s| <= 4 && AllPrintable(s)
    ensures r.Err? ==> r.error == BadValue
    ensures r.Ok? ==> TagChars(r.value) == s + Spaces(4 - |s|)
  {
    if Utf8Len(s) > 4 then
      Utf8LenAtLeastLength(s);
      Err(BadValue)
    else
      var (tag, count) :- Accumulate(s);
      AsciiUtf8(s);
      AccumulatePad(s);
      Ok(Pad(tag, count))
  }

  function Spaces(n: nat): (r: string)
    ensures |r| == n && forall i | 0 <= i < n :: r[i] == ' '
  {
    seq(n, _ => ' ')
  }

  /** The big-endian number of the character codes of `s`. */
  function BigEndian(s: string): nat {
    if |s| == 0 then 0 else BigEndian(s[..|s| - 1]) * 0x100 + s[|s| - 1] as int
  }

  lemma {:induction false} BigEndianBound(s: string)
    requires AllPrintable(s)
    ensures BigEndian(s) < Pow(0x100, |s|)
  {
    if |s| > 0 {
      var p := s[..|s| - 1];
      assert AllPrintable(p) by {
        assert forall i | 0 <= i < |p| :: p[i] == s[i];
      }
      BigEndianBound(p);
      assert BigEndian(s) < Pow(0x100, |s|) by {
        assert BigEndian(p) + 1 <= Pow(0x100, |p|);
        assert BigEndian(s) < (BigEndian(p) + 1) * 0x100;
      }
    }
  }

  /** Without wrap-around the character loop computes the big-endian value. */
  lemma {:induction false} AccumulateValue(s: string)
    requires |s| <= 4 && AllPrintable(s)
    ensures Accumulate(s).value.0 == BigEndian(s)
  {
    if |s| > 0 {
      var p := s[..|s| - 1];
      assert AllPrintable(p) by {
        assert forall i | 0 <= i < |p| :: p[i] == s[i];
      }
      AccumulateValue(p);
      BigEndianBound(p);
      PowMonotone(|p|, 3);
      assert Pow(0x100, 3) == 0x100_0000 by {
        assert Pow(0x100, 1) == 0x100;
        assert Pow(0x100, 2) == 0x1_0000;
      }
    }
  }

  lemma {:induction false} PowMonotone(m: nat, n: nat)
    requires m <= n
    ensures Pow(0x100, m) <= Pow(0x100, n)
    decreases n
  {
    if m < n {
      PowMonotone(m, n - 1);
    }
  }

  lemma {:induction false} PadValue(s: string)
    requires |s| <= 4 && AllPrintable(s)
    ensures BigEndian(s) < TwoTo32 && Pad(BigEndian(s), |s|) == BigEndian(s + Spaces(4 - |s|))
    decreases 4 - |s|
  {
    if |s| < 4 {
      var t := s + [' '];
      assert AllPrintable(t) by {
        assert forall i | 0 <= i < |s| :: t[i] == s[i];
      }
      assert t[..|t| - 1] == s;
      BigEndianBound(s);
      PowMonotone(|s|, 3);
      assert Pow(0x100, 3) == 0x100_0000 by {
        assert Pow(0x100, 1) == 0x100;
        assert Pow(0x100, 2) == 0x1_0000;
      }
      assert Shl8(BigEndian(s)) + 0x20 == BigEndian(t);
      PadValue(t);
      assert t + Spaces(4 - |t|) == s + Spaces(4 - |s|);
    } else {
      assert s + Spaces(0) == s;
      BigEndianBound(s);
      assert Pow(0x100, 4) == TwoTo32 by {
        assert Pow(0x100, 2) == 0x1_0000;
      }
    }
  }

  lemma BigEndianFour(s: string)
    requires |s| == 4 && AllPrintable(s)
    ensures BigEndian(s) == TagOf(s)
  {
    assert s[..3][..2] == s[..2];
    assert s[..2][..1] == s[..1];
    assert s[..1][..0] == s[..0];
    assert BigEndian(s[..1]) == s[0] as int;
    assert BigEndian(s[..2]) == s[0] as int * 0x100 + s[1] as int;
    assert BigEndian(s[..3]) == (s[0] as int * 0x100 + s[1] as int) * 0x100 + s[2] as int;
  }

  lemma AccumulatePad(s: string)
    requires |s| <= 4 && AllPrintable(s)
    ensures Accumulate(s).Ok?
    ensures var t := s + Spaces(4 - |s|);
      AllPrintable(t) && Pad(Accumulate(s).value.0, |s|) == TagOf(t)
  {
    var t := s + Spaces(4 - |s|);
    assert AllPrintable(t) by {
      assert forall i | 0 <= i < |t| :: t[i] == (if i < |s| then s[i] else ' ');
    }
    AccumulateValue(s);
    PadValue(s);
    BigEndianFour(t);
  }
}

=== FILE: text.dfy ===
/** String helpers the tools rely on from Rust's standard library:
    `str::split`, `str::trim`, integer formatting (`{}`, `{:x}`, `{:X}`, zero
    padding), `from_str_radix`, and the UTF-8 byte length behind `str::len`. */
module Text {
  import opened Wrappers

  // ---------------------------------------------------------------------
  // Whitespace and trimming

  /** `char::is_whitespace`: the characters with the Unicode White_Space property. */
  predicate IsWhitespace(c: char) {
    ('\t' <= c <= '\r') || c == ' ' || c == '\U{0085}' || c == '\U{00A0}'
    || c == '\U{1680}' || ('\U{2000}' <= c <= '\U{200A}') || c == '\U{2028}'
    || c == '\U{2029}' || c == '\U{202F}' || c == '\U{205F}' || c == '\U{3000}'
  }

  /** Neither end of `s` is whitespace. */
  predicate IsTrimmed(s: string) {
    |s| > 0 ==> !IsWhitespace(s[0]) && !IsWhitespace(s[|s| - 1])
  }

  function TrimStart(s: string): (r: string)
    ensures |r| <= |s|
  {
    if |s| > 0 && IsWhitespace(s[0]) then TrimStart(s[1..]) else s
  }

  function TrimEnd(s: string): (r: string)
    ensures |r| <= |s|
  {
    if |s| > 0 && IsWhitespace(s[|s| - 1]) then TrimEnd(s[..|s| - 1]) else s
  }

  /** `str::trim`: `s` with leading and trailing whitespace removed. Its
      contract is kept to the length; `TrimSlice` says what it keeps. */
  function Trim(s: string): (r: string)
    ensures |r| <= |s|
  {
    TrimEnd(TrimStart(s))
  }

  /** Number of leading whitespace characters `str::trim` drops. */
  function TrimOffset(s: string): nat
    ensures TrimOffset(s) <= |s|
  {
    |s| - |TrimStart(s)|
  }

  lemma {:induction false} TrimStartSlice(s: string)
    ensures TrimStart(s) == s[TrimOffset(s)..]
    ensures forall i | 0 <= i < TrimOffset(s) :: IsWhitespace(s[i])
    ensures |TrimStart(s)| > 0 ==> !IsWhitespace(TrimStart(s)[0])
  {
    if |s| > 0 && IsWhitespace(s[0]) {
      TrimStartSlice(s[1..]);
      assert forall i | 1 <= i < TrimOffset(s) :: s[i] == s[1..][i - 1];
    }
  }

  lemma {:induction false} TrimEndSlice(s: string)
    ensures TrimEnd(s) == s[..|TrimEnd(s)|]
    ensures forall i | |TrimEnd(s)| <= i < |s| :: IsWhitespace(s[i])
    ensures |TrimEnd(s)| > 0 ==> !IsWhitespace(TrimEnd(s)[|TrimEnd(s)| - 1])
  {
    if |s| > 0 && IsWhitespace(s[|s| - 1]) {
      TrimEndSlice(s[..|s| - 1]);
    }
  }

  /** What `str::trim` keeps: the slice of `s` starting at `TrimOffset(s)`,
      with whitespace at neither end, and only whitespace dropped around it. */
  lemma TrimSlice(s: string)
    ensures IsTrimmed(Trim(s))
    ensures TrimOffset(s) + |Trim(s)| <= |s| && Trim(s) == s[TrimOffset(s)..TrimOffset(s) + |Trim(s)|]
    ensures forall i | 0 <= i < TrimOffset(s) :: IsWhitespace(s[i])
    ensures forall i | TrimOffset(s) + |Trim(s)| <= i < |s| :: IsWhitespace(s[i])
  {
    var t := TrimStart(s);
    TrimStartSlice(s);
    TrimEndSlice(t);
    var r := Trim(s);
    assert forall i | TrimOffset(s) + |r| <= i < |s| :: s[i] == t[i - TrimOffset(s)];
  }

  /** A string without surrounding whitespace is its own trim, so trimming
      is idempotent. */
  lemma TrimOfTrimmed(s: string)
    requires IsTrimmed(s)
    ensures Trim(s) == s
  {
  }

  lemma TrimIdempotent(s: string)
    ensures Trim(Trim(s)) == Trim(s)
  {
    TrimSlice(s);
    TrimOfTrimmed(Trim(s));
  }

  // ---------------------------------------------------------------------
  // Splitting on a separator character

  /** The inverse of `Split`: the parts glued together with `sep` between them. */
  function Join(parts: seq<string>, sep: char): string {
    if |parts| == 0 then ""
    else if |parts| == 1 then parts[0]
    else parts[0] + [sep] + Join(parts[1..], sep)
  }

  function Count(s: string, c: char): nat {
    if |s| == 0 then 0 else (if s[0] == c then 1 else 0) + Count(s[1..], c)
  }

  /** `str::split(sep)`: never empty (the empty string gives one empty part),
      one part more than there are separators, no part contains the separator,
      and joining the parts again gives back `s`. */
  function Split(s: string, sep: char): (parts: seq<string>)
    ensures |parts| == Count(s, sep) + 1
    ensures forall i | 0 <= i < |parts| :: sep !in parts[i]
    ensures Join(parts, sep) == s
  {
    if |s| == 0 then [""]
    else
      var rest := Split(s[1..], sep);
      if s[0] == sep then
        var parts := [""] + rest;
        assert parts[1..] == rest;
        parts
      else
        var parts := [[s[0]] + rest[0]] + rest[1..];
        assert |rest| > 1 ==> Join(rest, sep) == rest[0] + [sep] + Join(rest[1..], sep);
        assert parts[1..] == rest[1..];
        parts
  }

  lemma SplitNoSeparator(s: string, sep: char)
    requires sep !in s
    ensures Split(s, sep) == [s]
  {
    if |s| > 0 {
      SplitNoSeparator(s[1..], sep);
    }
  }

  lemma SplitFirst(a: string, sep: char, b: string)
    requires sep !in a
    ensures Split(a + [sep] + b, sep) == [a] + Split(b, sep)
  {
    if |a| == 0 {
      assert (a + [sep] + b)[1..] == b;
    } else {
      assert (a + [sep] + b)[1..] == a[1..] + [sep] + b;
      SplitFirst(a[1..], sep, b);
      assert [a[0]] + a[1..] == a;
    }
  }

  /** Splitting recovers the parts that were joined, as long as no part holds the separator. */
  lemma {:induction false} SplitJoin(parts: seq<string>, sep: char)
    requires |parts| > 0
    requires forall i | 0 <= i < |parts| :: sep !in parts[i]
    ensures Split(Join(parts, sep), sep) == parts
  {
    if |parts| == 1 {
      SplitNoSeparator(parts[0], sep);
    } else {
      SplitJoin(parts[1..], sep);
      SplitFirst(parts[0], sep, Join(parts[1..], sep));
      assert [parts[0]] + parts[1..] == parts;
    }
  }

  /** `s.split(sep).map(str::trim)`: the parts of `s`, each trimmed. The
      contract keeps to the length; `SplitTrimItems` gives the parts. */
  function SplitTrim(s: string, sep: char): (items: seq<string>)
    ensures |items| == |Split(s, sep)|
  {
    TrimAll(Split(s, sep))
  }

  function TrimAll(parts: seq<string>): (items: seq<string>)
    ensures |items| == |parts|
  {
    if parts == [] then [] else [Trim(parts[0])] + TrimAll(parts[1..])
  }

  lemma {:induction false} TrimAllItems(parts: seq<string>)
    ensures forall k | 0 <= k < |parts| :: TrimAll(parts)[k] == Trim(parts[k])
  {
    if parts != [] {
      TrimAllItems(parts[1..]);
      assert forall k | 1 <= k < |parts| :: parts[k] == parts[1..][k - 1];
    }
  }

  /** Each item is the trimmed part at the same position. */
  lemma SplitTrimItems(s: string, sep: char)
    ensures forall k | 0 <= k < |Split(s, sep)| :: SplitTrim(s, sep)[k] == Trim(Split(s, sep)[k])
  {
    TrimAllItems(Split(s, sep));
  }

  /** Joining trimmed parts without the separator and reading them back
      with `SplitTrim` gives the parts. */
  lemma SplitTrimJoin(parts: seq<string>, sep: char)
    requires |parts| > 0
    requires forall k | 0 <= k < |parts| :: sep !in parts[k] && Trim(parts[k]) == parts[k]
    ensures SplitTrim(Join(parts, sep), sep) == parts
  {
    SplitJoin(parts, sep);
    SplitTrimItems(Join(parts, sep), sep);
  }

  // ---------------------------------------------------------------------
  // Digits: formatting and parsing

  /** The digit character Rust prints for `d`, lower or upper case letters for 10..15. */
  function DigitChar(d: nat, upper: bool): char
    requires d < 16
  {
    if d < 10 then ('0' as int + d) as char
    else if upper then ('A' as int + d - 10) as char
    else ('a' as int + d - 10) as char
  }

  /** `char::to_digit(radix)`: decimal digits and ASCII letters of either case. */
  function DigitValue(c: char, radix: nat): Option<nat> {
    var v :=
      if '0' <= c <= '9' then (c as int - '0' as int)
      else if 'a' <= c <= 'z' then (c as int - 'a' as int + 10)
      else if 'A' <= c <= 'Z' then (c as int - 'A' as int + 10)
      else radix;
    if v < radix then Some(v) else None
  }

  predicate AllDigits(s: string, radix: nat) {
    forall i | 0 <= i < |s| :: DigitValue(s[i], radix).Some?
  }

  /** The number a digit string denotes, most significant digit first. */
  function DigitsValue(s: string, radix: nat): nat
    requires AllDigits(s, radix)
  {
    if |s| == 0 then 0
    else DigitsValue(s[..|s| - 1], radix) * radix + DigitValue(s[|s| - 1], radix).value
  }

  /** Every digit character reads back as its value. */
  lemma DigitCharValue(d: nat, upper: bool, radix: nat)
    requires d < radix <= 16
    ensures DigitValue(DigitChar(d, upper), radix) == Some(d)
  {
  }

  /** The digits of `n` in base `radix`, as `{}`, `{:x}` and `{:X}` print them. */
  function Digits(n: nat, radix: nat, upper: bool): (r: string)
    requires 2 <= radix <= 16
    ensures |r| >= 1 && AllDigits(r, radix)
    decreases n
  {
    var last := DigitChar(n % radix, upper);
    DigitCharValue(n % radix, upper, radix);
    if n < radix then [last]
    else
      DivSmaller(n, radix);
      var front := Digits(n / radix, radix, upper);
      var r := front + [last];
      assert forall i | 0 <= i < |r| - 1 :: r[i] == front[i];
      r
  }

  /** Reading back the printed digits gives the number: formatting is injective. */
  lemma {:induction false} DigitsRoundTrip(n: nat, radix: nat, upper: bool)
    requires 2 <= radix <= 16
    ensures DigitsValue(Digits(n, radix, upper), radix) == n
    decreases n
  {
    var d := Digits(n, radix, upper);
    DigitCharValue(n % radix, upper, radix);
    assert d[|d| - 1] == DigitChar(n % radix, upper);
    if n < radix {
      SmallDivMod(n, radix);
      assert d[..|d| - 1] == [];
      LastDigit(d, radix, 0, n);
      assert DigitsValue(d, radix) == n;
    } else {
      DivSmaller(n, radix);
      var front := Digits(n / radix, radix, upper);
      DigitsRoundTrip(n / radix, radix, upper);
      assert d[..|d| - 1] == front;
      LastDigit(d, radix, n / radix, n % radix);
      DivModSplit(n, radix);
      assert DigitsValue(d, radix) == n;
    }
  }

  /** The value of digits is the value of all but the last, times the
      radix, plus the last. */
  lemma LastDigit(d: string, radix: nat, q: nat, r: nat)
    requires |d| >= 1 && AllDigits(d, radix)
    requires DigitsValue(d[..|d| - 1], radix) == q && DigitValue(d[|d| - 1], radix) == Some(r)
    ensures DigitsValue(d, radix) == q * radix + r
  {
  }

  lemma SmallDivMod(n: nat, d: nat)
    requires n < d
    ensures n % d == n && n / d == 0
  {
  }

  lemma DivModSplit(n: nat, d: nat)
    requires d > 0
    ensures n == (n / d) * d + n % d
  {
  }

  /** Division and remainder undo `q * d + r` for a remainder below `d`. */
  lemma DivMod(q: nat, r: nat, d: nat)
    requires 0 <= r < d
    ensures (q * d + r) / d == q && (q * d + r) % d == r
  {
    var n := q * d + r;
    var k := n / d - q;
    assert d * k == r - n % d;
  }

  function Pow(b: nat, e: nat): nat {
    if e == 0 then 1 else b * Pow(b, e - 1)
  }

  lemma {:induction false} DigitsLength(n: nat, radix: nat, upper: bool, width: nat)
    requires 2 <= radix <= 16 && width >= 1
    requires n < Pow(radix, width)
    ensures |Digits(n, radix, upper)| <= width
    decreases n
  {
    if n >= radix {
      DivSmaller(n, radix);
      QuotientBound(n, radix, width);
      DigitsLength(n / radix, radix, upper, width - 1);
      DigitsStep(n, radix, upper);
    }
  }

  /** A number of at least two digits below `radix^width` needs `width >= 2`,
      and dropping its last digit leaves it below `radix^(width-1)`. */
  lemma QuotientBound(n: nat, radix: nat, width: nat)
    requires 2 <= radix && radix <= n < Pow(radix, width)
    ensures width >= 2 && n / radix < Pow(radix, width - 1)
  {
    assert width != 0;
    var k := Pow(radix, width - 1);
    assert Pow(radix, width) == radix * k;
    DivBound(n, radix, k);
  }

  lemma DigitsStep(n: nat, radix: nat, upper: bool)
    requires 2 <= radix <= 16 && n >= radix
    ensures |Digits(n, radix, upper)| == |Digits(n / radix, radix, upper)| + 1
  {
  }

  /** Dividing by at least two makes a positive number smaller. */
  lemma DivSmaller(n: nat, d: nat)
    requires d >= 2 && n >= 1
    ensures n / d < n
  {
  }

  lemma DivBound(n: nat, d: nat, k: nat)
    requires d > 0 && n < d * k
    ensures n / d < k
  {
  }

  /** `s` left-padded with `c` to at least `width` characters. */
  function PadLeft(s: string, width: nat, c: char): (r: string)
    ensures |r| == if |s| >= width then |s| else width
    ensures r[|r| - |s|..] == s
    ensures forall i | 0 <= i < |r| - |s| :: r[i] == c
    decreases width - |s|
  {
    if |s| >= width then s else PadLeft([c] + s, width, c)
  }

  lemma LeadingZeros(s: string, k: nat, radix: nat)
    requires 2 <= radix && AllDigits(s, radix) && k <= |s|
    requires forall i | 0 <= i < k :: s[i] == '0'
    ensures DigitsValue(s, radix) == DigitsValue(s[k..], radix)
    decreases |s|
  {
    if |s| > k {
      LeadingZeros(s[..|s| - 1], k, radix);
      assert s[..|s| - 1][k..] == s[k..][..|s[k..]| - 1];
    } else {
      assert forall j | 0 <= j <= |s| :: DigitsValue(s[..j], radix) == 0 by {
        forall j | 0 <= j <= |s| ensures DigitsValue(s[..j], radix) == 0 {
          ZeroPrefix(s, j, radix);
        }
      }
      assert s[..|s|] == s;
    }
  }

  lemma ZeroPrefix(s: string, j: nat, radix: nat)
    requires 2 <= radix && AllDigits(s, radix) && j <= |s|
    requires forall i | 0 <= i < |s| :: s[i] == '0'
    ensures DigitsValue(s[..j], radix) == 0
  {
    if j > 0 {
      ZeroPrefix(s, j - 1, radix);
      assert s[..j][..j - 1] == s[..j - 1];
    }
  }

  /** `format!("{:0w$x}", n)` (or `X` when `upper`): hexadecimal, zero padded to `width`. */
  function Hex(n: nat, width: nat, upper: bool): (r: string)
    ensures |r| >= 1 && AllDigits(r, 16)
    ensures DigitsValue(r, 16) == n
  {
    var d := Digits(n, 16, upper);
    DigitsRoundTrip(n, 16, upper);
    ZeroPadded(d, width, 16);
    PadLeft(d, width, '0')
  }

  /** Leading zeros keep a digit string's value. */
  lemma ZeroPadded(d: string, width: nat, radix: nat)
    requires 2 <= radix && AllDigits(d, radix)
    ensures AllDigits(PadLeft(d, width, '0'), radix)
    ensures DigitsValue(PadLeft(d, width, '0'), radix) == DigitsValue(d, radix)
  {
    var r := PadLeft(d, width, '0');
    forall i | 0 <= i < |r|
      ensures DigitValue(r[i], radix).Some?
    {
      if i >= |r| - |d| {
        assert r[i] == r[|r| - |d|..][i - (|r| - |d|)];
      }
    }
    LeadingZeros(r, |r| - |d|, radix);
  }

  /** A number below `16^width` is padded to exactly `width` digits. */
  lemma HexWidth(n: nat, width: nat, upper: bool)
    requires width >= 1 && n < Pow(16, width)
    ensures |Hex(n, width, upper)| == width
  {
    DigitsLength(n, 16, upper, width);
  }

  /** `format!("{}", n)` for an unsigned integer. */
  function Decimal(n: nat): (r: string)
    ensures |r| >= 1 && AllDigits(r, 10)
  {
    Digits(n, 10, false)
  }

  /** The decimal digits read back as the number. */
  lemma DecimalValue(n: nat)
    ensures DigitsValue(Decimal(n), 10) == n
  {
    DigitsRoundTrip(n, 10, false);
  }

  /** `format!("{}", i)` for a signed integer: a minus sign before negative values. */
  function SignedDecimal(i: int): (r: string)
    ensures |r| >= 1
    ensures i < 0 <==> r[0] == '-'
    ensures r == if i < 0 then "-" + Decimal(-i) else Decimal(i)
  {
    if i < 0 then "-" + Decimal(-i) else Decimal(i)
  }

  lemma DecimalInjective(m: nat, n: nat)
    requires Decimal(m) == Decimal(n)
    ensures m == n
  {
    DecimalValue(m);
    DecimalValue(n);
  }

  /** `from_str_radix` for an unsigned Rust integer whose values are below
      `limit`: an optional `+`, then at least one digit of `radix`, and the
      value must fit. Anything else is an error (`None`). */
  function ParseUnsigned(s: string, radix: nat, limit: nat): (r: Option<nat>)
    ensures r.Some? ==> r.value < limit
    ensures r.Some? <==>
      var digits := if |s| > 0 && s[0] == '+' then s[1..] else s;
      |digits| > 0 && AllDigits(digits, radix) && DigitsValue(digits, radix) < limit
    ensures r.Some? ==> r.value == DigitsValue(if |s| > 0 && s[0] == '+' then s[1..] else s, radix)
  {
    var digits := if |s| > 0 && s[0] == '+' then s[1..] else s;
    if |digits| > 0 && AllDigits(digits, radix) && DigitsValue(digits, radix) < limit then
      Some(DigitsValue(digits, radix))
    else None
  }

  /** Printing a number that fits and parsing it back gives the number. */
  lemma ParseDecimal(n: nat, limit: nat)
    requires n < limit
    ensures ParseUnsigned(Decimal(n), 10, limit) == Some(n)
  {
    var d := Decimal(n);
    DecimalValue(n);
    assert d[0] != '+' by {
      assert DigitValue(d[0], 10).Some?;
    }
    var r := ParseUnsigned(d, 10, limit);
    assert r.Some?;
    assert r.value == DigitsValue(d, 10);
  }

  lemma ParseHex(n: nat, width: nat, upper: bool, limit: nat)
    requires n < limit
    ensures ParseUnsigned(Hex(n, width, upper), 16, limit) == Some(n)
  {
    var h := Hex(n, width, upper);
    assert h[0] != '+' by {
      assert DigitValue(h[0], 16).Some?;
    }
    var r := ParseUnsigned(h, 16, limit);
    assert r.Some?;
    assert r.value == DigitsValue(h, 16);
  }

  // ---------------------------------------------------------------------
  // UTF-8

  /** Bytes UTF-8 needs for `c`. */
  function Utf8Width(c: char): nat {
    if c as int < 0x80 then 1 else if c as int < 0x800 then 2 else if c as int < 0x1_0000 then 3 else 4
  }

  /** The UTF-8 encoding of one scalar value. */
  function Utf8Char(c: char): (r: seq<u8>)
    ensures |r| == Utf8Width(c)
  {
    var v := c as int;
    if v < 0x80 then [v]
    else if v < 0x800 then [0xC0 + v / 0x40, 0x80 + v % 0x40]
    else if v < 0x1_0000 then [0xE0 + v / 0x1000, 0x80 + (v / 0x40) % 0x40, 0x80 + v % 0x40]
    else [0xF0 + v / 0x4_0000, 0x80 + (v / 0x1000) % 0x40, 0x80 + (v / 0x40) % 0x40, 0x80 + v % 0x40]
  }

  /** `str::as_bytes`: the UTF-8 encoding of a string. */
  function Utf8(s: string): (r: seq<u8>)
    ensures |r| == Utf8Len(s)
  {
    if |s| == 0 then [] else Utf8Char(s[0]) + Utf8(s[1..])
  }

  /** `str::len`: the length in UTF-8 bytes, not in characters. */
  function Utf8Len(s: string): nat {
    if |s| == 0 then 0 else Utf8Width(s[0]) + Utf8Len(s[1..])
  }

  predicate IsAscii(s: string) {
    forall i | 0 <= i < |s| :: s[i] as int < 0x80
  }

  /** Digit characters are ASCII. */
  lemma DigitsAscii(s: string, radix: nat)
    requires AllDigits(s, radix)
    ensures IsAscii(s)
  {
    forall i | 0 <= i < |s|
      ensures s[i] as int < 0x80
    {
      assert DigitValue(s[i], radix).Some?;
    }
  }

  /** For ASCII text the byte length is the character count and the bytes are the code points. */
  lemma {:induction false} AsciiUtf8(s: string)
    requires IsAscii(s)
    ensures Utf8Len(s) == |s|
    ensures forall i | 0 <= i < |s| :: Utf8(s)[i] == s[i] as int
  {
    if |s| > 0 {
      AsciiUtf8(s[1..]);
      assert Utf8(s) == [s[0] as int] + Utf8(s[1..]);
    }
  }

  /** Every character takes at least one byte, so the byte length bounds the character count. */
  lemma {:induction false} Utf8LenAtLeastLength(s: string)
    ensures Utf8Len(s) >= |s|
    ensures Utf8Len(s) == |s| <==> IsAscii(s)
  {
    if |s| > 0 {
      Utf8LenAtLeastLength(s[1..]);
      if IsAscii(s[1..]) && s[0] as int < 0x80 {
        assert forall i | 1 <= i < |s| :: s[i] == s[1..][i - 1];
      }
    }
  }

  // ---------------------------------------------------------------------
  // Scalar values

  /** A Unicode scalar value: a code point that is not a surrogate. */
  predicate IsScalar(i: int) {
    0 <= i < 0xD800 || 0xE000 <= i < 0x11_0000
  }

  /** `char::from_u32`: the character with code `i`, if `i` is a scalar value. */
  function FromU32(i: int): (r: Option<char>)
    ensures r.Some? <==> IsScalar(i)
    ensures r.Some? ==> r.value as int == i
  {
    if IsScalar(i) then Some(i as char) else None
  }

  // ---------------------------------------------------------------------
  // Words of a printed line

  /** The text before the first `sep`, or all of `s` when there is none. */
  function Before(s: string, sep: char): (r: string)
    ensures sep !in r
  {
    if |s| == 0 || s[0] == sep then [] else [s[0]] + Before(s[1..], sep)
  }

  /** The text after the last `sep`, or all of `s` when there is none. */
  function AfterLast(s: string, sep: char): (r: string)
    ensures sep !in r
  {
    if |s| == 0 || s[|s| - 1] == sep then [] else AfterLast(s[..|s| - 1], sep) + [s[|s| - 1]]
  }

  /** A word without the separator is read back whole from the front of a line. */
  lemma {:induction false} BeforeJoin(w: string, sep: char, rest: string)
    requires sep !in w
    ensures Before(w + [sep] + rest, sep) == w
  {
    if |w| > 0 {
      assert (w + [sep] + rest)[1..] == w[1..] + [sep] + rest;
      BeforeJoin(w[1..], sep, rest);
    }
  }

  /** A word without the separator is read back whole from the end of a line. */
  lemma {:induction false} AfterLastJoin(rest: string, sep: char, w: string)
    requires sep !in w
    ensures AfterLast(rest + [sep] + w, sep) == w
  {
    var s := rest + [sep] + w;
    if |w| > 0 {
      assert s[..|s| - 1] == rest + [sep] + w[..|w| - 1];
      AfterLastJoin(rest, sep, w[..|w| - 1]);
    }
  }

  /** A character that is no digit of `radix` does not occur in a digit string. */
  lemma NotADigit(s: string, radix: nat, c: char)
    requires AllDigits(s, radix) && DigitValue(c, radix).None?
    ensures c !in s
  {
  }
}

=== FILE: view.dfy ===
/** The `view` subcommand's own logic: which of its three inputs was given,
    how code points, glyph indices and feature lists are read from the
    command line, and the SVG mode it asks for. Shaping, table loading and
    `tag::from_string` belong to the font library; the latter is a parameter. */
module View {
  import opened Wrappers
  import opened Errors
  import opened Text
  import opened Glyph
  import Style
  import Writer
  import Tags

  // ---------------------------------------------------------------------
  // Inputs

  datatype Input = TextInput(text: string) | CodepointsInput(codepoints: string) | IndicesInput(indices: string)

  function Given(o: Option<string>): nat {
    if o.Some? then 1 else 0
  }

  /** The exclusivity check in `main`: exactly one of `--text`,
      `--codepoints` and `--indices`, otherwise exit code 1. */
  function SelectInput(text: Option<string>, codepoints: Option<string>, indices: Option<string>): (r: Option<Input>)
    ensures r.Some? <==> Given(text) + Given(codepoints) + Given(indices) == 1
    ensures r.Some? && text.Some? ==> r.value == TextInput(text.value)
    ensures r.Some? && codepoints.Some? ==> r.value == CodepointsInput(codepoints.value)
    ensures r.Some? && indices.Some? ==> r.value == IndicesInput(indices.value)
  {
    match (text, codepoints, indices)
    case (Some(t), None, None) => Some(TextInput(t))
    case (None, Some(c), None) => Some(CodepointsInput(c))
    case (None, None, Some(i)) => Some(IndicesInput(i))
    case _ => None
  }

  /** The panics of the argument readers (`expect`), with the offending item. */
  datatype ViewPanic =
    | InvalidHex(item: string)
    | InvalidIndex(item: string)
    | InvalidFeature(item: string)
    | InvalidLanguage(lang: string)

  // ---------------------------------------------------------------------
  // Code points

  /** `char::from_u32(i).unwrap_or('\u{FFFD}')`. */
  function CharOrReplacement(i: nat): (c: char)
    ensures IsScalar(i) ==> c as int == i
    ensures !IsScalar(i) ==> c == '�'
  {
    if IsScalar(i) then i as char else '�'
  }

  /** `hex_string_to_char`: hexadecimal as a `u32`, or a panic. */
  function HexToChar(hex: string): (r: Result<char, ViewPanic>)
    ensures r.Ok? <==> ParseUnsigned(hex, 16, 0x1_0000_0000).Some?
    ensures r.Ok? ==> r.value == CharOrReplacement(ParseUnsigned(hex, 16, 0x1_0000_0000).value)
    ensures r.Err? ==> r.error == InvalidHex(hex)
  {
    match ParseUnsigned(hex, 16, 0x1_0000_0000)
    case None => Err(InvalidHex(hex))
    case Some(i) => Ok(CharOrReplacement(i))
  }

  /** `parse_codepoints`: one character per comma-separated, trimmed item,
      in order. */
  function ParseCodepoints(codepoints: string): (r: Result<string, ViewPanic>)
    ensures var items := SplitTrim(codepoints, ',');
            && (r.Ok? <==> forall k :: 0 <= k < |items| ==> HexToChar(items[k]).Ok?)
            && (r.Ok? ==> |r.value| == |items| && forall k :: 0 <= k < |items| ==> r.value[k] == HexToChar(items[k]).value)
            && (r.Err? ==> exists k | 0 <= k < |items| ::
                  (forall j | 0 <= j < k :: HexToChar(items[j]).Ok?) && HexToChar(items[k]) == Err(r.error))
  {
    Collect(item => HexToChar(item), SplitTrim(codepoints, ','))
  }

  /** An empty item, and so an empty argument, panics. */
  lemma EmptyCodepointsPanic()
    ensures ParseCodepoints("") == Err(InvalidHex(""))
  {
    assert Split("", ',') == [""];
    SplitTrimItems("", ',');
  }

  /** Digits are neither whitespace nor commas: a number written out is one
      trimmed item of a comma-separated list. */
  lemma DigitItem(s: string, radix: nat)
    requires |s| >= 1 && AllDigits(s, radix)
    ensures ',' !in s && Trim(s) == s
  {
    assert DigitValue(s[0], radix).Some? && DigitValue(s[|s| - 1], radix).Some?;
    TrimOfTrimmed(s);
    forall i | 0 <= i < |s|
      ensures s[i] != ','
    {
      assert DigitValue(s[i], radix).Some?;
    }
  }

  lemma HexItemReadsBack(n: nat, upper: bool)
    requires n < 0x1_0000_0000
    ensures ',' !in Hex(n, 0, upper) && Trim(Hex(n, 0, upper)) == Hex(n, 0, upper)
    ensures HexToChar(Hex(n, 0, upper)) == Ok(CharOrReplacement(n))
  {
    DigitItem(Hex(n, 0, upper), 16);
    ParseHex(n, 0, upper, 0x1_0000_0000);
  }

  /** Numbers printed in hexadecimal, `{:x}` or `{:X}`. */
  function HexItems(codes: seq<nat>, upper: bool): (items: seq<string>)
    ensures |items| == |codes| && forall k :: 0 <= k < |codes| ==> items[k] == Hex(codes[k], 0, upper)
  {
    if codes == [] then [] else [Hex(codes[0], 0, upper)] + HexItems(codes[1..], upper)
  }

  /** Writing `u32` values in hexadecimal, comma-separated, and reading them
      back gives one character per value: the value itself when it is a
      Unicode scalar value and U+FFFD otherwise. */
  lemma CodepointsRoundTrip(codes: seq<nat>, upper: bool)
    requires |codes| > 0 && forall k :: 0 <= k < |codes| ==> codes[k] < 0x1_0000_0000
    ensures ParseCodepoints(Join(HexItems(codes, upper), ',')) == Ok(CharsOf(codes))
  {
    var items := HexItems(codes, upper);
    var chars := CharsOf(codes);
    HexItemsReadBack(codes, upper);
    SplitTrimJoin(items, ',');
    ItemsReadAs(Join(items, ','), items, chars);
  }

  /** Code points that split into items each reading as the matching
      character read as the text. */
  lemma ItemsReadAs(codepoints: string, items: seq<string>, text: string)
    requires SplitTrim(codepoints, ',') == items && |items| == |text|
    requires forall k :: 0 <= k < |items| ==> HexToChar(items[k]) == Ok(text[k])
    ensures ParseCodepoints(codepoints) == Ok(text)
  {
    var r := ParseCodepoints(codepoints);
    assert r.Ok?;
    assert r.value == text;
  }

  /** The characters `hex_string_to_char` gives for numbers that fit a `u32`. */
  function CharsOf(codes: seq<nat>): (chars: string)
    ensures |chars| == |codes| && forall k :: 0 <= k < |codes| ==> chars[k] == CharOrReplacement(codes[k])
  {
    if codes == [] then [] else [CharOrReplacement(codes[0])] + CharsOf(codes[1..])
  }

  lemma HexItemsReadBack(codes: seq<nat>, upper: bool)
    requires forall k :: 0 <= k < |codes| ==> codes[k] < 0x1_0000_0000
    ensures var items := HexItems(codes, upper);
            forall k :: 0 <= k < |items| ==>
              ',' !in items[k] && Trim(items[k]) == items[k] && HexToChar(items[k]) == Ok(CharsOf(codes)[k])
  {
    var items := HexItems(codes, upper);
    forall k | 0 <= k < |items|
      ensures ',' !in items[k] && Trim(items[k]) == items[k]
      ensures HexToChar(items[k]) == Ok(CharOrReplacement(codes[k]))
    {
      HexItemReadsBack(codes[k], upper);
    }
  }

  /** The code points of a text. */
  function Codes(text: string): (codes: seq<nat>)
    ensures |codes| == |text| && forall k :: 0 <= k < |text| ==> codes[k] == text[k] as int < 0x11_0000
  {
    if text == [] then [] else [text[0] as int] + Codes(text[1..])
  }

  /** A character's code point is a scalar value, so it reads back as itself. */
  lemma CharsOfCodes(text: string)
    ensures CharsOf(Codes(text)) == text
  {
    var chars := CharsOf(Codes(text));
    forall k | 0 <= k < |text|
      ensures chars[k] == text[k]
    {
      assert IsScalar(text[k] as int);
    }
  }

  /** In particular, any non-empty text survives being written as its code points. */
  lemma TextRoundTrip(text: string, upper: bool)
    requires |text| > 0
    ensures ParseCodepoints(Join(HexItems(Codes(text), upper), ',')) == Ok(text)
  {
    CharsOfCodes(text);
    CodepointsRoundTrip(Codes(text), upper);
  }

  // ---------------------------------------------------------------------
  // Glyph indices

  /** `make_raw_glyph`: a glyph given by index only; its origin is the
      placeholder character `x`. */
  function MakeRawGlyph(glyphIndex: u16): (g: RawGlyph)
    ensures g.glyphIndex == glyphIndex && g.unicodes == [] && g.origin == Char('x')
    ensures g.ligaComponentPos == 0 && g.variation == None
    ensures !g.smallCaps && !g.multiSubstDup && !g.isVertAlt && !g.fakeBold && !g.fakeItalic
  {
    RawGlyph([], glyphIndex, 0, Char('x'), false, false, false, false, false, None)
  }

  /** `string_to_u16` then `make_raw_glyph`: decimal below 65536, or a panic. */
  function IndexToGlyph(item: string): (r: Result<RawGlyph, ViewPanic>)
    ensures r.Ok? <==> ParseUnsigned(item, 10, 0x1_0000).Some?
    ensures r.Ok? ==> r.value == MakeRawGlyph(ParseUnsigned(item, 10, 0x1_0000).value)
    ensures r.Err? ==> r.error == InvalidIndex(item)
  {
    match ParseUnsigned(item, 10, 0x1_0000)
    case None => Err(InvalidIndex(item))
    case Some(i) => Ok(MakeRawGlyph(i))
  }

  /** `parse_glyph_indices`: one glyph per comma-separated, trimmed item. */
  function ParseGlyphIndices(indices: string): (r: Result<seq<RawGlyph>, ViewPanic>)
    ensures var items := SplitTrim(indices, ',');
            && (r.Ok? <==> forall k :: 0 <= k < |items| ==> IndexToGlyph(items[k]).Ok?)
            && (r.Ok? ==> |r.value| == |items| && forall k :: 0 <= k < |items| ==> r.value[k] == IndexToGlyph(items[k]).value)
            && (r.Err? ==> exists k | 0 <= k < |items| ::
                  (forall j | 0 <= j < k :: IndexToGlyph(items[j]).Ok?) && IndexToGlyph(items[k]) == Err(r.error))
  {
    Collect(item => IndexToGlyph(item), SplitTrim(indices, ','))
  }

  function DecimalItems(ids: seq<u16>): (items: seq<string>)
    ensures |items| == |ids| && forall k :: 0 <= k < |ids| ==> items[k] == Decimal(ids[k])
  {
    if ids == [] then [] else [Decimal(ids[0])] + DecimalItems(ids[1..])
  }

  /** Glyph ids written in decimal, comma-separated, read back as the glyphs
      with those ids, in order. */
  lemma GlyphIndicesRoundTrip(ids: seq<u16>)
    requires |ids| > 0
    ensures var r := ParseGlyphIndices(Join(DecimalItems(ids), ','));
            r.Ok? && |r.value| == |ids| && forall k :: 0 <= k < |ids| ==> r.value[k].glyphIndex == ids[k]
  {
    var items := DecimalItems(ids);
    forall k | 0 <= k < |items|
      ensures ',' !in items[k] && Trim(items[k]) == items[k]
      ensures IndexToGlyph(items[k]) == Ok(MakeRawGlyph(ids[k]))
    {
      DigitItem(Decimal(ids[k]), 10);
      ParseDecimal(ids[k], 0x1_0000);
    }
    SplitTrimJoin(items, ',');
  }

  // ---------------------------------------------------------------------
  // Features

  datatype FeatureInfo = FeatureInfo(featureTag: u32, alternate: Option<nat>)

  /** The default mask, or an explicit list of features. */
  datatype Features = DefaultMask | Custom(infos: seq<FeatureInfo>)

  function FeatureOf(fromString: string -> Result<u32, ParseError>, item: string): (r: Result<FeatureInfo, ViewPanic>)
    ensures r.Ok? <==> fromString(item).Ok?
    ensures r.Ok? ==> r.value == FeatureInfo(fromString(item).value, None)
    ensures r.Err? ==> r.error == InvalidFeature(item)
  {
    match fromString(item)
    case Err(_) => Err(InvalidFeature(item))
    case Ok(t) => Ok(FeatureInfo(t, None))
  }

  /** `parse_features` when `--features` is given, and the default mask
      otherwise: comma-separated, trimmed tags, in order, none with an
      alternate. */
  function ParseFeatures(fromString: string -> Result<u32, ParseError>, features: Option<string>): (r: Result<Features, ViewPanic>)
    ensures features.None? ==> r == Ok(DefaultMask)
    ensures features.Some? ==>
              var items := SplitTrim(features.value, ',');
              && (r.Ok? <==> forall k :: 0 <= k < |items| ==> fromString(items[k]).Ok?)
              && (r.Ok? ==> r.value.Custom? && |r.value.infos| == |items| && forall k :: 0 <= k < |items| ==>
                    r.value.infos[k] == FeatureInfo(fromString(items[k]).value, None))
              && (r.Err? ==> exists k | 0 <= k < |items| ::
                    (forall j | 0 <= j < k :: FeatureOf(fromString, items[j]).Ok?) && FeatureOf(fromString, items[k]) == Err(r.error))
  {
    match features
    case None => Ok(DefaultMask)
    case Some(list) =>
      var infos :- Collect(item => FeatureOf(fromString, item), SplitTrim(list, ','));
      Ok(Custom(infos))
  }

  /** Feature names written comma-separated read back as the features
      `fromString` gives those names, in order, provided each name is
      non-empty, free of commas and of surrounding white space, and read
      without error. */
  lemma FeaturesRoundTrip(fromString: string -> Result<u32, ParseError>, names: seq<string>)
    requires |names| > 0
    requires forall k | 0 <= k < |names| :: ',' !in names[k] && Trim(names[k]) == names[k]
    requires forall k | 0 <= k < |names| :: fromString(names[k]).Ok?
    ensures var r := ParseFeatures(fromString, Some(Join(names, ',')));
            r.Ok? && r.value.Custom? && |r.value.infos| == |names|
            && forall k | 0 <= k < |names| :: r.value.infos[k] == FeatureInfo(fromString(names[k]).value, None)
  {
    SplitTrimJoin(names, ',');
  }

  /** With the tag reader of the tags module: names of one to four
      printable characters come back as the tags holding those characters,
      padded with spaces. */
  lemma FeatureTagsRoundTrip(names: seq<string>)
    requires |names| > 0
    requires forall k | 0 <= k < |names| :: |names[k]| <= 4 && Tags.AllPrintable(names[k])
    requires forall k | 0 <= k < |names| :: ',' !in names[k] && Trim(names[k]) == names[k]
    ensures var r := ParseFeatures(Tags.TagFromString, Some(Join(names, ',')));
            r.Ok? && r.value.Custom? && |r.value.infos| == |names|
            && forall k | 0 <= k < |names| ::
                 Tags.TagChars(r.value.infos[k].featureTag) == names[k] + Tags.Spaces(4 - |names[k]|)
                 && r.value.infos[k].alternate.None?
  {
    FeaturesRoundTrip(Tags.TagFromString, names);
  }

  // ---------------------------------------------------------------------
  // Mode and the command's set-up

  /** `SVGMode::from`: view mode with the `--mark-origin` flag. The
      conversion names no margin and no colours; this model fills in a zero
      margin and no colours, which are its own choice. */
  function ModeOf(markOrigin: bool): (mode: Writer.SvgMode)
    ensures mode.View? && (Writer.Annotates(mode) <==> markOrigin)
    ensures mode.margin == Style.Margin(0.0, 0.0, 0.0, 0.0) && mode.fg.None? && mode.bg.None?
  {
    Writer.View(markOrigin, Style.Margin(0.0, 0.0, 0.0, 0.0), None, None)
  }

  datatype Setup = Setup(script: u32, lang: Option<u32>, input: Input, features: Features)

  datatype Outcome =
    | ScriptFailed(error: ParseError)
    | Panicked(panic: ViewPanic)
    | ExitCode(code: int)
    | Proceed(setup: Setup)

  /** `main` up to reading the font, in its order: the script tag (an error
      returned), the language tag (a panic), the input check (exit code 1),
      then the feature list (a panic). */
  function Start(fromString: string -> Result<u32, ParseError>, script: string, lang: Option<string>,
                 text: Option<string>, codepoints: Option<string>, indices: Option<string>,
                 features: Option<string>): (r: Outcome)
    ensures fromString(script).Err? ==> r == ScriptFailed(fromString(script).error)
    ensures fromString(script).Ok? && lang.Some? && fromString(lang.value).Err? ==> r == Panicked(InvalidLanguage(lang.value))
    ensures (fromString(script).Ok? && (lang.Some? ==> fromString(lang.value).Ok?)
             && SelectInput(text, codepoints, indices).None?) ==> r == ExitCode(1)
    ensures r.Proceed? <==> (fromString(script).Ok? && (lang.Some? ==> fromString(lang.value).Ok?)
                             && SelectInput(text, codepoints, indices).Some? && ParseFeatures(fromString, features).Ok?)
    ensures r.Proceed? ==> r.setup == Setup(fromString(script).value,
                                            if lang.Some? then Some(fromString(lang.value).value) else None,
                                            SelectInput(text, codepoints, indices).value,
                                            ParseFeatures(fromString, features).value)
  {
    match fromString(script)
    case Err(e) => ScriptFailed(e)
    case Ok(scriptTag) =>
      if lang.Some? && fromString(lang.value).Err? then Panicked(InvalidLanguage(lang.value))
      else
        var langTag := if lang.Some? then Some(fromString(lang.value).value) else None;
        match SelectInput(text, codepoints, indices)
        case None => ExitCode(1)
        case Some(input) =>
          match ParseFeatures(fromString, features)
          case Err(p) => Panicked(p)
          case Ok(fs) => Proceed(Setup(scriptTag, langTag, input, fs))
  }

  /** The glyphs to shape: text and code points go through the font's
      character mapping (a parameter), indices are used as they are. */
  function InputGlyphs(mapGlyphs: string -> seq<RawGlyph>, input: Input): (r: Result<seq<RawGlyph>, ViewPanic>)
    ensures input.TextInput? ==> r == Ok(mapGlyphs(input.text))
    ensures input.CodepointsInput? ==>
              (r.Ok? <==> ParseCodepoints(input.codepoints).Ok?) &&
              (r.Ok? ==> r.value == mapGlyphs(ParseCodepoints(input.codepoints).value))
    ensures input.IndicesInput? ==> r == ParseGlyphIndices(input.indices)
  {
    match input
    case TextInput(t) => Ok(mapGlyphs(t))
    case CodepointsInput(c) =>
      var text :- ParseCodepoints(c);
      Ok(mapGlyphs(text))
    case IndicesInput(i) => ParseGlyphIndices(i)
  }
}

=== FILE: wrappers.dfy ===
/** Optional values and results with an error, usable with `:-`.
    Rust's `Option` and `Result` map onto these one to one. */
module Wrappers {

  datatype Option<+T> = None | Some(value: T) {
    predicate IsFailure() { None? }

    function PropagateFailure<U>(): Option<U>
      requires None?
    {
      None
    }

    function Extract(): T
      requires Some?
    {
      value
    }

    function GetOr(default: T): T {
      if Some? then value else default
    }
  }

  datatype Result<+T, +E> = Ok(value: T) | Err(error: E) {
    predicate IsFailure() { Err? }

    function PropagateFailure<U>(): Result<U, E>
      requires Err?
    {
      Err(error)
    }

    function Extract(): T
      requires Ok?
    {
      value
    }

    function GetOr(default: T): T {
      if Ok? then value else default
    }
  }

  /** Rust's unsigned integer types, as ranges of the unbounded integers. */
  type u8 = x: int | 0 <= x < 0x100
  type u16 = x: int | 0 <= x < 0x1_0000
  type u32 = x: int | 0 <= x < 0x1_0000_0000

  /** `collect::<Result<Vec<_>, _>>()` of `f` mapped over `xs`: one result
      per item, in order, or the error of the first item that fails. */
  function Collect<A, G, E>(f: A -> Result<G, E>, xs: seq<A>): (r: Result<seq<G>, E>)
    ensures r.Ok? <==> forall k :: 0 <= k < |xs| ==> f(xs[k]).Ok?
    ensures r.Ok? ==> |r.value| == |xs| && forall k :: 0 <= k < |xs| ==> r.value[k] == f(xs[k]).value
    ensures r.Err? ==> exists k :: 0 <= k < |xs| && (forall j :: 0 <= j < k ==> f(xs[j]).Ok?)
                                   && f(xs[k]) == Err(r.error)
  {
    if xs == [] then Ok([])
    else
      var first :- f(xs[0]);
      var rest := Collect(f, xs[1..]);
      if rest.Err? then
        assert exists k :: 0 <= k < |xs| && (forall j :: 0 <= j < k ==> f(xs[j]).Ok?)
                           && f(xs[k]) == Err(rest.error) by {
          var k :| 0 <= k < |xs[1..]| && (forall j :: 0 <= j < k ==> f(xs[1..][j]).Ok?)
                   && f(xs[1..][k]) == Err(rest.error);
          forall j | 0 <= j < k + 1
            ensures f(xs[j]).Ok?
          {
            if j > 0 {
              assert xs[j] == xs[1..][j - 1];
            }
          }
          assert xs[k + 1] == xs[1..][k];
        }
        Err(rest.error)
      else
        assert forall k :: 1 <= k < |xs| ==> xs[k] == xs[1..][k - 1];
        Ok([first] + rest.value)
  }

  /** Dropping the first element of a concatenation drops it from the first part. */
  lemma TailOfAppend<T>(a: seq<T>, b: seq<T>)
    requires |a| > 0
    ensures (a + b)[0] == a[0] && (a + b)[1..] == a[1..] + b
  {
  }

  lemma AppendAssoc<T>(a: seq<T>, b: seq<T>, c: seq<T>)
    ensures (a + b) + c == a + (b + c)
  {
  }
}

=== FILE: writer.dfy ===
/** The current SVG writer: shaped glyphs become one `<symbol>` per distinct
    glyph, holding the glyph's outline as path data, and one `<use>` per
    glyph, placed at the pen plus the glyph's offset. Text-rendering-test
    mode prefixes ids with the testcase name and normalises paths; view mode
    annotates symbols with glyph data. The outline visitor and the glyph
    naming are parameters; the transform maps points to integer points. */
module Writer {
  import opened Wrappers
  import opened Text
  import Glyph
  import opened Script
  import opened Layout
  import opened Outline
  import opened Style

  /** Placement as the layout engine this writer is built against reports
      it, marks included. */
  datatype Placement =
    | NoPlacement
    | Distance(dx: int, dy: int)
    | MarkAnchor(baseIndex: nat, baseAnchor: Glyph.Anchor, markAnchor: Glyph.Anchor)
    | MarkOverprint(baseIndex: nat)
    | CursiveAnchor(exitIndex: nat)

  datatype Info = Info(glyph: Glyph.RawGlyph, placement: Placement)

  datatype SvgMode =
    | TextRenderingTests(prefix: string)
    | View(markOrigin: bool, margin: Margin, fg: Option<Colour>, bg: Option<Colour>)

  /** View mode with `mark_origin` set: each symbol gets a crosshair at its offset. */
  predicate Annotates(mode: SvgMode) {
    mode.View? && mode.markOrigin
  }

  datatype Symbol = Symbol(glyphName: string, path: string, info: Info, origin: Option<Point>)

  /** A `<use>` of symbol `symbolIndex` at a transformed point. */
  datatype Usage = Usage(symbolIndex: nat, point: Point)

  /** Everything the loop of `glyphs_to_svg_impl` keeps: the symbols with the
      sink state, the map from glyph index to symbol, the uses and the pen. */
  datatype Builder = Builder(
    symbols: seq<Symbol>,
    tracker: Tracker,
    symbolMap: map<u16, nat>,
    usage: seq<Usage>,
    x: int,
    y: int)

  type Item = (Info, GlyphPosition)

  function Gids(items: seq<Item>): (r: seq<u16>)
    ensures |r| == |items| && forall k | 0 <= k < |items| :: r[k] == items[k].0.glyph.glyphIndex
  {
    seq(|items|, k requires 0 <= k < |items| => items[k].0.glyph.glyphIndex)
  }

  /** The symbol name: the font's glyph name, otherwise `gid` and the index. */
  function GlyphName(naming: u16 -> Option<string>, gid: u16): (name: string)
    ensures naming(gid).Some? ==> name == naming(gid).value
  {
    match naming(gid)
    case Some(name) => name
    case None => "gid" + Decimal(gid)
  }

  /** A glyph without a name in the font is named `gid` and its index, which
      reads back as the index. */
  lemma FallbackName(naming: u16 -> Option<string>, gid: u16)
    requires naming(gid).None?
    ensures var name := GlyphName(naming, gid);
      |name| > 3 && name[..3] == "gid" && ParseUnsigned(name[3..], 10, 0x1_0000) == Some(gid)
  {
    ParseDecimal(gid, 0x1_0000);
    assert ("gid" + Decimal(gid))[3..] == Decimal(gid);
  }

  /** The use point: pen plus offset, through the transform. */
  function UsePoint(t: Point -> Point, x: int, y: int, pos: GlyphPosition): Point {
    t(Point(x + pos.xOffset, y + pos.yOffset))
  }

  /** One iteration of the loop. A glyph seen before is only used again; a
      new glyph gets a symbol, its outline is visited into that symbol's
      path (the sink writes to the last symbol) and then it is used. The pen
      moves by the glyph's advances either way. */
  function Step<E>(mode: SvgMode, t: Point -> Point, naming: u16 -> Option<string>,
                   visit: u16 -> Result<seq<OutlineCmd>, E>, b: Builder, item: Item): (r: Result<Builder, E>)
    ensures r.Ok? ==> |r.value.usage| == |b.usage| + 1
  {
    var (info, pos) := item;
    var gid := info.glyph.glyphIndex;
    var point := UsePoint(t, b.x, b.y, pos);
    if gid in b.symbolMap then
      Ok(b.(usage := b.usage + [Usage(b.symbolMap[gid], point)], x := b.x + pos.horiAdvance, y := b.y + pos.vertAdvance))
    else
      match visit(gid)
      case Err(e) => Err(e)
      case Ok(cmds) =>
        var index := |b.symbols|;
        var (tracker, path) := Feed(mode.TextRenderingTests?, Number, t, b.tracker, "", cmds);
        var origin := if Annotates(mode) then Some(Point(pos.xOffset, pos.yOffset)) else None;
        var symbol := Symbol(GlyphName(naming, gid), path, info, origin);
        Ok(Builder(b.symbols + [symbol], tracker, b.symbolMap[gid := index], b.usage + [Usage(index, point)],
                   b.x + pos.horiAdvance, b.y + pos.vertAdvance))
  }

  /** A step fails exactly when it meets a new glyph whose visit fails; it
      appends one use at the pen plus the item's offset, keeps the earlier
      uses and symbols, and moves the pen by the item's advances. */
  lemma StepFacts<E>(mode: SvgMode, t: Point -> Point, naming: u16 -> Option<string>,
                     visit: u16 -> Result<seq<OutlineCmd>, E>, b: Builder, item: Item)
    ensures var r := Step(mode, t, naming, visit, b, item);
      r.Ok? <==> item.0.glyph.glyphIndex in b.symbolMap || visit(item.0.glyph.glyphIndex).Ok?
    ensures var r := Step(mode, t, naming, visit, b, item);
      r.Ok? ==> r.value.usage[..|b.usage|] == b.usage && r.value.usage[|b.usage|].point == UsePoint(t, b.x, b.y, item.1)
    ensures var r := Step(mode, t, naming, visit, b, item);
      r.Ok? ==> r.value.x == b.x + item.1.horiAdvance && r.value.y == b.y + item.1.vertAdvance
    ensures var r := Step(mode, t, naming, visit, b, item);
      r.Ok? ==> |b.symbols| <= |r.value.symbols| && r.value.symbols[..|b.symbols|] == b.symbols
  {
  }

  /** What a step does to the symbols and the map: nothing for a glyph seen
      before; for a new glyph, one symbol for it at the end and a map entry
      pointing there. */
  lemma StepShape<E>(mode: SvgMode, t: Point -> Point, naming: u16 -> Option<string>,
                     visit: u16 -> Result<seq<OutlineCmd>, E>, b: Builder, item: Item)
    requires Step(mode, t, naming, visit, b, item).Ok?
    ensures var r, gid := Step(mode, t, naming, visit, b, item).value, item.0.glyph.glyphIndex;
      gid in b.symbolMap ==>
        && r.symbols == b.symbols && r.symbolMap == b.symbolMap
        && r.usage[|b.usage|].symbolIndex == b.symbolMap[gid]
    ensures var r, gid := Step(mode, t, naming, visit, b, item).value, item.0.glyph.glyphIndex;
      gid !in b.symbolMap ==>
        && |r.symbols| == |b.symbols| + 1
        && r.symbols[|b.symbols|].info == item.0
        && SymbolGid(r.symbols[|b.symbols|]) == gid
        && r.symbols[|b.symbols|].glyphName == GlyphName(naming, gid)
        && visit(gid).Ok?
        && r.symbols[|b.symbols|].path == Feed(mode.TextRenderingTests?, Number, t, b.tracker, "", visit(gid).value).1
        && r.symbols[|b.symbols|].origin == (if Annotates(mode) then Some(Point(item.1.xOffset, item.1.yOffset)) else None)
        && r.symbolMap == b.symbolMap[gid := |b.symbols|]
        && r.usage[|b.usage|].symbolIndex == |b.symbols|
  {
  }

  const Start: Builder := Builder([], Tracker(Point(0, 0), None), map[], [], 0, 0)

  /** The loop over the first `n` items. */
  function Build<E>(mode: SvgMode, t: Point -> Point, naming: u16 -> Option<string>,
                    visit: u16 -> Result<seq<OutlineCmd>, E>, items: seq<Item>, n: nat): (r: Result<Builder, E>)
    requires n <= |items|
    ensures r.Ok? ==> |r.value.usage| == n
  {
    if n == 0 then Ok(Start)
    else
      var b :- Build(mode, t, naming, visit, items, n - 1);
      Step(mode, t, naming, visit, b, items[n - 1])
  }

  /** After `n` items the pen has moved by the advances of those items. */
  lemma {:induction false} BuildPen<E>(mode: SvgMode, t: Point -> Point, naming: u16 -> Option<string>,
                                       visit: u16 -> Result<seq<OutlineCmd>, E>, items: seq<Item>, n: nat)
    requires n <= |items| && Build(mode, t, naming, visit, items, n).Ok?
    ensures Build(mode, t, naming, visit, items, n).value.x == PenX(items, n)
    ensures Build(mode, t, naming, visit, items, n).value.y == PenY(items, n)
  {
    if n > 0 {
      BuildOkBefore(mode, t, naming, visit, items, n);
      BuildPen(mode, t, naming, visit, items, n - 1);
      BuildPenStep(mode, t, naming, visit, items, n);
    }
  }

  lemma BuildPenStep<E>(mode: SvgMode, t: Point -> Point, naming: u16 -> Option<string>,
                      visit: u16 -> Result<seq<OutlineCmd>, E>, items: seq<Item>, n: nat)
    requires 0 < n <= |items| && Build(mode, t, naming, visit, items, n).Ok?
    requires Build(mode, t, naming, visit, items, n - 1).Ok?
    requires Build(mode, t, naming, visit, items, n - 1).value.x == PenX(items, n - 1)
    requires Build(mode, t, naming, visit, items, n - 1).value.y == PenY(items, n - 1)
    ensures Build(mode, t, naming, visit, items, n).value.x == PenX(items, n)
    ensures Build(mode, t, naming, visit, items, n).value.y == PenY(items, n)
  {
    BuildUnfold(mode, t, naming, visit, items, n);
    StepFacts(mode, t, naming, visit, Build(mode, t, naming, visit, items, n - 1).value, items[n - 1]);
  }

  /** Use `k` is at the pen before item `k` plus the item's offset. */
  lemma {:induction false} BuildPoints<E>(mode: SvgMode, t: Point -> Point, naming: u16 -> Option<string>,
                                          visit: u16 -> Result<seq<OutlineCmd>, E>, items: seq<Item>, n: nat)
    requires n <= |items| && Build(mode, t, naming, visit, items, n).Ok?
    ensures forall k | 0 <= k < n ::
      Build(mode, t, naming, visit, items, n).value.usage[k].point == UsePoint(t, PenX(items, k), PenY(items, k), items[k].1)
  {
    forall k | 0 <= k < n
      ensures Build(mode, t, naming, visit, items, n).value.usage[k].point == UsePoint(t, PenX(items, k), PenY(items, k), items[k].1)
    {
      BuildPoint(mode, t, naming, visit, items, n, k);
    }
  }

  lemma {:induction false} BuildPoint<E>(mode: SvgMode, t: Point -> Point, naming: u16 -> Option<string>,
                                         visit: u16 -> Result<seq<OutlineCmd>, E>, items: seq<Item>, n: nat, k: nat)
    requires k < n <= |items| && Build(mode, t, naming, visit, items, n).Ok?
    ensures Build(mode, t, naming, visit, items, n).value.usage[k].point == UsePoint(t, PenX(items, k), PenY(items, k), items[k].1)
  {
    if k < n - 1 {
      BuildOkBefore(mode, t, naming, visit, items, n);
      BuildPoint(mode, t, naming, visit, items, n - 1, k);
      BuildKeepsUse(mode, t, naming, visit, items, n, k);
    } else {
      BuildLastPoint(mode, t, naming, visit, items, n);
    }
  }

  /** A step keeps the uses made before it. */
  lemma BuildKeepsUse<E>(mode: SvgMode, t: Point -> Point, naming: u16 -> Option<string>,
                         visit: u16 -> Result<seq<OutlineCmd>, E>, items: seq<Item>, n: nat, k: nat)
    requires k < n - 1 && n <= |items| && Build(mode, t, naming, visit, items, n).Ok?
    ensures Build(mode, t, naming, visit, items, n - 1).Ok?
    ensures Build(mode, t, naming, visit, items, n).value.usage[k] == Build(mode, t, naming, visit, items, n - 1).value.usage[k]
  {
    BuildOkBefore(mode, t, naming, visit, items, n);
    BuildUnfold(mode, t, naming, visit, items, n);
    KeepsUses(Build(mode, t, naming, visit, items, n - 1).value.usage, Build(mode, t, naming, visit, items, n).value.usage);
  }

  /** The use a step adds is at the pen before it plus the item's offset. */
  lemma BuildLastPoint<E>(mode: SvgMode, t: Point -> Point, naming: u16 -> Option<string>,
                          visit: u16 -> Result<seq<OutlineCmd>, E>, items: seq<Item>, n: nat)
    requires 0 < n <= |items| && Build(mode, t, naming, visit, items, n).Ok?
    ensures Build(mode, t, naming, visit, items, n).value.usage[n - 1].point
         == UsePoint(t, PenX(items, n - 1), PenY(items, n - 1), items[n - 1].1)
  {
    BuildOkBefore(mode, t, naming, visit, items, n);
    BuildPen(mode, t, naming, visit, items, n - 1);
    BuildUnfold(mode, t, naming, visit, items, n);
  }

  /** Appending keeps the earlier uses. */
  lemma KeepsUses(before: seq<Usage>, after: seq<Usage>)
    requires |before| < |after| && after[..|before|] == before
    ensures forall k | 0 <= k < |before| :: after[k] == before[k]
  {
    assert forall k | 0 <= k < |before| :: after[..|before|][k] == after[k];
  }

  function SymbolGid(s: Symbol): u16 {
    s.info.glyph.glyphIndex
  }

  /** The map sends exactly the glyph indices seen so far to their symbols. */
  ghost predicate MapIndexed(seen: seq<u16>, b: Builder) {
    && (forall g: u16 :: g in b.symbolMap <==> g in seen)
    && (forall g | g in b.symbolMap :: b.symbolMap[g] < |b.symbols| && SymbolGid(b.symbols[b.symbolMap[g]]) == g)
  }

  /** Every use names the symbol of its glyph. */
  ghost predicate UsesIndexed(seen: seq<u16>, b: Builder) {
    && |b.usage| == |seen|
    && (forall k | 0 <= k < |seen| :: b.usage[k].symbolIndex < |b.symbols| && SymbolGid(b.symbols[b.usage[k].symbolIndex]) == seen[k])
  }

  /** One symbol per distinct glyph index, in first-occurrence order. */
  ghost predicate InFirstOccurrenceOrder(seen: seq<u16>, b: Builder) {
    && |b.symbols| == |FirstOccurrences(seen)|
    && (forall j | 0 <= j < |b.symbols| :: SymbolGid(b.symbols[j]) == FirstOccurrences(seen)[j])
  }

  /** The symbols and uses after the glyph indices `seen`. */
  ghost predicate Indexed(seen: seq<u16>, b: Builder) {
    MapIndexed(seen, b) && UsesIndexed(seen, b) && InFirstOccurrenceOrder(seen, b)
  }

  lemma SeenMap(seen: seq<u16>, g: u16, b: Builder, r: Builder)
    requires MapIndexed(seen, b) && g in b.symbolMap
    requires r.symbols == b.symbols && r.symbolMap == b.symbolMap
    ensures MapIndexed(seen + [g], r)
  {
  }

  lemma SeenUses(seen: seq<u16>, g: u16, b: Builder, r: Builder)
    requires UsesIndexed(seen, b) && MapIndexed(seen, b) && g in b.symbolMap
    requires r.symbols == b.symbols
    requires |r.usage| == |seen| + 1 && r.usage[..|seen|] == b.usage
    requires r.usage[|seen|].symbolIndex == b.symbolMap[g]
    ensures UsesIndexed(seen + [g], r)
  {
    assert forall k | 0 <= k < |seen| :: r.usage[k] == b.usage[k];
  }

  lemma SeenOrder(seen: seq<u16>, g: u16, b: Builder, r: Builder)
    requires InFirstOccurrenceOrder(seen, b) && g in seen
    requires r.symbols == b.symbols
    ensures InFirstOccurrenceOrder(seen + [g], r)
  {
    assert (seen + [g])[..|seen|] == seen;
  }

  lemma NewMap(seen: seq<u16>, g: u16, b: Builder, r: Builder)
    requires MapIndexed(seen, b) && g !in b.symbolMap
    requires |r.symbols| == |b.symbols| + 1 && r.symbols[..|b.symbols|] == b.symbols
    requires SymbolGid(r.symbols[|b.symbols|]) == g
    requires r.symbolMap == b.symbolMap[g := |b.symbols|]
    ensures MapIndexed(seen + [g], r)
  {
    assert forall j | 0 <= j < |b.symbols| :: r.symbols[j] == b.symbols[j];
  }

  lemma NewUses(seen: seq<u16>, g: u16, b: Builder, r: Builder)
    requires UsesIndexed(seen, b)
    requires |r.symbols| == |b.symbols| + 1 && r.symbols[..|b.symbols|] == b.symbols
    requires SymbolGid(r.symbols[|b.symbols|]) == g
    requires |r.usage| == |seen| + 1 && r.usage[..|seen|] == b.usage
    requires r.usage[|seen|].symbolIndex == |b.symbols|
    ensures UsesIndexed(seen + [g], r)
  {
    assert forall k | 0 <= k < |seen| :: r.usage[k] == b.usage[k];
    assert forall j | 0 <= j < |b.symbols| :: r.symbols[j] == b.symbols[j];
  }

  lemma NewOrder(seen: seq<u16>, g: u16, b: Builder, r: Builder)
    requires InFirstOccurrenceOrder(seen, b) && g !in seen
    requires |r.symbols| == |b.symbols| + 1 && r.symbols[..|b.symbols|] == b.symbols
    requires SymbolGid(r.symbols[|b.symbols|]) == g
    ensures InFirstOccurrenceOrder(seen + [g], r)
  {
    assert (seen + [g])[..|seen|] == seen;
    assert FirstOccurrences(seen + [g]) == FirstOccurrences(seen) + [g];
    assert forall j | 0 <= j < |b.symbols| :: r.symbols[j] == b.symbols[j];
  }

  /** One step keeps the indexing, whichever kind of glyph it meets. */
  lemma StepIndexed<E>(mode: SvgMode, t: Point -> Point, naming: u16 -> Option<string>,
                       visit: u16 -> Result<seq<OutlineCmd>, E>, seen: seq<u16>, b: Builder, item: Item)
    requires Indexed(seen, b) && Step(mode, t, naming, visit, b, item).Ok?
    ensures Indexed(seen + [item.0.glyph.glyphIndex], Step(mode, t, naming, visit, b, item).value)
  {
    var r := Step(mode, t, naming, visit, b, item).value;
    var g := item.0.glyph.glyphIndex;
    StepShape(mode, t, naming, visit, b, item);
    if g in b.symbolMap {
      SeenMap(seen, g, b, r);
      SeenUses(seen, g, b, r);
      SeenOrder(seen, g, b, r);
    } else {
      NewMap(seen, g, b, r);
      NewUses(seen, g, b, r);
      NewOrder(seen, g, b, r);
    }
  }

  /** The loop over `n` items is the loop over `n - 1` items and one step. */
  lemma BuildUnfold<E>(mode: SvgMode, t: Point -> Point, naming: u16 -> Option<string>,
                       visit: u16 -> Result<seq<OutlineCmd>, E>, items: seq<Item>, n: nat)
    requires 0 < n <= |items| && Build(mode, t, naming, visit, items, n - 1).Ok?
    ensures Build(mode, t, naming, visit, items, n)
         == Step(mode, t, naming, visit, Build(mode, t, naming, visit, items, n - 1).value, items[n - 1])
  {
  }

  /** A loop that succeeds over `n` items succeeded over the first `n - 1`. */
  lemma BuildOkBefore<E>(mode: SvgMode, t: Point -> Point, naming: u16 -> Option<string>,
                         visit: u16 -> Result<seq<OutlineCmd>, E>, items: seq<Item>, n: nat)
    requires 0 < n <= |items| && Build(mode, t, naming, visit, items, n).Ok?
    ensures Build(mode, t, naming, visit, items, n - 1).Ok?
  {
  }

  lemma GidsPrefix(items: seq<Item>, n: nat)
    requires 0 < n <= |items|
    ensures Gids(items)[..n] == Gids(items)[..n - 1] + [items[n - 1].0.glyph.glyphIndex]
  {
  }

  /** After the loop over `n` items the symbols and uses are indexed as
      `Indexed` says, for the glyph indices of those items. */
  lemma {:induction false} BuildIndexed<E>(mode: SvgMode, t: Point -> Point, naming: u16 -> Option<string>,
                                           visit: u16 -> Result<seq<OutlineCmd>, E>, items: seq<Item>, n: nat)
    requires n <= |items| && Build(mode, t, naming, visit, items, n).Ok?
    ensures Indexed(Gids(items)[..n], Build(mode, t, naming, visit, items, n).value)
  {
    if n == 0 {
      assert Gids(items)[..0] == [];
    } else {
      BuildOkBefore(mode, t, naming, visit, items, n);
      BuildIndexed(mode, t, naming, visit, items, n - 1);
      BuildIndexedStep(mode, t, naming, visit, items, n);
    }
  }

  lemma BuildIndexedStep<E>(mode: SvgMode, t: Point -> Point, naming: u16 -> Option<string>,
                      visit: u16 -> Result<seq<OutlineCmd>, E>, items: seq<Item>, n: nat)
    requires 0 < n <= |items| && Build(mode, t, naming, visit, items, n).Ok?
    requires Build(mode, t, naming, visit, items, n - 1).Ok?
    requires Indexed(Gids(items)[..n - 1], Build(mode, t, naming, visit, items, n - 1).value)
    ensures Indexed(Gids(items)[..n], Build(mode, t, naming, visit, items, n).value)
  {
    BuildUnfold(mode, t, naming, visit, items, n);
    StepIndexed(mode, t, naming, visit, Gids(items)[..n - 1], Build(mode, t, naming, visit, items, n - 1).value, items[n - 1]);
    GidsPrefix(items, n);
  }

  /** A failed loop stays failed. */
  lemma BuildErr<E>(mode: SvgMode, t: Point -> Point, naming: u16 -> Option<string>,
                    visit: u16 -> Result<seq<OutlineCmd>, E>, items: seq<Item>, n: nat)
    requires 0 < n <= |items| && Build(mode, t, naming, visit, items, n - 1).Err?
    ensures Build(mode, t, naming, visit, items, n).Err?
  {
  }

  /** What each symbol holds: the glyph's name, a crosshair origin exactly
      when annotating, and the path of the glyph's whole outline. In view
      mode that is the plain path text; in text-rendering-test mode it is
      the truncating sink's output for the outline, from whatever sink state
      the earlier glyphs left. */
  ghost predicate Drawn<E>(mode: SvgMode, t: Point -> Point, naming: u16 -> Option<string>,
                           visit: u16 -> Result<seq<OutlineCmd>, E>, symbols: seq<Symbol>) {
    forall j | 0 <= j < |symbols| ::
      && symbols[j].glyphName == GlyphName(naming, SymbolGid(symbols[j]))
      && (symbols[j].origin.Some? <==> Annotates(mode))
      && visit(SymbolGid(symbols[j])).Ok?
      && (mode.View? ==> symbols[j].path == PathText(Number, t, visit(SymbolGid(symbols[j])).value))
      && (mode.TextRenderingTests? ==> TruncatedPath(t, visit(SymbolGid(symbols[j])).value, symbols[j].path))
  }

  /** `path` is what the truncating sink writes for `cmds` from some sink state. */
  ghost predicate TruncatedPath(t: Point -> Point, cmds: seq<OutlineCmd>, path: string) {
    exists tracker: Tracker :: path == Feed(true, Number, t, tracker, "", cmds).1
  }

  lemma StepDrawn<E>(mode: SvgMode, t: Point -> Point, naming: u16 -> Option<string>,
                     visit: u16 -> Result<seq<OutlineCmd>, E>, b: Builder, item: Item)
    requires Drawn(mode, t, naming, visit, b.symbols) && Step(mode, t, naming, visit, b, item).Ok?
    ensures Drawn(mode, t, naming, visit, Step(mode, t, naming, visit, b, item).value.symbols)
  {
    var r := Step(mode, t, naming, visit, b, item).value;
    var gid := item.0.glyph.glyphIndex;
    StepShape(mode, t, naming, visit, b, item);
    if gid !in b.symbolMap {
      assert forall j | 0 <= j < |b.symbols| :: r.symbols[j] == b.symbols[j] by {
        assert forall j | 0 <= j < |b.symbols| :: r.symbols[..|b.symbols|][j] == r.symbols[j];
      }
      if mode.View? {
        ViewFeed(Number, t, b.tracker, "", visit(gid).value);
        assert "" + PathText(Number, t, visit(gid).value) == PathText(Number, t, visit(gid).value);
      }
      if mode.TextRenderingTests? {
        assert r.symbols[|b.symbols|].path == Feed(true, Number, t, b.tracker, "", visit(gid).value).1;
        assert TruncatedPath(t, visit(gid).value, r.symbols[|b.symbols|].path);
      }
    }
  }

  lemma {:induction false} BuildDrawn<E>(mode: SvgMode, t: Point -> Point, naming: u16 -> Option<string>,
                                         visit: u16 -> Result<seq<OutlineCmd>, E>, items: seq<Item>, n: nat)
    requires n <= |items| && Build(mode, t, naming, visit, items, n).Ok?
    ensures Drawn(mode, t, naming, visit, Build(mode, t, naming, visit, items, n).value.symbols)
  {
    if n > 0 {
      BuildOkBefore(mode, t, naming, visit, items, n);
      BuildDrawn(mode, t, naming, visit, items, n - 1);
      BuildDrawnStep(mode, t, naming, visit, items, n);
    } else {
      assert Build(mode, t, naming, visit, items, n).value == Start;
    }
  }

  lemma BuildDrawnStep<E>(mode: SvgMode, t: Point -> Point, naming: u16 -> Option<string>,
                      visit: u16 -> Result<seq<OutlineCmd>, E>, items: seq<Item>, n: nat)
    requires 0 < n <= |items| && Build(mode, t, naming, visit, items, n).Ok?
    requires Build(mode, t, naming, visit, items, n - 1).Ok?
    requires Drawn(mode, t, naming, visit, Build(mode, t, naming, visit, items, n - 1).value.symbols)
    ensures Drawn(mode, t, naming, visit, Build(mode, t, naming, visit, items, n).value.symbols)
  {
    BuildUnfold(mode, t, naming, visit, items, n);
    StepDrawn(mode, t, naming, visit, Build(mode, t, naming, visit, items, n - 1).value, items[n - 1]);
  }

  /** Each symbol carries the info of its glyph's first occurrence among
      the first `n` items. */
  ghost predicate FirstInfos(items: seq<Item>, n: nat, symbols: seq<Symbol>)
    requires n <= |items|
  {
    forall j | 0 <= j < |symbols| ::
      && SymbolGid(symbols[j]) in Gids(items)[..n]
      && symbols[j].info == items[FirstIndex(Gids(items)[..n], SymbolGid(symbols[j]))].0
  }

  lemma {:induction false} BuildFirstInfos<E>(mode: SvgMode, t: Point -> Point, naming: u16 -> Option<string>,
                                              visit: u16 -> Result<seq<OutlineCmd>, E>, items: seq<Item>, n: nat)
    requires n <= |items| && Build(mode, t, naming, visit, items, n).Ok?
    ensures FirstInfos(items, n, Build(mode, t, naming, visit, items, n).value.symbols)
  {
    if n > 0 {
      BuildOkBefore(mode, t, naming, visit, items, n);
      BuildFirstInfos(mode, t, naming, visit, items, n - 1);
      BuildIndexed(mode, t, naming, visit, items, n - 1);
      BuildFirstInfosStep(mode, t, naming, visit, items, n);
    }
  }

  lemma BuildFirstInfosStep<E>(mode: SvgMode, t: Point -> Point, naming: u16 -> Option<string>,
                               visit: u16 -> Result<seq<OutlineCmd>, E>, items: seq<Item>, n: nat)
    requires 0 < n <= |items| && Build(mode, t, naming, visit, items, n).Ok?
    requires Build(mode, t, naming, visit, items, n - 1).Ok?
    requires Indexed(Gids(items)[..n - 1], Build(mode, t, naming, visit, items, n - 1).value)
    requires FirstInfos(items, n - 1, Build(mode, t, naming, visit, items, n - 1).value.symbols)
    ensures FirstInfos(items, n, Build(mode, t, naming, visit, items, n).value.symbols)
  {
    var b := Build(mode, t, naming, visit, items, n - 1).value;
    var item := items[n - 1];
    BuildUnfold(mode, t, naming, visit, items, n);
    StepShape(mode, t, naming, visit, b, item);
    KeptInfos(items, n, b.symbols);
    if item.0.glyph.glyphIndex !in b.symbolMap {
      NewInfo(items, n, b.symbols, Step(mode, t, naming, visit, b, item).value.symbols);
    }
  }

  /** Symbols drawn before item `n - 1` keep their first occurrences. */
  lemma KeptInfos(items: seq<Item>, n: nat, symbols: seq<Symbol>)
    requires 0 < n <= |items| && FirstInfos(items, n - 1, symbols)
    ensures FirstInfos(items, n, symbols)
  {
    var p, s := Gids(items)[..n - 1], Gids(items)[..n];
    assert p == s[..|p|];
    forall j | 0 <= j < |symbols|
      ensures SymbolGid(symbols[j]) in s && symbols[j].info == items[FirstIndex(s, SymbolGid(symbols[j]))].0
    {
      FirstIndexPrefix(s, p, SymbolGid(symbols[j]));
    }
  }

  /** A glyph met for the first time at item `n - 1` gets that item's info. */
  lemma NewInfo(items: seq<Item>, n: nat, before: seq<Symbol>, after: seq<Symbol>)
    requires 0 < n <= |items| && FirstInfos(items, n, before)
    requires items[n - 1].0.glyph.glyphIndex !in Gids(items)[..n - 1]
    requires |after| == |before| + 1 && after[..|before|] == before
    requires after[|before|].info == items[n - 1].0
    ensures FirstInfos(items, n, after)
  {
    var s := Gids(items)[..n];
    GidsPrefix(items, n);
    FirstIndexLast(s, items[n - 1].0.glyph.glyphIndex);
    assert forall j | 0 <= j < |before| :: after[j] == before[j];
  }

  /** Every glyph in the map was visited successfully. */
  ghost predicate AllVisited<E>(visit: u16 -> Result<seq<OutlineCmd>, E>, b: Builder) {
    forall g | g in b.symbolMap :: visit(g).Ok?
  }

  lemma StepVisited<E>(mode: SvgMode, t: Point -> Point, naming: u16 -> Option<string>,
                       visit: u16 -> Result<seq<OutlineCmd>, E>, b: Builder, item: Item)
    requires AllVisited(visit, b) && Step(mode, t, naming, visit, b, item).Ok?
    ensures AllVisited(visit, Step(mode, t, naming, visit, b, item).value)
  {
    StepShape(mode, t, naming, visit, b, item);
  }

  lemma {:induction false} BuildVisited<E>(mode: SvgMode, t: Point -> Point, naming: u16 -> Option<string>,
                                           visit: u16 -> Result<seq<OutlineCmd>, E>, items: seq<Item>, n: nat)
    requires n <= |items| && Build(mode, t, naming, visit, items, n).Ok?
    ensures AllVisited(visit, Build(mode, t, naming, visit, items, n).value)
  {
    if n > 0 {
      BuildOkBefore(mode, t, naming, visit, items, n);
      BuildVisited(mode, t, naming, visit, items, n - 1);
      BuildVisitedStep(mode, t, naming, visit, items, n);
    } else {
      assert Build(mode, t, naming, visit, items, n).value == Start;
    }
  }

  lemma BuildVisitedStep<E>(mode: SvgMode, t: Point -> Point, naming: u16 -> Option<string>,
                      visit: u16 -> Result<seq<OutlineCmd>, E>, items: seq<Item>, n: nat)
    requires 0 < n <= |items| && Build(mode, t, naming, visit, items, n).Ok?
    requires Build(mode, t, naming, visit, items, n - 1).Ok?
    requires AllVisited(visit, Build(mode, t, naming, visit, items, n - 1).value)
    ensures AllVisited(visit, Build(mode, t, naming, visit, items, n).value)
  {
    BuildUnfold(mode, t, naming, visit, items, n);
    StepVisited(mode, t, naming, visit, Build(mode, t, naming, visit, items, n - 1).value, items[n - 1]);
  }

  /** Visiting each of the first `n` items' glyphs succeeds. */
  ghost predicate VisitsOk<E>(visit: u16 -> Result<seq<OutlineCmd>, E>, items: seq<Item>, n: nat)
    requires n <= |items|
  {
    forall k | 0 <= k < n :: visit(items[k].0.glyph.glyphIndex).Ok?
  }

  /** The loop fails exactly when visiting some glyph fails: a glyph seen
      before is not visited again, but its first visit succeeded. */
  lemma {:induction false} BuildSucceeds<E>(mode: SvgMode, t: Point -> Point, naming: u16 -> Option<string>,
                                            visit: u16 -> Result<seq<OutlineCmd>, E>, items: seq<Item>, n: nat)
    requires n <= |items|
    ensures Build(mode, t, naming, visit, items, n).Ok? <==> VisitsOk(visit, items, n)
  {
    if n > 0 {
      BuildSucceeds(mode, t, naming, visit, items, n - 1);
      BuildSucceedsStep(mode, t, naming, visit, items, n);
    }
  }

  lemma BuildSucceedsStep<E>(mode: SvgMode, t: Point -> Point, naming: u16 -> Option<string>,
                             visit: u16 -> Result<seq<OutlineCmd>, E>, items: seq<Item>, n: nat)
    requires 0 < n <= |items|
    requires Build(mode, t, naming, visit, items, n - 1).Ok? <==> VisitsOk(visit, items, n - 1)
    ensures Build(mode, t, naming, visit, items, n).Ok? <==> VisitsOk(visit, items, n)
  {
    VisitsOkStep(visit, items, n);
    if Build(mode, t, naming, visit, items, n - 1).Ok? {
      BuildVisited(mode, t, naming, visit, items, n - 1);
      BuildLastVisit(mode, t, naming, visit, items, n);
    } else {
      BuildErr(mode, t, naming, visit, items, n);
    }
  }

  lemma VisitsOkStep<E>(visit: u16 -> Result<seq<OutlineCmd>, E>, items: seq<Item>, n: nat)
    requires 0 < n <= |items|
    ensures VisitsOk(visit, items, n) <==> VisitsOk(visit, items, n - 1) && visit(items[n - 1].0.glyph.glyphIndex).Ok?
  {
  }

  lemma BuildLastVisit<E>(mode: SvgMode, t: Point -> Point, naming: u16 -> Option<string>,
                          visit: u16 -> Result<seq<OutlineCmd>, E>, items: seq<Item>, n: nat)
    requires 0 < n <= |items| && Build(mode, t, naming, visit, items, n - 1).Ok?
    requires AllVisited(visit, Build(mode, t, naming, visit, items, n - 1).value)
    ensures Build(mode, t, naming, visit, items, n).Ok? <==> visit(items[n - 1].0.glyph.glyphIndex).Ok?
  {
    BuildUnfold(mode, t, naming, visit, items, n);
    StepFacts(mode, t, naming, visit, Build(mode, t, naming, visit, items, n - 1).value, items[n - 1]);
  }
}
